=== FILE: README.md ===
# DatingApp core, modelled in Dafny

This project models the statable core of the DatingApp, an ASP.NET API with an Angular client. Every operation is a pure
function from an immutable state to a new state, a result and the hub events it emits. The parts modelled are:

- the presence registry (`PresenceTracker`) and the online/offline broadcasts of `PresenceHub`;
- the conversation-group coordinator `MessageHub`;
- the message store (`MessageRepository`, `MessagesController`);
- the profile, like and role rules of `UsersController`, `LikesController`, `LikesRepository`, `AdminController` and
  `UserRepository`;
- pagination (`PagedList`, `PaginationParams`);
- three client-side reducers: the online-user list, the busy counter and the role-checkbox builder.

Conventions:

- Persistence success (`SaveAllAsync`, `Complete`) is a boolean parameter `saveOk`.
- The clock is an integer timestamp parameter `now`.
- Results of the photo host are parameters.
- Outgoing hub messages are returned as a list of sends.

Modules, one per component:

| module | component |
|---|---|
| `Common` | shared types (`Option`, `Outcome`, `ActionResult`, `Int32`) and sequence helpers |
| `Strings` | ordinal order, ASCII lower-casing, split and join |
| `Sorting` | the key sort that stands in for an `OrderBy` the store runs as SQL `ORDER BY` |
| `Paging` | `PagedList` and `PaginationParams` |
| `Entities` | the records of `API/Entities` |
| `PresenceTracker`, `PresenceHub`, `PresenceClient` | presence: server registry, hub, client list |
| `MessageRepository`, `MessageHub`, `MessagesController` | messages |
| `UserRepository`, `UsersController` | members and photos |
| `LikesRepository`, `LikesController` | likes |
| `AdminController`, `UserManagement` | roles and photo moderation |
| `BusyClient` | the busy counter |

## Model

| member | source | states |
|---|---|---|
| Common.RemoveFirst | API/SignalR/PresenceTracker.cs:56 | removing a connection id takes exactly one occurrence out of the list when present (multiset difference) and leaves the list unchanged when absent |
| Common.RemoveFirstTakesFirst | API/SignalR/PresenceTracker.cs:56 | the occurrence removed is the first: the list is cut at the first position holding the id, as `List<T>.Remove` does |
| Common.RemoveAt | API/Controllers/UsersController.cs:221 | removing the photo at one position shortens the list by one and keeps every other photo in order |
| Strings.OrdinalIsStrictTotalOrder | API/SignalR/MessageHub.cs:198 | ordinal string comparison is irreflexive, asymmetric, total and transitive, so group names and the online list have one canonical order |
| Strings.OrdinalLessIrreflexive | API/SignalR/MessageHub.cs:198 | no name is ordinally before itself |
| Strings.OrdinalLessAsymmetric | API/SignalR/MessageHub.cs:198 | two names are never each before the other |
| Strings.OrdinalLessTotal | API/SignalR/MessageHub.cs:198 | of two distinct names one is ordinally first |
| Strings.OrdinalLessTransitive | API/SignalR/MessageHub.cs:198 | ordinal order is transitive |
| Strings.ToLowerChar | API/SignalR/MessageHub.cs:87 | upper-case ASCII letters map to their lower-case letter, every other character is kept |
| Strings.ToLower | API/Controllers/MessagesController.cs:33 | lower-casing keeps the length and lower-cases each character |
| Strings.Split | API/Controllers/AdminController.cs:54 | splitting on ',' yields at least one part and no part contains the separator |
| Strings.JoinSplit | API/Controllers/AdminController.cs:54 | joining the parts of a split with the separator gives back the original string |
| Strings.SplitJoin | client/src/app/_services/admin.service.ts:21-24 | a non-empty list of comma-free role names, sent as its comma-joined string form, is split back by the server into exactly that list |
| Sorting.Insert | API/Data/MessageRepository.cs:89 | inserting into a list sorted by key keeps it sorted and adds exactly that element |
| Sorting.Sort | API/Data/MessageRepository.cs:89 | sorting by a key yields a permutation of the input, ordered by the key |
| Sorting.ConstantKeySortIsIdentity | API/Data/MessageRepository.cs:89 | when all keys are equal, sorting leaves the sequence unchanged: the model puts ties in store order, one of the orders SQL admits |
| Paging.DefaultParams | API/Helpers/PaginationParams.cs:6-11 | fresh parameters have page number 1 and page size 10, which is within the cap |
| Paging.SetPageSize | API/Helpers/PaginationParams.cs:13-19 | a value above 50 stores 50, any other value (negative included) is stored unchanged, and the page number is untouched |
| Paging.PageSizeStaysCapped | API/Helpers/PaginationParams.cs:5-19 | after any sequence of page-size assignments the size is at most 50, and it is the clamp of the last value assigned |
| Paging.DefaultPageSizeStaysCapped | API/Helpers/PaginationParams.cs:5-19 | from the defaults, the page size never exceeds 50 |
| Paging.CeilDiv | API/Helpers/PagedList.cs:16 | the page count is the least number of pages of the given size that covers the count |
| Paging.PageStart | API/Helpers/PagedList.cs:43 | `Skip` starts at the offset clamped into [0, count] |
| Paging.TakeCount | API/Helpers/PagedList.cs:43 | the rows a SQL `LIMIT` keeps: all remaining rows for a negative size, otherwise min(size, remaining) |
| Paging.SkipTake | API/Helpers/PagedList.cs:43 | skip-then-take, run as `LIMIT`/`OFFSET`, yields the source slice at the clamped offset; for a negative size it runs to the end of the source |
| Paging.CreatePage | API/Helpers/PagedList.cs:13-46 | total count is the source length; current page and size echo the inputs; total pages is the ceiling of count over size; the items are the slice from (page-1)*size, at most size long, or to the end of the source for a negative size |
| Paging.FirstPageHoldsAll | API/Helpers/PagedList.cs:43 | page 1 of a size at least the count is the whole source |
| Paging.NegativeSizeHasNoLimit | API/Helpers/PagedList.cs:43 | with a negative size every page from 1 on is the whole source, and an earlier page is the source after its offset |
| Paging.PageItemAt | API/Helpers/PagedList.cs:43 | every item of a page is an element of the source |
| Paging.PageItemsFromSource | API/Helpers/PagedList.cs:43 | a page holds only elements of the source |
| Paging.PageKeepsOrder | API/Helpers/PagedList.cs:43 | a page of a sorted source is sorted |
| Paging.EveryItemIsOnSomePage | API/Helpers/PagedList.cs:16-43 | for a positive size every source element is on some page between 1 and `TotalPages`, and on page 1 when that page holds the whole source |
| Paging.PagesUpToIsPrefix | API/Helpers/PagedList.cs:43 | the first k pages laid end to end are the source's prefix of length min(k*size, count) |
| Paging.PageIsSlice | API/Helpers/PagedList.cs:43 | for a positive size a page is the slice [(page-1)*size, page*size) cut to the source |
| Paging.PagesReproduceSource | API/Helpers/PagedList.cs:16-43 | pages 1 to TotalPages laid end to end reproduce the source |
| Paging.WrapInt32 | API/Helpers/PagedList.cs:43 | the two's-complement wrap of a C# `int` expression: identity in range, congruent modulo 2^32 |
| Paging.CreatePageAsWritten | API/Helpers/PagedList.cs:43 | the page as the code computes it: the skip offset is `(pageNumber - 1) * pageSize` in unchecked 32-bit arithmetic |
| Paging.AsWrittenAgreesWithoutOverflow | API/Helpers/PagedList.cs:43 | when the offset fits in an `int`, the page as written equals the intended page |
| Paging.SkipOffsetWrapsToFirstPage | API/Helpers/PagedList.cs:43 | page 268435457 of size 16 wraps the offset to 0 and returns page 1 instead of an empty page |
| Entities.AddYears | API/Data/UserRepository.cs:64-65 | `AddYears` fails (the method throws) exactly when the target year is outside 1..9999; otherwise it shifts the year and keeps month and day, except that 29 February becomes 28 February in a non-leap year |
| PresenceTracker.UserConnected | API/SignalR/PresenceTracker.cs:17-44 | reports online exactly when the user had no entry; the id ends up in the user's list (appended, or a new one-element list); other users are untouched; non-empty lists are preserved |
| PresenceTracker.UserDisconnected | API/SignalR/PresenceTracker.cs:46-67 | an unknown user is a no-op reporting false; otherwise one occurrence of the id is removed, and the user goes offline (key removed) exactly when the list becomes empty; other users are untouched; non-empty lists are preserved |
| PresenceTracker.LastConnectionIffOnlyConnection | API/SignalR/PresenceTracker.cs:56-63 | a disconnect reports offline exactly when the id was the user's only connection |
| PresenceTracker.SortedNames | API/SignalR/PresenceTracker.cs:79 | the names of a set in strictly ascending order, each once |
| PresenceTracker.GetOnlineUsers | API/SignalR/PresenceTracker.cs:71-83 | exactly the registry's keys, each once, in ascending order |
| PresenceTracker.GetConnectionsForUser | API/SignalR/PresenceTracker.cs:87-100 | the user's list when present, none otherwise |
| PresenceTracker.OnlineIffHasConnections | API/SignalR/PresenceTracker.cs:71-100 | a user is listed online exactly when the user has a non-empty connection list |
| PresenceTracker.SecondConnectionIsNotATransition | API/SignalR/PresenceTracker.cs:29-39 | the first connection reports online, a second one for the same user does not |
| PresenceTracker.OnlyLastCloseIsOffline | API/SignalR/PresenceTracker.cs:46-67 | closing all of a user's connections one by one, in any order, reports offline on the last close and on no other |
| PresenceHub.OnConnected | API/SignalR/PresenceHub.cs:20-40 | the caller is registered; `UserIsOnline` goes to Others exactly when this is the user's first connection; the caller last receives the sorted online list, taken after registration and so including the caller |
| PresenceHub.OnDisconnected | API/SignalR/PresenceHub.cs:42-56 | `UserIsOffline` goes to Others exactly when the closed id was the user's only connection, that is exactly when the user leaves the registry; nothing is sent otherwise |
| PresenceHub.Delivered | API/SignalR/PresenceHub.cs:31-50 | Others reaches every open connection but the caller; only Caller and an explicit list can reach the caller |
| PresenceHub.TransitionsSkipTheCause | API/SignalR/PresenceHub.cs:31-50 | online and offline announcements never reach the connection that caused them |
| PresenceHub.SecondDeviceIsSilent | API/SignalR/PresenceHub.cs:26-32 | a second connection of an online user sends no `UserIsOnline` |
| PresenceHub.NotifyNewMessage | API/SignalR/MessageHub.cs:122-134 | `NewMessageReceived` with the sender's name and known-as goes to exactly the recipient's connections, and nothing is sent when the tracker has none |
| PresenceClient.Initial | client/src/app/_services/presence.service.ts:18 | the online list starts empty |
| PresenceClient.RemoveAll | client/src/app/_services/presence.service.ts:57-62 | the filter removes every occurrence of the name and keeps exactly the other names |
| PresenceClient.RemoveAllCount | client/src/app/_services/presence.service.ts:60 | the filter keeps every other name as many times as it occurred |
| PresenceClient.RemoveAllDistributes | client/src/app/_services/presence.service.ts:60 | filtering a concatenation filters each part, so the order of the others is kept |
| PresenceClient.Receive | client/src/app/_services/presence.service.ts:49-66 | `UserIsOnline` appends the name with no duplicate check; `UserIsOffline` filters it out; `GetOnlineUsers` replaces the list |
| PresenceClient.Inbox | API/SignalR/PresenceHub.cs:31-50 | a client receives only events whose audience reaches it, in send order |
| PresenceClient.ReachesIsDelivery | API/SignalR/PresenceHub.cs:31-50 | the client-side reach test agrees with server-side delivery for open connections |
| PresenceClient.SnapshotMirrors | client/src/app/_services/presence.service.ts:64-66 | after a snapshot the client lists exactly the online users |
| PresenceClient.ConnectingClientMirrors | API/SignalR/PresenceHub.cs:20-40 | whatever its list held, a connecting client ends up listing exactly the online users |
| PresenceClient.SnapshotReceived | client/src/app/_services/presence.service.ts:64-66 | a caller whose last received event is the snapshot mirrors the registry |
| PresenceClient.WatcherMirrorsAfterConnect | API/SignalR/PresenceHub.cs:20-40 | a client that mirrored the online users still mirrors them after someone else connects |
| PresenceClient.AnnouncementReceived | client/src/app/_services/presence.service.ts:49-55 | an online announcement keeps a watcher's list mirroring the registry |
| PresenceClient.WatcherMirrorsAfterDisconnect | API/SignalR/PresenceHub.cs:42-56 | a client that mirrored the online users still mirrors them after someone else disconnects |
| PresenceClient.NoDuplicatesAfterRemove | client/src/app/_services/presence.service.ts:60 | filtering a duplicate-free list leaves it duplicate-free |
| MessageHub.GetGroupName | API/SignalR/MessageHub.cs:195-201 | the ordinally smaller name, "-", then the other name |
| MessageHub.GroupNameSymmetric | API/SignalR/MessageHub.cs:195-201 | both participants compute the same group name |
| MessageHub.AddToGroup | API/SignalR/MessageHub.cs:152-171 | fails with "Failed to join group" exactly when the save fails; otherwise a missing group is created with the one connection, an existing group gains exactly that connection at the end, the group is found by name afterwards and other groups are kept |
| MessageHub.ReplacedGroupIsFound | API/SignalR/MessageHub.cs:165 | an updated group is still found at its place by name |
| MessageHub.ConnectionIndex | API/SignalR/MessageHub.cs:182 | finds the first connection with the id, or reports there is none |
| MessageHub.RemoveFromMessageGroup | API/SignalR/MessageHub.cs:174-189 | fails with "Failed to remove from group" exactly when the save fails; otherwise the caller's group loses exactly the connection with that id and other groups are kept |
| MessageHub.JoinThenLeaveRestoresMembers | API/SignalR/MessageHub.cs:152-189 | joining and then leaving restores the group's connections |
| MessageHub.SendMessage | API/SignalR/MessageHub.cs:82-146 | rejects a self-send (lower-cased recipient) and an unknown recipient; the message is stamped read at `now` exactly when the recipient is in the group, otherwise the recipient's presence connections are notified; `NewMessage` goes to the group only after a successful save, and a failed save stores and broadcasts nothing |
| MessageHub.OnConnected | API/SignalR/MessageHub.cs:35-64 | fails exactly when joining fails; otherwise the group update with the caller's connection goes to the group first, then the marked-read thread goes to the caller |
| MessageHub.OnDisconnected | API/SignalR/MessageHub.cs:71-77 | fails exactly when leaving fails; otherwise the group, one connection shorter, is sent to its members and the messages are untouched |
| MessageRepository.ThreadMessages | API/Data/MessageRepository.cs:83-88 | the thread filter keeps only messages between the two users not deleted on the current user's side |
| MessageRepository.ThreadMessagesCount | API/Data/MessageRepository.cs:83-88 | the thread holds every thread message of the store, as often as the store does, and nothing else |
| MessageRepository.MarkAll | API/Data/MessageRepository.cs:100-109 | read-marking acts message by message and keeps positions |
| MessageRepository.GetMessageThread | API/Data/MessageRepository.cs:74-117 | the store changes only in `DateRead`, only for unread thread messages to the current user, which get `now`; the result is exactly the updated thread messages, ascending by send time, every inbound one read; a save happens exactly when something was unread |
| MessageRepository.ThreadIsPermutationOfUpdatedThread | API/Data/MessageRepository.cs:83-89 | the returned thread is a permutation of the updated store's thread messages, in ascending send order |
| MessageRepository.ThreadIsStamped | API/Data/MessageRepository.cs:100-109 | every returned message to the current user has a read date |
| MessageRepository.ThreadIsSortedUpdatedThread | API/Data/MessageRepository.cs:83-109 | marking the sorted thread equals sorting the thread of the marked store, so the returned objects are the tracked ones |
| MessageRepository.SortedMessagesAreThread | API/Data/MessageRepository.cs:83-89 | every fetched message satisfies the thread filter |
| MessageRepository.UnreadInSortedIffInStore | API/Data/MessageRepository.cs:100-104 | the fetched thread has an unread inbound message exactly when the store has one |
| MessageRepository.StoreThreadMessageIsFetched | API/Data/MessageRepository.cs:83-95 | every thread message of the store is fetched |
| MessageRepository.FetchedMessageIsInStore | API/Data/MessageRepository.cs:83-95 | every fetched message comes from the store and is a thread message |
| MessageRepository.ThreadMarkCommute | API/Data/MessageRepository.cs:83-109 | filtering then marking equals marking then filtering |
| MessageRepository.SortMarkCommute | API/Data/MessageRepository.cs:89-109 | marking does not change send times, so sorting and marking commute |
| MessageRepository.MarkAllKeepsSorted | API/Data/MessageRepository.cs:89-109 | marking keeps the ascending send order |
| MessageRepository.InsertMarkCommute | API/Data/MessageRepository.cs:89-109 | marking commutes with one insertion step of the sort |
| MessageRepository.ContainerMessages | API/Data/MessageRepository.cs:51-60 | the container filter keeps only messages of that container: Inbox, Outbox, or unread inbox for any other value |
| MessageRepository.ContainerMessagesCount | API/Data/MessageRepository.cs:51-60 | the container holds every matching message of the store, as often as the store does, and nothing else |
| MessageRepository.ContainerMessagesKeepOrder | API/Data/MessageRepository.cs:47-60 | filtering a newest-first list keeps it newest first |
| MessageRepository.NewestFirstContainer | API/Data/MessageRepository.cs:45-60 | the container of the newest-first store is newest first and a permutation of the store's container |
| MessageRepository.GetMessagesForUser | API/Data/MessageRepository.cs:43-66 | every item is a store message of the requested container; items are newest first; the total is the container size; page number and size are echoed; the items are exactly the requested page (offset (page-1)*size, at most size long, or to the end for a negative size) of the newest-first container listing, a sorted permutation of the container by `NewestFirstContainer` |
| MessageRepository.ContainerFromStore | API/Data/MessageRepository.cs:45-60 | sorting before filtering keeps the container's size and draws only from the store |
| MessageRepository.GetMessage | API/Data/MessageRepository.cs:32-41 | finds the message with the id, or reports there is none |
| MessageRepository.GroupIndex | API/Data/MessageRepository.cs:136-141 | position of the first group with the name, or none |
| MessageRepository.GetMessageGroup | API/Data/MessageRepository.cs:136-141 | a group with that name, or none exactly when no group has it |
| MessageRepository.ConnectionGroupIndex | API/Data/MessageRepository.cs:150-157 | position of the first group holding the connection, or none |
| MessageRepository.GetGroupForConnection | API/Data/MessageRepository.cs:150-157 | a group holding the connection id, or none exactly when no group holds it |
| MessagesController.CreateMessage | API/Controllers/MessagesController.cs:28-65 | BadRequest for a self-send before any lookup, NotFound for an unknown recipient; Ok exactly when the recipient exists and the save succeeds, appending one unread, undeleted message with the sender, recipient name and content; nothing is stored otherwise |
| MessagesController.CreatedMessageIsListed | API/Controllers/MessagesController.cs:44-62 | a created message adds one copy of itself to the recipient's Unread container and to the sender's Outbox, the containers `GetMessagesForUser` filters by |
| MessagesController.GetMessagesForUser | API/Controllers/MessagesController.cs:72-81 | the username is bound to the caller, so every item was sent or received by the caller and comes from the store; page number and size are echoed |
| MessagesController.DeleteMessage | API/Controllers/MessagesController.cs:86-110 | Unauthorized exactly when the caller is neither party; the caller's side flag is set and no flag is cleared; the message is removed exactly when both flags end up set; Ok needs a save that changed something; no change on any error |
| MessagesController.DeleteNeverClearsFlags | API/Controllers/MessagesController.cs:97-98 | a delete never clears a deleted flag |
| MessagesController.RepeatedDeleteChangesNothing | API/Data/UnitOfWork.cs:28-34 | repeating a successful soft delete changes nothing, and reports BadRequest because no change was saved |
| UserRepository.FindUser | API/Data/UserRepository.cs:102-107 | position of the user with that name, or none |
| UserRepository.FindUserIsTheUser | API/Data/UserRepository.cs:102-107 | with unique names the lookup finds the one user with the name |
| UserRepository.GetUserByUsername | API/Data/UserRepository.cs:102-107 | the user with that name, or none exactly when no user has it |
| UserRepository.GetUserGender | API/Data/UserRepository.cs:110-116 | the gender of a user with that name, or none exactly when no user has it |
| UserRepository.GetMember | API/Data/UserRepository.cs:25-44 | the member with that name, or none exactly when no user has it |
| UserRepository.CurrentUserFlagHasNoEffect | API/Data/UserRepository.cs:41 | with no query filter configured, `isCurrentUser` does not change the result |
| UserRepository.Matches | API/Data/UserRepository.cs:57-66 | every kept user is not the caller, has the requested gender and a birth date within the age window |
| UserRepository.MatchesCount | API/Data/UserRepository.cs:57-66 | the filter keeps every matching user as often as the store has it, and nothing else |
| UserRepository.OrderKey | API/Data/UserRepository.cs:69-76 | "created" orders by creation time, any other value by last activity |
| UserRepository.MatchesKeepOrder | API/Data/UserRepository.cs:57-76 | filtering a sorted list keeps it sorted |
| UserRepository.OrderedMatches | API/Data/UserRepository.cs:57-76 | the ordered query is sorted and a permutation of the matches, drawn from the users |
| UserRepository.PageItemsMatch | API/Data/UserRepository.cs:57-84 | every paged member is a stored user that matches the filters |
| UserRepository.PageItemsOrdered | API/Data/UserRepository.cs:69-84 | the page is newest created first, or most recently active first |
| UserRepository.GetMembers | API/Data/UserRepository.cs:49-85 | fails exactly when an end of the age window falls outside the calendar; otherwise: never the caller; the requested gender; birth date in [today - (MaxAge+1) years, today - MinAge years]; ordered by the requested key descending; total is the number of matches; page number and size echoed; the items are exactly the requested page of the ordered matches, a sorted permutation of the matches by `OrderedMatches` |
| UserRepository.AgeBeyondCalendarFails | API/Data/UserRepository.cs:64 | a maximum age at least the current year puts the earliest birth date before year 1, so the search fails |
| UserRepository.DefaultAgesNeverFail | API/Data/UserRepository.cs:64-65 | with the default ages 18 and 150 the search never fails from year 152 to 9999 |
| UsersController.DefaultQuery | API/Helpers/UserParams.cs:7-11 | the default query: page 1 of 10, ages 18 to 150, ordered by last activity, no gender |
| UsersController.DefaultGender | API/Controllers/UsersController.cs:46-49 | "female" for a male caller and "male" otherwise, a caller with no gender included |
| UsersController.BindUserParams | API/Controllers/UsersController.cs:40-50 | the current username is the caller; an empty or missing gender becomes the default for the caller's gender; the rest is passed through |
| UsersController.GetUsers | API/Controllers/UsersController.cs:40-59 | a server error exactly when the bound age window leaves the calendar; otherwise no item is the caller, and every item has the bound gender |
| UsersController.DefaultSearchIsOppositeGender | API/Controllers/UsersController.cs:43-49 | without a gender a male caller sees only women and any other caller only men |
| UsersController.GetUser | API/Controllers/UsersController.cs:64-69 | the member with that name, or none |
| UsersController.OwnProfileIsTheSame | API/Controllers/UsersController.cs:66-68 | who asks does not change the profile returned |
| UsersController.PhotoIndex | API/Controllers/UsersController.cs:171 | position of the first photo with the id, or none |
| UsersController.MainIndex | API/Controllers/UsersController.cs:178 | position of the first main photo, or none |
| UsersController.CountMainUpdate | API/Controllers/UsersController.cs:178-183 | replacing one photo changes the main count by that photo's contribution only |
| UsersController.SwapMain | API/Controllers/UsersController.cs:178-183 | the target becomes main, the first previous main is cleared, every other photo is unchanged; at most one main before gives exactly one after |
| UsersController.SetMainPhoto | API/Controllers/UsersController.cs:159-190 | BadRequest when the photo is already main or the save fails, with no change; otherwise NoContent, only the caller's photos change, only in `isMain`, the target is main and at most one main before gives exactly one after |
| UsersController.SetMainKeepsOneMain | API/Controllers/UsersController.cs:178-183 | at most one main photo stays at most one main photo |
| UsersController.DeletePhoto | API/Controllers/UsersController.cs:195-232 | NotFound for an unknown id, BadRequest for the main photo; the host deletion is asked for exactly the photo's public id; a host error keeps the photo; Ok exactly when deletable and saved, removing that photo and nothing else |
| UsersController.RemovePhotoFacts | API/Controllers/UsersController.cs:221 | removing one photo takes exactly that photo out and lowers the main count only if it was main |
| UsersController.DeleteRemovesOnlyThatPhoto | API/Controllers/UsersController.cs:195-232 | after a successful delete no photo has the id, the other photos remain and the main count is unchanged |
| UsersController.CountMainSplit | API/Controllers/UsersController.cs:178 | the main count of a concatenation is the sum of the counts |
| LikesController.AddLike | API/Controllers/LikesController.cs:29-64 | NotFound for an unknown user, BadRequest for a self-like or an existing like; Ok exactly when none of these applies and the save succeeds, adding exactly one like (source, liked id); no change otherwise |
| LikesController.AddLikeKeepsLikesUnique | API/Controllers/LikesController.cs:46-59 | adding a like never creates a duplicate (source, liked) pair |
| LikesController.SecondLikeIsRejected | API/Controllers/LikesController.cs:46-48 | liking the same user twice is rejected the second time and changes nothing |
| LikesController.NoSelfLike | API/Controllers/LikesController.cs:43 | with unique ids, a successful like never targets the source |
| LikesController.GetUserLikes | API/Controllers/LikesController.cs:70-88 | the listing is for the caller: "liked" lists only users the caller likes, "likedBy" only users who like the caller, each as the requested page of the caller's join |
| LikesController.QueryUserIdIsIgnored | API/Controllers/LikesController.cs:75 | the user id in the query has no effect, since it is overwritten with the caller's |
| LikesController.LikedUserIsListed | API/Controllers/LikesController.cs:29-88 | after a successful like, the liked user appears on some page of the caller's "liked" listing, for every page size the capped parameters allow, and on page 1 when the page is larger than the likes held before |
| LikesRepository.GetUserLike | API/Data/LikesRepository.cs:19-23 | finds the like by the composite key, or none exactly when no such like exists |
| LikesRepository.FindUserById | API/Data/LikesRepository.cs:40-47 | position of the user with the id, or none |
| LikesRepository.MainPhotoUrl | API/Data/LikesRepository.cs:59 | the url of a main photo, or none exactly when no photo is main |
| LikesRepository.ToRow | API/Data/LikesRepository.cs:52-61 | a row carries the user's id, name, known-as, city and main photo url |
| LikesRepository.InsertByUsername | API/Data/LikesRepository.cs:30 | insertion into a name-ordered list keeps it ordered and adds exactly that user |
| LikesRepository.SortByUsername | API/Data/LikesRepository.cs:30 | the users ordered by name, a permutation of the input |
| LikesRepository.SortByUsernameKeepsSorted | API/Data/LikesRepository.cs:30 | sorting an already name-ordered list leaves it unchanged |
| LikesRepository.JoinedUsers | API/Data/LikesRepository.cs:40-47 | projecting likes onto users yields stored users, at most one per like |
| LikesRepository.UserWithId | API/Data/LikesRepository.cs:40-47 | the join of one like yields at most one stored user |
| LikesRepository.JoinedUserHasLike | API/Data/LikesRepository.cs:36-47 | every joined user is the far end of some like |
| LikesRepository.LikeEndIsJoined | API/Data/LikesRepository.cs:36-47 | the far end of every like, when stored, is joined |
| LikesRepository.LikesOf | API/Data/LikesRepository.cs:36-45 | keeps exactly the likes whose source (liked) or target (likedBy) is the user |
| LikesRepository.Rows | API/Data/LikesRepository.cs:52-61 | one row per user, in order |
| LikesRepository.LikeListing | API/Data/LikesRepository.cs:34-65 | the total is the number of joined users, at most the number of likes; "liked" rows are users the user likes, "likedBy" rows users who like the user; the items are the requested page of the joined rows |
| LikesRepository.ListedUserHasLike | API/Data/LikesRepository.cs:34-65 | every listed row is the far end of some like |
| LikesRepository.LikesOfBound | API/Data/LikesRepository.cs:36-45 | filtering likes never adds any |
| LikesRepository.GetUserLikes | API/Data/LikesRepository.cs:25-66 | "liked" and "likedBy" list only the matching like ends, at most one per like; any other value lists every user; page number and size echoed; the items are the requested page of the joined rows, or of all users in username order |
| LikesRepository.RowsKeepUsernameOrder | API/Data/LikesRepository.cs:30-61 | projecting name-ordered users to rows keeps the name order |
| LikesRepository.PageKeepsUsernameOrder | API/Data/LikesRepository.cs:65 | paging keeps the name order |
| LikesRepository.EveryoneIsListedByUsername | API/Data/LikesRepository.cs:30 | for any other value the listing is ordered by user name |
| LikesRepository.EveryLikeIsListed | API/Data/LikesRepository.cs:34-65 | for any positive page size, every liked (or liking) stored user is on some page, and on page 1 when the page is at least the number of likes |
| AdminController.EditRoles | API/Controllers/AdminController.cs:51-76 | NotFound with no change for an unknown user; a server error with no change when a role to add does not exist; a failed add changes nothing; a failed remove leaves the added roles; on success the user holds exactly the comma-split selection; other users are untouched; only existing roles are ever held |
| AdminController.BindRoles | API/Controllers/AdminController.cs:49-51 | the `roles` query value binds as null exactly when it is empty or all white space, and as itself otherwise |
| AdminController.EditRolesRequest | API/Controllers/AdminController.cs:49-76 | a null-bound `roles` is refused with a bad request and no change; any other value runs `EditRoles`; only a success replaces the user's roles by the selection, and only a bad request can leave an added role behind |
| AdminController.UnknownRoleChangesNothing | API/Controllers/AdminController.cs:51-67 | a selection naming a role that does not exist fails with a server error and changes nothing |
| AdminController.EditRolesChangesOnlyTheDifference | API/Controllers/AdminController.cs:65-70 | for a selection of existing roles, the roles added are the selected roles not held, and the roles removed are the held roles not selected |
| AdminController.EditRolesIsIdempotent | API/Controllers/AdminController.cs:51-76 | submitting the same selection twice leaves the roles as after the first |
| AdminController.ResubmittingHeldRolesChangesNothing | API/Controllers/AdminController.cs:51-76 | sending the held roles back, as the client joins them, changes nothing |
| AdminController.PhotoOwner | API/Data/UserRepository.cs:93-100 | the first user owning a photo with the id, or none exactly when no user owns one |
| AdminController.HasMain | API/Controllers/AdminController.cs:103 | whether any photo of the owner is main |
| AdminController.ApprovePhoto | API/Controllers/AdminController.cs:92-108 | NotFound with no change exactly when no photo has the id; otherwise Ok, the photo is approved and becomes main exactly when its owner has no main photo; nothing else changes |
| AdminController.ApproveKeepsOneMain | API/Controllers/AdminController.cs:98-103 | an owner with at most one main photo has exactly one after an approval |
| AdminController.ApproveIsIdempotent | API/Controllers/AdminController.cs:92-108 | approving twice has the effect of approving once |
| AdminController.ApproveFixesApproved | API/Controllers/AdminController.cs:92-108 | approving an already approved photo of an owner with a main photo changes nothing |
| AdminController.RejectPhoto | API/Controllers/AdminController.cs:114-135 | always Ok; host deletion is asked for exactly the public id; the photo is removed when it has no public id or the host answers "ok", and kept otherwise |
| AdminController.RejectRemovesThePhoto | API/Controllers/AdminController.cs:118-130 | a removal takes exactly that photo out of the owner's photos |
| UserManagement.GetRolesArray | client/src/app/admin/user-management/user-management.component.ts:62-97 | three entries Admin, Moderator, Member in that order, each checked exactly when the user holds that role |
| UserManagement.SelectedRoles | client/src/app/admin/user-management/user-management.component.ts:50 | the names of exactly the checked entries; one entry gives its name when checked and nothing otherwise |
| UserManagement.SelectedRolesInEntryOrder | client/src/app/admin/user-management/user-management.component.ts:50 | selection distributes over concatenation of entry lists, so the names come in entry order |
| UserManagement.UntouchedDialogSendsHeldRoles | client/src/app/admin/user-management/user-management.component.ts:40-50 | confirming the dialog untouched sends back exactly the offered roles the user holds |
| UserManagement.RolesShown | client/src/app/admin/user-management/user-management.component.ts:53-56 | after the request the page shows exactly the checked names on success, and the roles it showed before otherwise |
| UserManagement.SelectionReachesServer | client/src/app/admin/user-management/user-management.component.ts:45-57 | a non-empty selection of offered roles reaches the server intact: the request succeeds, the user then holds exactly the checked roles, and the page shows exactly those roles |
| UserManagement.FailedEditKeepsShownRoles | client/src/app/admin/user-management/user-management.component.ts:53-56 | when the removal fails the page keeps showing the old roles, although the server has already granted the newly selected ones |
| UserManagement.OfferedRoleIsSeeded | API/Data/Seed.cs:33-37 | every role the dialog offers is one the seed creates, and none contains a comma |
| UserManagement.EmptySelectionSendsEmptyValue | client/src/app/_services/admin.service.ts:21-24 | an empty selection is sent as an empty `roles` value, which query-string binding turns into null |
| UserManagement.EmptySelectionIsRefused | API/Controllers/AdminController.cs:49-54 | clearing every box and saving is refused with a bad request before `EditRoles` runs; the roles and the page are unchanged |
| BusyClient.Initial | client/src/app/_services/busy.service.ts:11 | the counter starts at 0 with the spinner hidden |
| BusyClient.StartRequest | client/src/app/_services/busy.service.ts:16-24 | `busy` adds one and shows the spinner |
| BusyClient.EndRequest | client/src/app/_services/busy.service.ts:26-32 | `idle` subtracts one; at or below zero it resets to 0 and hides the spinner |
| BusyClient.StepKeepsInv | client/src/app/_services/busy.service.ts:16-32 | each step keeps the counter non-negative and the spinner shown exactly while it is positive |
| BusyClient.RunKeepsInv | client/src/app/_services/busy.service.ts:11-32 | after any sequence of signals from the start, the counter is non-negative and the spinner shows exactly while it is positive |
| BusyClient.WellNestedCount | client/src/app/_services/busy.service.ts:11-32 | when completions never outrun starts, the counter is the number of outstanding requests |
| BusyClient.CountBoundedByStarts | client/src/app/_services/busy.service.ts:11-32 | the counter never exceeds the number of requests started |
| BusyClient.HiddenOnlyAtZero | client/src/app/_services/busy.service.ts:28-31 | `idle` hides the spinner exactly when the counter reaches 0 |
| BusyClient.Replay | client/src/app/_services/busy.service.ts:11-32 | replaying signals one by one gives the same state, non-negative, spinner shown exactly while positive |

## Left out

- Concurrency: the SignalR transport, connection lifecycle, async plumbing and the `lock` in `PresenceTracker`. Each tracker and hub call is one atomic step.
- Persistence: EF Core, `DataContext` and the database are in-memory sequences. `SaveAllAsync` and `Complete` are the boolean `saveOk`.
- EF navigation fix-up: it is assumed to hold. The `Message` record carries both usernames, and every lookup goes by name.
- AutoMapper and DTO projection: members and messages are returned as entities. A like row has no `Age`, because age is computed from the wall clock.
- Photo host (Cloudinary): its results are parameters. `PhotoService.cs` is not part of this model.
- `PhotoRepository` is not part of this model. `GetPhotoById` is modelled as a search through the users' photos, the same search `GetUserByPhotoId` does.
- `LikesParams.cs` is not part of this model. Its fields are the ones `LikesRepository.cs` uses, and the `Predicate` field is named `filter`.
- Identity: `UserManager` role storage is a map from username to a role set, and the roles that exist are the three the seed creates. Adding a role that does not exist throws, which is a server error with nothing saved. Otherwise `AddToRolesAsync` and `RemoveFromRolesAsync` each succeed or fail as a whole, per a boolean parameter.
- Name matching: Identity name normalisation and SQL collation are not modelled. Every name lookup is an exact string match.
- Ordering: the culture-sensitive `OrderBy` on usernames (online list, likes listing) is modelled as ordinal order.
- Tie order: the store runs `OrderBy` as SQL `ORDER BY`, which leaves the order of equal keys unspecified. The model fixes one admissible order, ties in store order; no contract depends on it.
- Strings.ToLower: lower-cases ASCII letters only. Culture-sensitive lower-casing of other letters is not modelled.
- UserRepository.GetUserByUsername: `SingleOrDefault` is modelled as the first match. The exception on duplicate names is not modelled; names are unique in the store.
- Integer width: 32-bit wrap-around of the `PagedList` skip offset is modelled only in `Paging.CreatePageAsWritten` (see Findings). Ids, counts and timestamps are unbounded integers.
- UserRepository.GetMembers, MessageRepository.GetMessagesForUser and LikesRepository.GetUserLikes page through the corrected `Paging.CreatePage`. For a page whose skip offset overflows an `int`, such as page 268435457 of size 16, they return the empty page where the code as written returns page 1.
- Paging.CreatePage: leaves `totalPages` undefined for a page size of 0. The code divides a double by zero there and casts infinity to `int`.
- Negative page sizes: the page size cap lets them through. The page count follows the ceiling formula. The store is SQLite, which reads a negative `LIMIT` as no limit and a negative `OFFSET` as 0, so the page holds every row from the offset on.
- MessageRepository.GetMessageThread: reports whether a save happens, but the save's own result is ignored, as in the code.
- LikesRepository.LikeListing: lists the liked or liking users in the order of the likes table. The database returns that projection in an unspecified order, so the model states no order property for it; the page is cut from the listing in that fixed order.
- `GetUserWithRoles`, `GetPhotosForModeration`, `UpdateUser` and `AddPhoto`: read-only projections or host-dependent uploads outside the modelled rules.
- UserManagement.SelectionReachesServer: requires a non-empty selection of offered roles. The empty selection is refused with no change, as `EmptySelectionIsRefused` states.
- Query binding: an empty or white-space `roles` value binds as null, as ASP.NET Core's `ConvertEmptyStringToNull` does, and only ASCII white space is modelled. The parameter is non-nullable, so validation refuses the request with a bad request. The project file, which sets the nullable context, is not part of this model. Without that context the action would throw on `Split` instead; either way nothing changes.
- Null dereferences in the code are preconditions:
  - the group in `SendMessage` and `RemoveFromMessageGroup`;
  - the message in `DeleteMessage`;
  - the photo in `RejectPhoto`;
  - the source user in `AddLike`;
  - the caller's user in `SetMainPhoto` and `DeletePhoto`;
  - the photo in `SetMainPhoto`, which is looked up with `FirstOrDefault`;
  - the sender in `MessagesController.CreateMessage`;
  - the sender in `MessageHub.SendMessage`.
- Behaviours kept as the code has them:
  - On first connect the caller receives a snapshot that already includes the caller.
  - A failed save in `MessageHub.SendMessage` is silent: nothing is broadcast and no error is raised.
  - The `NewMessageReceived` notification is sent before the save.
- Clock: `DateTime.UtcNow` and `DateTime.Today` are integer or date parameters, and each call reads the clock once. In the code `MessageHub.SendMessage` stamps `MessageSent` and `DateRead` at two reads, and `GetMessageThread` reads the clock once per message it marks; the model gives them one shared stamp. `AddYears` is the only calendar rule modelled.

## Findings

| source | as written | input that shows it | evidently intended | confidence | as-written member | corrected member |
|---|---|---|---|---|---|---|
| API/Helpers/PagedList.cs:43 | the skip offset `(pageNumber - 1) * pageSize` is computed in unchecked 32-bit `int` arithmetic and wraps | pageNumber 268435457, pageSize 16: the offset 2^32 wraps to 0, so page 1 is returned instead of an empty page | the offset of the requested page, so a page beyond the end is empty | medium, not executed | Paging.CreatePageAsWritten, Paging.SkipOffsetWrapsToFirstPage | Paging.CreatePage |

=== FILE: admin_controller.dfy ===
/** The administration endpoints: reconcile a user's roles with a
    selected list, and approve or reject an uploaded photo. Role
    membership is a map from username to the set of role names held; a
    user missing from the map holds no role. */
module AdminController {
  import opened Common
  import opened Strings
  import opened Entities
  import UserRepository
  import UsersController

  type RoleStore = map<string, set<string>>

  function Held(roles: RoleStore, username: string): set<string>
  {
    if username in roles then roles[username] else {}
  }

  datatype RolesStep = RolesStep(roles: RoleStore, result: ActionResult, granted: set<string>)

  /** The roles the seed creates. No endpoint creates or deletes a role,
      so these are the roles that exist. */
  const SeededRoles: set<string> := {"Member", "Admin", "Moderator"}

  /** Every role a user holds exists (the user-role table's foreign key). */
  predicate RolesExist(roles: RoleStore)
  {
    forall u :: u in roles ==> roles[u] <= SeededRoles
  }

  /** The role names of a comma-separated selection. */
  function SelectedSet(selection: string): set<string>
  {
    set s | s in Split(selection, ',')
  }

  /** Every role the selection would add exists. */
  predicate AddsKnownRoles(roles: RoleStore, username: string, selection: string)
  {
    SelectedSet(selection) - Held(roles, username) <= SeededRoles
  }

  /** `EditRoles`. `roles` is the comma-separated selection; `addOk` and
      `removeOk` are the identity store's verdicts on the two updates.
      Adding a role that does not exist makes the identity store throw
      before anything is saved, which the action does not catch. The
      addition is applied before the removal is tried, so a failed removal
      leaves the added roles in place. */
  function EditRoles(users: seq<AppUser>, roles: RoleStore, username: string, selection: string, addOk: bool, removeOk: bool)
    : (r: RolesStep)
    ensures UserRepository.FindUser(users, username).None? ==>
      r == RolesStep(roles, NotFound(Some("Could not find user")), {})
    ensures UserRepository.FindUser(users, username).Some? && !AddsKnownRoles(roles, username, selection) ==>
      r == RolesStep(roles, ServerError, {})
    ensures UserRepository.FindUser(users, username).Some? && AddsKnownRoles(roles, username, selection) && !addOk ==>
      r == RolesStep(roles, BadRequest("Failed to add to roles"), {})
    ensures UserRepository.FindUser(users, username).Some? && AddsKnownRoles(roles, username, selection) && addOk && !removeOk ==>
      r == RolesStep(roles[username := Held(roles, username) + SelectedSet(selection)],
                     BadRequest("Failed to remove from roles"), {})
    ensures r.result.Ok? <==>
      && UserRepository.FindUser(users, username).Some?
      && AddsKnownRoles(roles, username, selection)
      && addOk && removeOk
    ensures r.result.Ok? ==>
      && r.roles == roles[username := SelectedSet(selection)]
      && r.granted == SelectedSet(selection)
    ensures forall u :: u != username ==> Held(r.roles, u) == Held(roles, u)
    ensures RolesExist(roles) ==> RolesExist(r.roles)
  {
    var selected := SelectedSet(selection);
    if UserRepository.FindUser(users, username).None? then RolesStep(roles, NotFound(Some("Could not find user")), {})
    else
      var held := Held(roles, username);
      if !AddsKnownRoles(roles, username, selection) then RolesStep(roles, ServerError, {})
      else if !addOk then RolesStep(roles, BadRequest("Failed to add to roles"), {})
      else
        var added := held + (selected - held);
        assert added == held + selected;
        if !removeOk then RolesStep(roles[username := added], BadRequest("Failed to remove from roles"), {})
        else
          var after := added - (held - selected);
          assert after == selected;
          RolesStep(roles[username := after], Ok, after)
  }

  /** A selection naming a role that does not exist fails with nothing
      changed; the empty selection, sent as one empty name, is one. */
  lemma UnknownRoleChangesNothing(users: seq<AppUser>, roles: RoleStore, username: string, selection: string, role: string,
                                  addOk: bool, removeOk: bool)
    requires RolesExist(roles)
    requires UserRepository.FindUser(users, username).Some?
    requires role in Split(selection, ',') && role !in SeededRoles
    ensures EditRoles(users, roles, username, selection, addOk, removeOk) == RolesStep(roles, ServerError, {})
  {
    assert role in SelectedSet(selection) - Held(roles, username);
  }

  /** White space as query-string binding treats it (ASCII only). */
  predicate IsWhiteSpace(c: char)
  {
    c == ' ' || c == '\t' || c == '\n' || c == '\r'
  }

  /** Binding of the `roles` query value: an empty or all-white-space
      value binds as null. */
  function BindRoles(raw: string): (r: Option<string>)
    ensures r.None? <==> forall i :: 0 <= i < |raw| ==> IsWhiteSpace(raw[i])
    ensures r.Some? ==> r.value == raw
  {
    if forall i :: 0 <= i < |raw| ==> IsWhiteSpace(raw[i]) then None else Some(raw)
  }

  /** The message of the automatic bad request for a missing required
      parameter. */
  const RolesRequired: string := "The roles field is required."

  /** The `edit-roles` request as it arrives. `roles` is a non-nullable
      `string`, so a value that binds as null fails validation and the
      request is refused before the action runs, with nothing changed. */
  function EditRolesRequest(users: seq<AppUser>, roles: RoleStore, username: string, rawRoles: string,
                            addOk: bool, removeOk: bool): (r: RolesStep)
    ensures BindRoles(rawRoles).None? ==> r == RolesStep(roles, BadRequest(RolesRequired), {})
    ensures BindRoles(rawRoles).Some? ==> r == EditRoles(users, roles, username, rawRoles, addOk, removeOk)
    ensures r.result.Ok? ==> r.roles == roles[username := SelectedSet(rawRoles)]
    ensures !r.result.Ok? && !r.result.BadRequest? ==> r.roles == roles
  {
    match BindRoles(rawRoles)
    case None => RolesStep(roles, BadRequest(RolesRequired), {})
    case Some(value) => EditRoles(users, roles, username, value, addOk, removeOk)
  }

  /** For a selection of existing roles the two updates touch only what
      differs: the added roles are the selected ones not yet held, and the
      removed roles the held ones not selected. */
  lemma EditRolesChangesOnlyTheDifference(users: seq<AppUser>, roles: RoleStore, username: string, selection: string)
    requires UserRepository.FindUser(users, username).Some?
    requires SelectedSet(selection) <= SeededRoles
    ensures
      var selected := SelectedSet(selection);
      var after := Held(EditRoles(users, roles, username, selection, true, true).roles, username);
      var before := Held(roles, username);
      && after - before == selected - before
      && before - after == before - selected
  {
  }

  /** Repeating an edit that succeeded changes nothing more. */
  lemma EditRolesIsIdempotent(users: seq<AppUser>, roles: RoleStore, username: string, selection: string)
    requires UserRepository.FindUser(users, username).Some?
    ensures
      var once := EditRoles(users, roles, username, selection, true, true).roles;
      EditRoles(users, once, username, selection, true, true).roles == once
  {
  }

  /** Submitting the roles a user holds, joined with commas, leaves them
      as they are (role names never contain a comma). */
  lemma ResubmittingHeldRolesChangesNothing(users: seq<AppUser>, roles: RoleStore, username: string, held: seq<string>)
    requires UserRepository.FindUser(users, username).Some?
    requires username in roles && roles[username] == set s | s in held
    requires |held| >= 1
    requires forall i :: 0 <= i < |held| ==> ',' !in held[i]
    ensures EditRoles(users, roles, username, Join(held, ','), true, true).roles == roles
  {
    SplitJoin(held, ',');
  }

  /** Index of the first user holding a photo with that id, or `None`. */
  function PhotoOwner(users: seq<AppUser>, photoId: int): (r: Option<nat>)
    ensures r.Some? ==> r.value < |users| && UsersController.PhotoIndex(users[r.value].photos, photoId).Some?
    ensures r.Some? ==> forall j :: 0 <= j < r.value ==> UsersController.PhotoIndex(users[j].photos, photoId).None?
    ensures r.None? <==> forall j :: 0 <= j < |users| ==> UsersController.PhotoIndex(users[j].photos, photoId).None?
  {
    if |users| == 0 then None
    else if UsersController.PhotoIndex(users[0].photos, photoId).Some? then Some(0)
    else match PhotoOwner(users[1..], photoId)
      case None => None
      case Some(k) => Some(k + 1)
  }

  function HasMain(photos: seq<Photo>): (b: bool)
    ensures b <==> exists j :: 0 <= j < |photos| && photos[j].isMain
  {
    UsersController.MainIndex(photos).Some?
  }

  /** `ApprovePhoto`: the photo is approved, and becomes the main photo
      exactly when its owner has none. Saving is awaited but its verdict
      is not consulted. */
  function ApprovePhoto(users: seq<AppUser>, photoId: int): (r: UsersController.UsersStep)
    ensures PhotoOwner(users, photoId).None? <==> r.result == NotFound(Some("Could not find photo"))
    ensures PhotoOwner(users, photoId).None? ==> r.users == users
    ensures PhotoOwner(users, photoId).Some? ==> r.result == Ok
    ensures PhotoOwner(users, photoId).Some? ==>
      var u := PhotoOwner(users, photoId).value;
      var photos := users[u].photos;
      var t := UsersController.PhotoIndex(photos, photoId).value;
      && |r.users| == |users|
      && (forall j :: 0 <= j < |users| && j != u ==> r.users[j] == users[j])
      && r.users[u] == users[u].(photos := photos[t := photos[t].(isApproved := true, isMain := photos[t].isMain || !HasMain(photos))])
  {
    match PhotoOwner(users, photoId)
    case None => UsersController.UsersStep(users, NotFound(Some("Could not find photo")))
    case Some(u) =>
      var photos := users[u].photos;
      var t := UsersController.PhotoIndex(photos, photoId).value;
      var approved := photos[t].(isApproved := true);
      var photo := if !HasMain(photos) then approved.(isMain := true) else approved;
      UsersController.UsersStep(users[u := users[u].(photos := photos[t := photo])], Ok)
  }

  /** Approval never gives a user a second main photo, and gives one to a
      user who had none. */
  lemma ApproveKeepsOneMain(users: seq<AppUser>, photoId: int)
    requires PhotoOwner(users, photoId).Some?
    requires CountMain(users[PhotoOwner(users, photoId).value].photos) <= 1
    ensures
      var u := PhotoOwner(users, photoId).value;
      CountMain(ApprovePhoto(users, photoId).users[u].photos) == 1
  {
    var u := PhotoOwner(users, photoId).value;
    var photos := users[u].photos;
    var t := UsersController.PhotoIndex(photos, photoId).value;
    var p := photos[t].(isApproved := true, isMain := photos[t].isMain || !HasMain(photos));
    UsersController.CountMainUpdate(photos, t, p);
    if !HasMain(photos) {
      UsersController.NoMainCountsZero(photos);
    } else {
      var m := UsersController.MainIndex(photos).value;
      MainCountsOne(photos, m);
    }
  }

  lemma {:induction false} MainCountsOne(photos: seq<Photo>, m: nat)
    requires m < |photos| && photos[m].isMain
    ensures CountMain(photos) >= 1
  {
    if m > 0 {
      MainCountsOne(photos[1..], m - 1);
    }
  }

  /** `PhotoOwner` is the first user holding the photo. */
  lemma PhotoOwnerIs(users: seq<AppUser>, photoId: int, u: nat)
    requires u < |users| && UsersController.PhotoIndex(users[u].photos, photoId).Some?
    requires forall j :: 0 <= j < u ==> UsersController.PhotoIndex(users[j].photos, photoId).None?
    ensures PhotoOwner(users, photoId) == Some(u)
  {
  }

  /** `PhotoIndex` is the first position holding the id. */
  lemma PhotoIndexIs(photos: seq<Photo>, photoId: int, t: nat)
    requires t < |photos| && photos[t].id == photoId
    requires forall j :: 0 <= j < t ==> photos[j].id != photoId
    ensures UsersController.PhotoIndex(photos, photoId) == Some(t)
  {
  }

  /** Approving twice is the same as approving once. */
  lemma ApproveIsIdempotent(users: seq<AppUser>, photoId: int)
    ensures ApprovePhoto(ApprovePhoto(users, photoId).users, photoId) == ApprovePhoto(users, photoId)
  {
    match PhotoOwner(users, photoId)
    case None =>
    case Some(u) =>
      var once := ApprovePhoto(users, photoId).users;
      var photos := users[u].photos;
      var t := UsersController.PhotoIndex(photos, photoId).value;
      var after := once[u].photos;
      assert |after| == |photos| && after[t].id == photoId;
      assert forall j :: 0 <= j < t ==> after[j] == photos[j];
      PhotoIndexIs(after, photoId, t);
      assert forall j :: 0 <= j < u ==> once[j] == users[j];
      PhotoOwnerIs(once, photoId, u);
      assert HasMain(after) by {
        if !HasMain(photos) {
          assert after[t].isMain;
        } else {
          var m := UsersController.MainIndex(photos).value;
          assert after[m].isMain;
        }
      }
      ApproveFixesApproved(once, photoId, u, t);
  }

  /** Approving a photo that is approved, in a gallery with a main photo,
      changes nothing. */
  lemma ApproveFixesApproved(users: seq<AppUser>, photoId: int, u: nat, t: nat)
    requires PhotoOwner(users, photoId) == Some(u)
    requires UsersController.PhotoIndex(users[u].photos, photoId) == Some(t)
    requires users[u].photos[t].isApproved
    requires HasMain(users[u].photos)
    ensures ApprovePhoto(users, photoId) == UsersController.UsersStep(users, Ok)
  {
    var photos := users[u].photos;
    assert photos[t].(isApproved := true) == photos[t];
    assert photos[t := photos[t]] == photos;
    assert users[u].(photos := photos) == users[u];
    assert users[u := users[u]] == users;
  }

  datatype RejectStep = RejectStep(users: seq<AppUser>, result: ActionResult, hostDeletion: Option<string>)

  /** `RejectPhoto`. `hostResult` is the photo host's answer to deleting
      the photo's public id; it is only asked when the photo has one. The
      photo is dereferenced without a check, so it exists. */
  function RejectPhoto(users: seq<AppUser>, photoId: int, hostResult: string): (r: RejectStep)
    requires PhotoOwner(users, photoId).Some?
    ensures r.result == Ok
    ensures
      var u := PhotoOwner(users, photoId).value;
      var photos := users[u].photos;
      var t := UsersController.PhotoIndex(photos, photoId).value;
      && r.hostDeletion == photos[t].publicId
      && (photos[t].publicId.None? || hostResult == "ok" ==>
            r.users == users[u := users[u].(photos := RemoveAt(photos, t))])
      && (photos[t].publicId.Some? && hostResult != "ok" ==> r.users == users)
  {
    var u := PhotoOwner(users, photoId).value;
    var photos := users[u].photos;
    var t := UsersController.PhotoIndex(photos, photoId).value;
    var removed := users[u := users[u].(photos := RemoveAt(photos, t))];
    match photos[t].publicId
    case None => RejectStep(removed, Ok, None)
    case Some(id) => RejectStep(if hostResult == "ok" then removed else users, Ok, Some(id))
  }

  /** A rejected photo that was removed is gone from its owner (photo ids
      being unique), and nothing else of the owner's changed. */
  lemma RejectRemovesThePhoto(users: seq<AppUser>, photoId: int, hostResult: string)
    requires PhotoOwner(users, photoId).Some?
    requires UniquePhotoIds(users[PhotoOwner(users, photoId).value].photos)
    requires
      var u := PhotoOwner(users, photoId).value;
      var t := UsersController.PhotoIndex(users[u].photos, photoId).value;
      users[u].photos[t].publicId.None? || hostResult == "ok"
    ensures
      var u := PhotoOwner(users, photoId).value;
      var after := RejectPhoto(users, photoId, hostResult).users[u].photos;
      && (forall j :: 0 <= j < |after| ==> after[j].id != photoId)
      && multiset(after) + multiset{users[u].photos[UsersController.PhotoIndex(users[u].photos, photoId).value]}
           == multiset(users[u].photos)
  {
    var u := PhotoOwner(users, photoId).value;
    UsersController.RemovePhotoFacts(users[u].photos, UsersController.PhotoIndex(users[u].photos, photoId).value);
  }
}

=== FILE: busy_client.dfy ===
/** The browser's busy indicator: a count of outstanding requests and the
    spinner it drives. Every request start calls `busy`, every completion
    calls `idle`. */
module BusyClient {

  datatype Busy = Busy(count: int, spinner: bool)

  /** No request outstanding, spinner hidden. */
  function Initial(): (s: Busy)
    ensures s.count == 0 && !s.spinner
  {
    Busy(0, false)
  }

  /** A request starts: one more outstanding, spinner shown. */
  function StartRequest(s: Busy): (r: Busy)
    ensures r.count == s.count + 1 && r.spinner
  {
    Busy(s.count + 1, true)
  }

  /** A request completes: one fewer outstanding; at or below zero the
      count is reset to zero and the spinner hidden. */
  function EndRequest(s: Busy): (r: Busy)
    ensures r.count == (if s.count - 1 <= 0 then 0 else s.count - 1)
    ensures s.count - 1 <= 0 ==> !r.spinner
    ensures s.count - 1 > 0 ==> r.spinner == s.spinner
  {
    if s.count - 1 <= 0 then Busy(0, false) else Busy(s.count - 1, s.spinner)
  }

  datatype Signal = Started | Ended

  function Step(s: Busy, e: Signal): Busy
  {
    match e
    case Started => StartRequest(s)
    case Ended => EndRequest(s)
  }

  /** The state after the signals in `events`, from the initial state. */
  function Run(events: seq<Signal>): Busy
    decreases |events|
  {
    if |events| == 0 then Initial() else Step(Run(events[..|events| - 1]), events[|events| - 1])
  }

  /** The count is never negative, and the spinner shows exactly while a
      request is outstanding. */
  ghost predicate Inv(s: Busy)
  {
    s.count >= 0 && (s.spinner <==> s.count > 0)
  }

  lemma StepKeepsInv(s: Busy, e: Signal)
    requires Inv(s)
    ensures Inv(Step(s, e))
  {
  }

  lemma {:induction false} RunKeepsInv(events: seq<Signal>)
    ensures Inv(Run(events))
  {
    if |events| > 0 {
      RunKeepsInv(events[..|events| - 1]);
      StepKeepsInv(Run(events[..|events| - 1]), events[|events| - 1]);
    }
  }

  function Starts(events: seq<Signal>): nat
  {
    if |events| == 0 then 0 else Starts(events[..|events| - 1]) + (if events[|events| - 1] == Started then 1 else 0)
  }

  function Ends(events: seq<Signal>): nat
  {
    if |events| == 0 then 0 else Ends(events[..|events| - 1]) + (if events[|events| - 1] == Ended then 1 else 0)
  }

  /** No prefix completes more requests than it started. */
  ghost predicate WellNested(events: seq<Signal>)
  {
    forall k :: 0 <= k <= |events| ==> Ends(events[..k]) <= Starts(events[..k])
  }

  /** When completions never outrun starts, the count is exactly the
      number of requests still outstanding. */
  lemma {:induction false} WellNestedCount(events: seq<Signal>)
    requires WellNested(events)
    ensures Run(events).count == Starts(events) - Ends(events)
  {
    if |events| > 0 {
      var init := events[..|events| - 1];
      assert WellNested(init) by {
        forall k | 0 <= k <= |init|
          ensures Ends(init[..k]) <= Starts(init[..k])
        {
          assert init[..k] == events[..k];
        }
      }
      WellNestedCount(init);
      assert events[..|events|] == events;
    }
  }

  /** The count never exceeds the number of requests started. */
  lemma {:induction false} CountBoundedByStarts(events: seq<Signal>)
    ensures Run(events).count <= Starts(events)
  {
    if |events| > 0 {
      CountBoundedByStarts(events[..|events| - 1]);
      RunKeepsInv(events[..|events| - 1]);
    }
  }

  /** A completion hides the spinner exactly when it brings the count to
      zero. */
  lemma HiddenOnlyAtZero(s: Busy)
    requires Inv(s)
    ensures !EndRequest(s).spinner <==> EndRequest(s).count == 0
  {
  }

  /** Replays the signals one by one, as the interceptor does. */
  method Replay(events: seq<Signal>) returns (s: Busy)
    ensures s == Run(events)
    ensures s.count >= 0
    ensures s.spinner <==> s.count > 0
  {
    s := Initial();
    var i := 0;
    while i < |events|
      invariant 0 <= i <= |events|
      invariant s == Run(events[..i])
      invariant s.count >= 0 && (s.spinner <==> s.count > 0)
    {
      assert events[..i + 1][..i] == events[..i];
      s := Step(s, events[i]);
      i := i + 1;
    }
    assert events[..|events|] == events;
  }
}

=== FILE: common.dfy ===
/** Result shapes shared by every component: an optional value for the
    source's nullable returns, the outcome of a hub call (which either
    completes or throws a `HubException`), and the HTTP action results the
    controllers return. */
module Common {

  datatype Option<+T> = None | Some(value: T)

  /** A hub method either completes with a value or throws a
      `HubException` carrying a message the client sees. */
  datatype Outcome<+T> = Success(value: T) | Failure(message: string)

  /** The subset of ASP.NET action results the controllers return. */
  datatype ActionResult =
    | Ok
    | NoContent
    | BadRequest(message: string)
    | NotFound(body: Option<string>)
    | Unauthorized
      /** An exception the action does not catch: status 500. */
    | ServerError

  /** The C# `int` range, for request parameters bound from a query string. */
  const Int32Min: int := -0x8000_0000
  const Int32Max: int := 0x7fff_ffff
  type Int32 = x: int | Int32Min <= x <= Int32Max

  /** Number of positions of `s` holding `x`. */
  function Count<T(==)>(s: seq<T>, x: T): nat
  {
    if |s| == 0 then 0 else (if s[0] == x then 1 else 0) + Count(s[1..], x)
  }

  /** `s` with the first occurrence of `x` removed, as `List<T>.Remove`. */
  function RemoveFirst<T(==)>(s: seq<T>, x: T): (r: seq<T>)
    ensures x in s ==> |r| == |s| - 1
    ensures x !in s ==> r == s
    ensures multiset(r) == multiset(s) - multiset{x}
  {
    if |s| == 0 then []
    else
      assert s == [s[0]] + s[1..];
      if s[0] == x then s[1..]
      else [s[0]] + RemoveFirst(s[1..], x)
  }

  /** The occurrence removed is the first one: `RemoveFirst` cuts `s` at
      the first position `i` holding `x`. */
  lemma {:induction false} RemoveFirstTakesFirst<T>(s: seq<T>, x: T) returns (i: nat)
    requires x in s
    ensures i < |s| && s[i] == x && x !in s[..i]
    ensures RemoveFirst(s, x) == s[..i] + s[i + 1..]
  {
    if s[0] == x {
      i := 0;
    } else {
      var t := s[1..];
      var j := RemoveFirstTakesFirst(t, x);
      i := j + 1;
      SliceAfterHead(s, j);
      RemoveFirstStep(s, x, t[..j] + t[j + 1..]);
    }
  }

  /** Cutting `s` after its head: the prefix up to `j + 1` is the head
      followed by the tail's prefix up to `j`, and the suffix after
      `j + 1` is the tail's suffix after `j`. */
  lemma SliceAfterHead<T>(s: seq<T>, j: nat)
    requires j + 1 < |s|
    ensures s[..j + 1] == [s[0]] + s[1..][..j]
    ensures s[j + 2..] == s[1..][j + 1..]
  {
  }

  /** One unfolding of `RemoveFirst` past a head that is not `x`. */
  lemma RemoveFirstStep<T>(s: seq<T>, x: T, rest: seq<T>)
    requires |s| > 0 && s[0] != x && RemoveFirst(s[1..], x) == rest
    ensures RemoveFirst(s, x) == [s[0]] + rest
  {
  }

  /** `s` without position `i`. */
  function RemoveAt<T>(s: seq<T>, i: nat): (r: seq<T>)
    requires i < |s|
    ensures |r| == |s| - 1
    ensures forall k :: 0 <= k < i ==> r[k] == s[k]
    ensures forall k :: i <= k < |r| ==> r[k] == s[k + 1]
  {
    s[..i] + s[i + 1..]
  }
}

=== FILE: entities.dfy ===
/** The persisted records of the application, as immutable values.
    Timestamps (`MessageSent`, `DateRead`, `Created`, `LastActive`) are
    opaque ordered instants, written as integers; dates of birth are
    calendar dates because the member search shifts them by whole years. */
module Entities {
  import opened Common

  /** A chat message. `dateRead` is `None` while unread; each side deletes
      it independently through its own flag. */
  datatype Message = Message(
    id: int,
    senderUsername: string,
    recipientUsername: string,
    content: string,
    dateRead: Option<int>,
    messageSent: int,
    senderDeleted: bool,
    recipientDeleted: bool)

  /** One live connection to the message hub and the user who owns it. */
  datatype Connection = Connection(connectionId: string, username: string)

  /** A conversation group, keyed by its canonical name. */
  datatype Group = Group(name: string, connections: seq<Connection>)

  datatype Photo = Photo(
    id: int,
    url: string,
    isMain: bool,
    publicId: Option<string>,
    isApproved: bool)

  /** A like, keyed by the pair (source user id, liked user id). */
  datatype UserLike = UserLike(sourceUserId: int, likedUserId: int)

  /** A calendar date. */
  datatype Date = Date(year: int, month: int, day: int)

  datatype AppUser = AppUser(
    id: int,
    userName: string,
    knownAs: string,
    gender: string,
    city: string,
    dateOfBirth: Date,
    created: int,
    lastActive: int,
    photos: seq<Photo>)

  /** Chronological order on dates. */
  predicate DateLe(a: Date, b: Date)
  {
    a.year < b.year
    || (a.year == b.year && a.month < b.month)
    || (a.year == b.year && a.month == b.month && a.day <= b.day)
  }

  predicate IsLeapYear(y: int)
  {
    (y % 4 == 0 && y % 100 != 0) || y % 400 == 0
  }

  /** The same month and day `n` years away, with 29 February moved to
      the 28th when the target year is not leap. */
  function ShiftYears(d: Date, n: int): (r: Date)
    ensures r.year == d.year + n && r.month == d.month
    ensures r.day == d.day || (d.month == 2 && d.day == 29 && r.day == 28 && !IsLeapYear(d.year + n))
  {
    if d.month == 2 && d.day == 29 && !IsLeapYear(d.year + n) then Date(d.year + n, 2, 28)
    else Date(d.year + n, d.month, d.day)
  }

  /** Years a `DateTime` can hold. */
  const MinYear: int := 1
  const MaxYear: int := 9999

  /** `DateTime.AddYears`: the shifted date, or `None` where the method
      throws because the target year is outside the `DateTime` range. */
  function AddYears(d: Date, n: int): (r: Option<Date>)
    ensures r.None? <==> !(MinYear <= d.year + n <= MaxYear)
    ensures r.Some? ==> r.value.year == d.year + n && r.value.month == d.month
    ensures r.Some? ==> r.value.day == d.day || (d.month == 2 && d.day == 29 && r.value.day == 28 && !IsLeapYear(d.year + n))
  {
    if MinYear <= d.year + n <= MaxYear then Some(ShiftYears(d, n)) else None
  }

  /** No two users share a username (the identity store's unique index). */
  ghost predicate UniqueUserNames(users: seq<AppUser>)
  {
    forall i, j :: 0 <= i < j < |users| ==> users[i].userName != users[j].userName
  }

  /** No two users share an id (the user table's key). */
  ghost predicate UniqueUserIds(users: seq<AppUser>)
  {
    forall i, j :: 0 <= i < j < |users| ==> users[i].id != users[j].id
  }

  /** No two photos of one user share an id (the photo table's key). */
  ghost predicate UniquePhotoIds(photos: seq<Photo>)
  {
    forall i, j :: 0 <= i < j < |photos| ==> photos[i].id != photos[j].id
  }

  function CountMain(photos: seq<Photo>): nat
  {
    if |photos| == 0 then 0
    else (if photos[0].isMain then 1 else 0) + CountMain(photos[1..])
  }
}

=== FILE: likes_controller.dfy ===
/** The likes HTTP endpoints: like another user, and list likes for the
    caller. */
module LikesController {
  import opened Common
  import opened Entities
  import opened Paging
  import UserRepository
  import LikesRepository

  datatype LikesStep = LikesStep(likes: seq<UserLike>, result: ActionResult)

  /** The source dereferences the caller's record once the liked user is
      found; the authenticated caller exists. */
  predicate SourceExists(users: seq<AppUser>, sourceUserId: int, username: string)
  {
    UserRepository.GetUserByUsername(users, username).Some? ==>
      LikesRepository.FindUserById(users, sourceUserId).Some?
  }

  /** The caller's record, looked up by id. */
  function SourceUser(users: seq<AppUser>, sourceUserId: int): AppUser
    requires LikesRepository.FindUserById(users, sourceUserId).Some?
  {
    users[LikesRepository.FindUserById(users, sourceUserId).value]
  }

  /** `AddLike`. Adding a like always changes the store, so the outcome
      follows the save. */
  function AddLike(users: seq<AppUser>, likes: seq<UserLike>, sourceUserId: int, username: string, saveOk: bool)
    : (r: LikesStep)
    requires SourceExists(users, sourceUserId, username)
    ensures UserRepository.GetUserByUsername(users, username).None? ==> r == LikesStep(likes, NotFound(None))
    ensures UserRepository.GetUserByUsername(users, username).Some? && SourceUser(users, sourceUserId).userName == username ==>
      r == LikesStep(likes, BadRequest("You cannot like yourself"))
    ensures
      var liked := UserRepository.GetUserByUsername(users, username);
      liked.Some? && SourceUser(users, sourceUserId).userName != username && UserLike(sourceUserId, liked.value.id) in likes ==>
        r == LikesStep(likes, BadRequest("You already like this user"))
    ensures
      var liked := UserRepository.GetUserByUsername(users, username);
      r.result.Ok? <==>
        liked.Some? && SourceUser(users, sourceUserId).userName != username && UserLike(sourceUserId, liked.value.id) !in likes && saveOk
    ensures r.result.Ok? ==>
      r.likes == likes + [UserLike(sourceUserId, UserRepository.GetUserByUsername(users, username).value.id)]
    ensures !r.result.Ok? ==> r.likes == likes
    ensures
      var liked := UserRepository.GetUserByUsername(users, username);
      liked.Some? && SourceUser(users, sourceUserId).userName != username && UserLike(sourceUserId, liked.value.id) !in likes && !saveOk ==>
        r.result == BadRequest("Failed to like user")
  {
    match UserRepository.GetUserByUsername(users, username)
    case None => LikesStep(likes, NotFound(None))
    case Some(liked) =>
      if SourceUser(users, sourceUserId).userName == username then LikesStep(likes, BadRequest("You cannot like yourself"))
      else if LikesRepository.GetUserLike(likes, sourceUserId, liked.id).Some? then
        LikesStep(likes, BadRequest("You already like this user"))
      else if saveOk then LikesStep(likes + [UserLike(sourceUserId, liked.id)], Ok)
      else LikesStep(likes, BadRequest("Failed to like user"))
  }

  /** The composite key stays unique. */
  lemma AddLikeKeepsLikesUnique(users: seq<AppUser>, likes: seq<UserLike>, sourceUserId: int, username: string, saveOk: bool)
    requires SourceExists(users, sourceUserId, username)
    requires LikesRepository.UniqueLikes(likes)
    ensures LikesRepository.UniqueLikes(AddLike(users, likes, sourceUserId, username, saveOk).likes)
  {
  }

  /** Liking the same user twice: the second attempt is rejected and
      changes nothing. */
  lemma SecondLikeIsRejected(users: seq<AppUser>, likes: seq<UserLike>, sourceUserId: int, username: string, ok1: bool, ok2: bool)
    requires SourceExists(users, sourceUserId, username)
    requires AddLike(users, likes, sourceUserId, username, ok1).result.Ok?
    ensures
      var once := AddLike(users, likes, sourceUserId, username, ok1).likes;
      AddLike(users, once, sourceUserId, username, ok2) == LikesStep(once, BadRequest("You already like this user"))
  {
    var liked := UserRepository.GetUserByUsername(users, username).value;
    var once := AddLike(users, likes, sourceUserId, username, ok1).likes;
    assert once[|likes|] == UserLike(sourceUserId, liked.id);
  }

  /** With unique ids and names, nobody ever likes themself. */
  lemma NoSelfLike(users: seq<AppUser>, likes: seq<UserLike>, sourceUserId: int, username: string, saveOk: bool)
    requires SourceExists(users, sourceUserId, username)
    requires UniqueUserIds(users)
    requires AddLike(users, likes, sourceUserId, username, saveOk).result.Ok?
    ensures UserRepository.GetUserByUsername(users, username).value.id != sourceUserId
  {
    var k := UserRepository.FindUser(users, username).value;
    var s := LikesRepository.FindUserById(users, sourceUserId).value;
    assert users[s].userName != username;
    assert k != s;
  }

  /** `GetUserLikes`: the query's user id is replaced by the caller's. */
  function GetUserLikes(users: seq<AppUser>, likes: seq<UserLike>, callerId: int, q: LikesRepository.LikesParams)
    : (r: PagedList<LikesRepository.LikeRow>)
    ensures q.filter == "liked" ==> forall i :: 0 <= i < |r.items| ==> UserLike(callerId, r.items[i].id) in likes
    ensures q.filter == "likedBy" ==> forall i :: 0 <= i < |r.items| ==> UserLike(r.items[i].id, callerId) in likes
    ensures r.currentPage == q.pageNumber && r.pageSize == q.pageSize
    ensures q.filter == "liked" ==> IsPageOf(r.items,
      LikesRepository.Rows(LikesRepository.JoinedUsers(users, LikesRepository.LikesOf(likes, callerId, true), true)),
      q.pageNumber, q.pageSize)
    ensures q.filter == "likedBy" ==> IsPageOf(r.items,
      LikesRepository.Rows(LikesRepository.JoinedUsers(users, LikesRepository.LikesOf(likes, callerId, false), false)),
      q.pageNumber, q.pageSize)
  {
    LikesRepository.GetUserLikes(users, likes, q.(userId := callerId))
  }

  /** Whatever user id the query names, the caller sees their own likes. */
  lemma QueryUserIdIsIgnored(users: seq<AppUser>, likes: seq<UserLike>, callerId: int, q: LikesRepository.LikesParams, other: int)
    ensures GetUserLikes(users, likes, callerId, q) == GetUserLikes(users, likes, callerId, q.(userId := other))
  {
    assert q.(userId := callerId) == q.(userId := other).(userId := callerId);
  }

  /** After a successful like, the liked user shows in the caller's liked
      listing: on some page of any page size the API accepts, and on page 1
      when that page is larger than the likes held before. */
  lemma LikedUserIsListed(users: seq<AppUser>, likes: seq<UserLike>, sourceUserId: int, username: string, saveOk: bool,
                          pageSize: int)
    returns (pageNumber: int)
    requires SourceExists(users, sourceUserId, username)
    requires UniqueUserIds(users)
    requires AddLike(users, likes, sourceUserId, username, saveOk).result.Ok?
    requires 0 < pageSize <= MaxPageSize
    ensures pageNumber >= 1
    ensures pageSize > |likes| ==> pageNumber == 1
    ensures
      var after := AddLike(users, likes, sourceUserId, username, saveOk).likes;
      var liked := UserRepository.GetUserByUsername(users, username).value;
      LikesRepository.ToRow(liked) in
        GetUserLikes(users, after, sourceUserId, LikesRepository.LikesParams(0, "liked", pageNumber, pageSize)).items
  {
    var after := AddLike(users, likes, sourceUserId, username, saveOk).likes;
    var k := UserRepository.FindUser(users, username).value;
    var id := users[k].id;
    assert LikesRepository.FindUserById(users, id) == Some(k) by {
      var f := LikesRepository.FindUserById(users, id);
      assert f.Some?;
      assert users[f.value].id == id;
    }
    assert UserLike(sourceUserId, id) in after by {
      assert after[|likes|] == UserLike(sourceUserId, id);
    }
    pageNumber := LikesRepository.EveryLikeIsListed(users, after, sourceUserId, true, k, pageSize);
  }
}

=== FILE: likes_repository.dfy ===
/** The likes store: the composite-key lookup and the liked / liked-by /
    everyone listing, projected to like rows and paged. A like refers to
    users by id; a like whose user is missing contributes no row, which is
    what the join over the foreign key yields. */
module LikesRepository {
  import opened Common
  import opened Strings
  import opened Entities
  import opened Paging
  import Sorting

  /** `GetUserLike`: the like with key (`sourceUserId`, `likedUserId`). */
  function GetUserLike(likes: seq<UserLike>, sourceUserId: int, likedUserId: int): (r: Option<UserLike>)
    ensures r.Some? ==> r.value == UserLike(sourceUserId, likedUserId) && r.value in likes
    ensures r.None? <==> UserLike(sourceUserId, likedUserId) !in likes
  {
    if UserLike(sourceUserId, likedUserId) in likes then Some(UserLike(sourceUserId, likedUserId)) else None
  }

  /** No two likes share a key (the table's composite primary key). */
  ghost predicate UniqueLikes(likes: seq<UserLike>)
  {
    forall i, j :: 0 <= i < j < |likes| ==> likes[i] != likes[j]
  }

  /** Index of the first user with that id, or `None`. */
  function FindUserById(users: seq<AppUser>, id: int): (r: Option<nat>)
    ensures r.Some? ==> r.value < |users| && users[r.value].id == id
    ensures r.None? <==> forall j :: 0 <= j < |users| ==> users[j].id != id
  {
    if |users| == 0 then None
    else if users[0].id == id then Some(0)
    else match FindUserById(users[1..], id)
      case None => None
      case Some(k) => Some(k + 1)
  }

  /** One row of the listing. `photoUrl` is the URL of the user's first
      main photo, `None` when there is none. */
  datatype LikeRow = LikeRow(id: int, username: string, knownAs: string, city: string, photoUrl: Option<string>)

  function MainPhotoUrl(photos: seq<Photo>): (r: Option<string>)
    ensures r.Some? ==> exists p :: p in photos && p.isMain && p.url == r.value
    ensures r.None? <==> forall p :: p in photos ==> !p.isMain
  {
    if |photos| == 0 then None
    else if photos[0].isMain then Some(photos[0].url)
    else MainPhotoUrl(photos[1..])
  }

  function ToRow(u: AppUser): (r: LikeRow)
    ensures r.id == u.id && r.username == u.userName && r.knownAs == u.knownAs && r.city == u.city
    ensures r.photoUrl == MainPhotoUrl(u.photos)
  {
    LikeRow(u.id, u.userName, u.knownAs, u.city, MainPhotoUrl(u.photos))
  }

  /** `users` is in ordinal order of username (ties allowed). */
  predicate ByUsername(s: seq<AppUser>)
  {
    forall i, j :: 0 <= i < j < |s| ==> !OrdinalLess(s[j].userName, s[i].userName)
  }

  function InsertByUsername(x: AppUser, s: seq<AppUser>): (r: seq<AppUser>)
    requires ByUsername(s)
    ensures ByUsername(r)
    ensures multiset(r) == multiset(s) + multiset{x}
    ensures |r| == |s| + 1
  {
    if |s| == 0 then [x]
    else if !OrdinalLess(s[0].userName, x.userName) then
      forall k | 0 <= k < |s|
        ensures !OrdinalLess(s[k].userName, x.userName)
      {
        if k > 0 && OrdinalLess(s[k].userName, x.userName) {
          OrdinalLessTotal(s[0].userName, s[k].userName);
          OrdinalLessTransitive(s[0].userName, s[k].userName, x.userName);
        }
      }
      [x] + s
    else
      var rest := InsertByUsername(x, s[1..]);
      assert s == [s[0]] + s[1..];
      OrdinalLessAsymmetric(s[0].userName, x.userName);
      NotBeforeCarriesOver(rest, s[1..], x, s[0].userName);
      ConsKeepsByUsername(s[0], rest);
      [s[0]] + rest
  }

  /** A name that no username of `base` nor `x`'s sorts before also has
      no username of a permutation of `base` plus `x` sorting before it. */
  lemma NotBeforeCarriesOver(r: seq<AppUser>, base: seq<AppUser>, x: AppUser, name: string)
    requires multiset(r) == multiset(base) + multiset{x}
    requires !OrdinalLess(x.userName, name)
    requires forall k :: 0 <= k < |base| ==> !OrdinalLess(base[k].userName, name)
    ensures forall k :: 0 <= k < |r| ==> !OrdinalLess(r[k].userName, name)
  {
    forall k | 0 <= k < |r|
      ensures !OrdinalLess(r[k].userName, name)
    {
      assert r[k] in multiset(r);
      if r[k] != x {
        assert r[k] in multiset(base);
        var j :| 0 <= j < |base| && base[j] == r[k];
      }
    }
  }

  /** A head whose username no later username sorts before keeps a
      sequence in username order. */
  lemma ConsKeepsByUsername(h: AppUser, rest: seq<AppUser>)
    requires ByUsername(rest)
    requires forall k :: 0 <= k < |rest| ==> !OrdinalLess(rest[k].userName, h.userName)
    ensures ByUsername([h] + rest)
  {
    var r := [h] + rest;
    forall i, j | 0 <= i < j < |r|
      ensures !OrdinalLess(r[j].userName, r[i].userName)
    {
      assert r[j] == rest[j - 1];
      if i > 0 {
        assert r[i] == rest[i - 1];
      }
    }
  }

  /** `OrderBy(u => u.UserName)` under ordinal comparison. */
  function SortByUsername(s: seq<AppUser>): (r: seq<AppUser>)
    ensures ByUsername(r)
    ensures multiset(r) == multiset(s)
    ensures |r| == |s|
  {
    if |s| == 0 then []
    else
      assert s == [s[0]] + s[1..];
      InsertByUsername(s[0], SortByUsername(s[1..]))
  }

  /** A user whose name the head's does not sort before goes in front. */
  lemma InsertByUsernameInFront(x: AppUser, s: seq<AppUser>)
    requires ByUsername(s)
    requires |s| == 0 || !OrdinalLess(s[0].userName, x.userName)
    ensures InsertByUsername(x, s) == [x] + s
  {
  }

  /** Users already in username order are left as they are. */
  lemma {:induction false} SortByUsernameKeepsSorted(s: seq<AppUser>)
    requires ByUsername(s)
    ensures SortByUsername(s) == s
  {
    if |s| > 0 {
      var t := s[1..];
      assert ByUsername(t) by {
        forall i, j | 0 <= i < j < |t|
          ensures !OrdinalLess(t[j].userName, t[i].userName)
        {
          assert t[i] == s[i + 1] && t[j] == s[j + 1];
        }
      }
      SortByUsernameKeepsSorted(t);
      assert SortByUsername(s) == InsertByUsername(s[0], SortByUsername(t));
      if |t| > 0 {
        assert !OrdinalLess(t[0].userName, s[0].userName) by {
          assert t[0] == s[1];
        }
      }
      InsertByUsernameInFront(s[0], t);
      Sorting.HeadTail(s);
    }
  }

  /** The user id at the far side of a like: the liked user when `liked`,
      otherwise the source user. */
  function FarEnd(l: UserLike, liked: bool): int
  {
    if liked then l.likedUserId else l.sourceUserId
  }

  /** The users on the far side of the selected likes, in the order of the
      likes: the liked users when `liked`, otherwise the source users. */
  function JoinedUsers(users: seq<AppUser>, likes: seq<UserLike>, liked: bool): (r: seq<AppUser>)
    ensures forall i :: 0 <= i < |r| ==> r[i] in users
    ensures |r| <= |likes|
  {
    if |likes| == 0 then []
    else UserWithId(users, FarEnd(likes[0], liked)) + JoinedUsers(users, likes[1..], liked)
  }

  /** The user with that id as a one-element sequence, or empty when there
      is none: what an inner join contributes for one like. */
  function UserWithId(users: seq<AppUser>, id: int): (r: seq<AppUser>)
    ensures |r| <= 1
    ensures forall u :: u in r ==> u in users
  {
    match FindUserById(users, id)
    case None => []
    case Some(k) => [users[k]]
  }

  /** Every joined user is the far side of one of the selected likes. */
  lemma {:induction false} JoinedUserHasLike(users: seq<AppUser>, likes: seq<UserLike>, liked: bool, i: nat)
    returns (l: UserLike)
    requires i < |JoinedUsers(users, likes, liked)|
    ensures l in likes && JoinedUsers(users, likes, liked)[i].id == FarEnd(l, liked)
  {
    var head := UserWithId(users, FarEnd(likes[0], liked));
    var tail := JoinedUsers(users, likes[1..], liked);
    assert JoinedUsers(users, likes, liked) == head + tail;
    if i < |head| {
      l := likes[0];
    } else {
      l := JoinedUserHasLike(users, likes[1..], liked, i - |head|);
    }
  }

  /** Every selected like whose far-side user exists yields that user. */
  lemma {:induction false} LikeEndIsJoined(users: seq<AppUser>, likes: seq<UserLike>, liked: bool, l: UserLike)
    returns (i: nat)
    requires l in likes && FindUserById(users, FarEnd(l, liked)).Some?
    ensures i < |JoinedUsers(users, likes, liked)|
    ensures JoinedUsers(users, likes, liked)[i] == users[FindUserById(users, FarEnd(l, liked)).value]
  {
    var head := UserWithId(users, FarEnd(likes[0], liked));
    var tail := JoinedUsers(users, likes[1..], liked);
    assert JoinedUsers(users, likes, liked) == head + tail;
    if l == likes[0] {
      i := 0;
    } else {
      assert likes == [likes[0]] + likes[1..];
      assert l in likes[1..];
      var j := LikeEndIsJoined(users, likes[1..], liked, l);
      i := j + |head|;
    }
  }

  /** The user id at the near side of a like: the source user when
      `liked`, otherwise the liked user. */
  function NearEnd(l: UserLike, liked: bool): int
  {
    if liked then l.sourceUserId else l.likedUserId
  }

  /** The likes whose near side is `userId`, in store order. */
  function LikesOf(likes: seq<UserLike>, userId: int, liked: bool): (r: seq<UserLike>)
    ensures forall l :: l in r <==> l in likes && NearEnd(l, liked) == userId
  {
    if |likes| == 0 then []
    else
      var l := likes[0];
      assert likes == [l] + likes[1..];
      (if NearEnd(l, liked) == userId then [l] else []) + LikesOf(likes[1..], userId, liked)
  }

  /** The query once the controller has bound it to the caller. The
      parameter class is not part of this model; it carries these fields. */
  datatype LikesParams = LikesParams(userId: int, filter: string, pageNumber: int, pageSize: int)

  function Rows(s: seq<AppUser>): (r: seq<LikeRow>)
    ensures |r| == |s|
    ensures forall i :: 0 <= i < |s| ==> r[i] == ToRow(s[i])
  {
    if |s| == 0 then [] else [ToRow(s[0])] + Rows(s[1..])
  }

  /** The users on the far side of `userId`'s likes (those it liked when
      `liked`, those who liked it otherwise), as a paged listing. */
  function LikeListing(users: seq<AppUser>, likes: seq<UserLike>, userId: int, liked: bool, pageNumber: int, pageSize: int)
    : (r: PagedList<LikeRow>)
    ensures r.totalCount == |JoinedUsers(users, LikesOf(likes, userId, liked), liked)|
    ensures r.totalCount <= |likes|
    ensures liked ==> forall i :: 0 <= i < |r.items| ==> UserLike(userId, r.items[i].id) in likes
    ensures !liked ==> forall i :: 0 <= i < |r.items| ==> UserLike(r.items[i].id, userId) in likes
    ensures r.currentPage == pageNumber && r.pageSize == pageSize
    ensures IsPageOf(r.items, Rows(JoinedUsers(users, LikesOf(likes, userId, liked), liked)), pageNumber, pageSize)
  {
    var selectedLikes := LikesOf(likes, userId, liked);
    var r := CreatePage(Rows(JoinedUsers(users, selectedLikes, liked)), pageNumber, pageSize);
    forall i | 0 <= i < |r.items|
      ensures liked ==> UserLike(userId, r.items[i].id) in likes
      ensures !liked ==> UserLike(r.items[i].id, userId) in likes
    {
      var l := ListedUserHasLike(users, selectedLikes, liked, pageNumber, pageSize, i);
      assert l == if liked then UserLike(userId, r.items[i].id) else UserLike(r.items[i].id, userId);
    }
    LikesOfBound(likes, userId, liked);
    r
  }

  /** Each row of a listing built from `likes` is the far side of one of
      them. */
  lemma ListedUserHasLike(users: seq<AppUser>, likes: seq<UserLike>, liked: bool, pageNumber: int, pageSize: int, i: nat)
    returns (l: UserLike)
    requires i < |CreatePage(Rows(JoinedUsers(users, likes, liked)), pageNumber, pageSize).items|
    ensures l in likes
    ensures CreatePage(Rows(JoinedUsers(users, likes, liked)), pageNumber, pageSize).items[i].id == FarEnd(l, liked)
  {
    var selected := JoinedUsers(users, likes, liked);
    var k := PageItemAt(Rows(selected), pageNumber, pageSize, i);
    assert Rows(selected)[k] == ToRow(selected[k]);
    l := JoinedUserHasLike(users, likes, liked, k);
  }

  lemma {:induction false} LikesOfBound(likes: seq<UserLike>, userId: int, liked: bool)
    ensures |LikesOf(likes, userId, liked)| <= |likes|
  {
    if |likes| > 0 {
      LikesOfBound(likes[1..], userId, liked);
    }
  }

  /** `GetUserLikes`: the projected, paged listing. "liked" lists only
      users the caller likes, "likedBy" only users who like the caller,
      anything else every user in username order. */
  function GetUserLikes(users: seq<AppUser>, likes: seq<UserLike>, p: LikesParams): (r: PagedList<LikeRow>)
    ensures p.filter == "liked" ==> forall i :: 0 <= i < |r.items| ==> UserLike(p.userId, r.items[i].id) in likes
    ensures p.filter == "likedBy" ==> forall i :: 0 <= i < |r.items| ==> UserLike(r.items[i].id, p.userId) in likes
    ensures p.filter == "liked" || p.filter == "likedBy" ==> r.totalCount <= |likes|
    ensures p.filter != "liked" && p.filter != "likedBy" ==> r.totalCount == |users|
    ensures r.currentPage == p.pageNumber && r.pageSize == p.pageSize
    ensures p.filter == "liked" ==>
      IsPageOf(r.items, Rows(JoinedUsers(users, LikesOf(likes, p.userId, true), true)), p.pageNumber, p.pageSize)
    ensures p.filter == "likedBy" ==>
      IsPageOf(r.items, Rows(JoinedUsers(users, LikesOf(likes, p.userId, false), false)), p.pageNumber, p.pageSize)
    ensures p.filter != "liked" && p.filter != "likedBy" ==>
      IsPageOf(r.items, Rows(SortByUsername(users)), p.pageNumber, p.pageSize)
  {
    if p.filter == "liked" then LikeListing(users, likes, p.userId, true, p.pageNumber, p.pageSize)
    else if p.filter == "likedBy" then LikeListing(users, likes, p.userId, false, p.pageNumber, p.pageSize)
    else CreatePage(Rows(SortByUsername(users)), p.pageNumber, p.pageSize)
  }

  /** Rows in ordinal order of username (ties allowed). */
  predicate RowsByUsername(rows: seq<LikeRow>)
  {
    forall i, j :: 0 <= i < j < |rows| ==> !OrdinalLess(rows[j].username, rows[i].username)
  }

  lemma RowsKeepUsernameOrder(s: seq<AppUser>)
    requires ByUsername(s)
    ensures RowsByUsername(Rows(s))
  {
    var rows := Rows(s);
    forall i, j | 0 <= i < j < |rows|
      ensures !OrdinalLess(rows[j].username, rows[i].username)
    {
      assert rows[i] == ToRow(s[i]) && rows[j] == ToRow(s[j]);
    }
  }

  lemma PageKeepsUsernameOrder(rows: seq<LikeRow>, pageNumber: int, pageSize: int)
    requires RowsByUsername(rows)
    ensures RowsByUsername(CreatePage(rows, pageNumber, pageSize).items)
  {
    var items := CreatePage(rows, pageNumber, pageSize).items;
    var start := Max(0, (pageNumber - 1) * pageSize);
    forall i, j | 0 <= i < j < |items|
      ensures !OrdinalLess(items[j].username, items[i].username)
    {
      assert items[i] == rows[start + i] && items[j] == rows[start + j];
    }
  }

  /** Any other filter lists every user, in username order. */
  lemma EveryoneIsListedByUsername(users: seq<AppUser>, likes: seq<UserLike>, p: LikesParams)
    requires p.filter != "liked" && p.filter != "likedBy"
    ensures var items := GetUserLikes(users, likes, p).items;
      forall i, j :: 0 <= i < j < |items| ==> !OrdinalLess(items[j].username, items[i].username)
  {
    var rows := Rows(SortByUsername(users));
    RowsKeepUsernameOrder(SortByUsername(users));
    PageKeepsUsernameOrder(rows, p.pageNumber, p.pageSize);
    assert GetUserLikes(users, likes, p).items == CreatePage(rows, p.pageNumber, p.pageSize).items;
  }

  /** Every like whose far-side user exists is listed: its row is on some
      page of any positive page size, on page 1 when that page holds every
      selected like. */
  lemma EveryLikeIsListed(users: seq<AppUser>, likes: seq<UserLike>, userId: int, liked: bool, k: nat, pageSize: int)
    returns (pageNumber: int)
    requires k < |users| && FindUserById(users, users[k].id) == Some(k)
    requires pageSize > 0
    requires liked ==> UserLike(userId, users[k].id) in likes
    requires !liked ==> UserLike(users[k].id, userId) in likes
    ensures pageNumber >= 1
    ensures pageSize >= |likes| ==> pageNumber == 1
    ensures ToRow(users[k]) in LikeListing(users, likes, userId, liked, pageNumber, pageSize).items
  {
    var selectedLikes := LikesOf(likes, userId, liked);
    var selected := JoinedUsers(users, selectedLikes, liked);
    var l := if liked then UserLike(userId, users[k].id) else UserLike(users[k].id, userId);
    assert FarEnd(l, liked) == users[k].id;
    assert l in selectedLikes;
    var i := LikeEndIsJoined(users, selectedLikes, liked, l);
    assert Rows(selected)[i] == ToRow(users[k]);
    LikesOfBound(likes, userId, liked);
    pageNumber := EveryItemIsOnSomePage(Rows(selected), pageSize, i);
  }

}

=== FILE: message_hub.dfy ===
/** The conversation hub: every pair of users chatting shares one group,
    named canonically from the two usernames. Connecting joins the group
    and receives the thread; disconnecting leaves it; sending stamps the
    message read when the recipient is in the group and otherwise pings
    the recipient's presence connections. Hub sends are returned as lists;
    `HubException`s are `Failure` outcomes. */
module MessageHub {
  import opened Common
  import opened Strings
  import opened Entities
  import MessageRepository
  import UserRepository
  import PresenceTracker
  import PresenceHub

  /** Client methods invoked on message-hub connections. */
  datatype MessageEvent =
    | UpdatedGroup(group: Group)
    | ReceiveMessageThread(messages: seq<Message>)
    | NewMessage(message: Message)

  datatype Target = ToGroup(name: string) | ToCaller

  datatype HubSend = HubSend(target: Target, event: MessageEvent)

  /** The group of a conversation: the ordinal-smaller name, a dash, then
      the other name. */
  function GetGroupName(caller: string, other: string): (r: string)
    ensures r == caller + "-" + other || r == other + "-" + caller
    ensures OrdinalLess(caller, other) ==> r == caller + "-" + other
    ensures OrdinalLess(other, caller) ==> r == other + "-" + caller
  {
    OrdinalLessAsymmetric(caller, other);
    if OrdinalLess(caller, other) then caller + "-" + other else other + "-" + caller
  }

  /** Both participants compute the same group name. */
  lemma GroupNameSymmetric(a: string, b: string)
    ensures GetGroupName(a, b) == GetGroupName(b, a)
  {
    OrdinalLessTotal(a, b);
    OrdinalLessAsymmetric(a, b);
  }

  datatype GroupStep = GroupStep(groups: seq<Group>, group: Group)

  /** `AddToGroup`: the caller's connection is appended to the named
      group, which is created when absent. The returned group is what was
      saved; a failed save throws "Failed to join group". */
  function AddToGroup(groups: seq<Group>, name: string, connectionId: string, caller: string, saveOk: bool)
    : (r: Outcome<GroupStep>)
    ensures r.Failure? <==> !saveOk
    ensures r.Failure? ==> r.message == "Failed to join group"
    ensures r.Success? ==> r.value.group.name == name
    ensures r.Success? ==> MessageRepository.GetMessageGroup(r.value.groups, name) == Some(r.value.group)
    ensures r.Success? && MessageRepository.GetMessageGroup(groups, name).None? ==>
      r.value.group.connections == [Connection(connectionId, caller)] && r.value.groups == groups + [r.value.group]
    ensures r.Success? && MessageRepository.GetMessageGroup(groups, name).Some? ==>
      && r.value.group.connections == MessageRepository.GetMessageGroup(groups, name).value.connections + [Connection(connectionId, caller)]
      && |r.value.groups| == |groups|
    ensures r.Success? ==> forall g :: g in groups && g.name != name ==> g in r.value.groups
  {
    var connection := Connection(connectionId, caller);
    if !saveOk then Failure("Failed to join group")
    else match MessageRepository.GroupIndex(groups, name)
      case None =>
        var group := Group(name, [connection]);
        var updated := groups + [group];
        assert updated[|groups|] == group;
        Success(GroupStep(updated, group))
      case Some(i) =>
        var group := groups[i].(connections := groups[i].connections + [connection]);
        var updated := groups[i := group];
        ReplacedGroupIsFound(groups, name, i, group);
        assert forall g :: g in groups && g.name != name ==> g in updated by {
          forall g | g in groups && g.name != name
            ensures g in updated
          {
            var j :| 0 <= j < |groups| && groups[j] == g;
            assert updated[j] == g;
          }
        }
        Success(GroupStep(updated, group))
  }

  /** Replacing the first group of a name by another group of that name
      keeps it the first. */
  lemma ReplacedGroupIsFound(groups: seq<Group>, name: string, i: nat, group: Group)
    requires MessageRepository.GroupIndex(groups, name) == Some(i)
    requires group.name == name
    ensures MessageRepository.GroupIndex(groups[i := group], name) == Some(i)
  {
    var updated := groups[i := group];
    assert updated[i].name == name;
    assert forall j :: 0 <= j < i ==> updated[j] == groups[j];
  }

  /** Index of the first connection with that id, or `None`. */
  function ConnectionIndex(connections: seq<Connection>, connectionId: string): (r: Option<nat>)
    ensures r.Some? ==> r.value < |connections| && connections[r.value].connectionId == connectionId
    ensures r.None? <==> forall k :: 0 <= k < |connections| ==> connections[k].connectionId != connectionId
  {
    if |connections| == 0 then None
    else if connections[0].connectionId == connectionId then Some(0)
    else match ConnectionIndex(connections[1..], connectionId)
      case None => None
      case Some(k) => Some(k + 1)
  }

  /** `RemoveFromMessageGroup`: the connection leaves the group that holds
      it; that group is returned as saved. The source dereferences the
      group, so a connection in no group is outside its contract. */
  function RemoveFromMessageGroup(groups: seq<Group>, connectionId: string, saveOk: bool): (r: Outcome<GroupStep>)
    requires MessageRepository.GetGroupForConnection(groups, connectionId).Some?
    ensures r.Failure? <==> !saveOk
    ensures r.Failure? ==> r.message == "Failed to remove from group"
    ensures r.Success? ==>
      var before := MessageRepository.GetGroupForConnection(groups, connectionId).value;
      && r.value.group.name == before.name
      && |r.value.group.connections| == |before.connections| - 1
      && (exists k :: 0 <= k < |before.connections| && before.connections[k].connectionId == connectionId
            && r.value.group.connections == before.connections[..k] + before.connections[k + 1..])
      && r.value.group in r.value.groups
    ensures r.Success? ==> |r.value.groups| == |groups|
    ensures r.Success? ==> forall g :: g in groups && !MessageRepository.HasConnection(g, connectionId) ==> g in r.value.groups
  {
    var i := MessageRepository.ConnectionGroupIndex(groups, connectionId).value;
    var before := groups[i];
    var k := ConnectionIndex(before.connections, connectionId).value;
    var group := before.(connections := before.connections[..k] + before.connections[k + 1..]);
    var updated := groups[i := group];
    if !saveOk then Failure("Failed to remove from group")
    else
      assert updated[i] == group;
      assert forall g :: g in groups && !MessageRepository.HasConnection(g, connectionId) ==> g in updated by {
        forall g | g in groups && !MessageRepository.HasConnection(g, connectionId)
          ensures g in updated
        {
          var j :| 0 <= j < |groups| && groups[j] == g;
          assert updated[j] == g;
        }
      }
      Success(GroupStep(updated, group))
  }

  /** The source dereferences the sender and the conversation group once
      the self-send check and the recipient lookup have passed: the
      authenticated caller exists, and the group was created when the
      caller joined it. */
  predicate SendPreconditions(users: seq<AppUser>, groups: seq<Group>, caller: string, recipientUsername: string)
  {
    caller != ToLower(recipientUsername) && UserRepository.GetUserByUsername(users, recipientUsername).Some? ==>
      && UserRepository.GetUserByUsername(users, caller).Some?
      && MessageRepository.GetMessageGroup(groups, GetGroupName(caller, recipientUsername)).Some?
  }

  /** Some connection of the group belongs to `username`. */
  predicate InGroup(g: Group, username: string)
  {
    exists k :: 0 <= k < |g.connections| && g.connections[k].username == username
  }

  datatype SendStep = SendStep(messages: seq<Message>, notifications: seq<PresenceHub.Send>, sent: seq<HubSend>)

  /** `SendMessage`. The message gets the database-assigned id `newId`
      and is sent at `now`. A failed save stores nothing and broadcasts
      nothing to the group; a notification to an absent recipient has
      already gone out. */
  function SendMessage(users: seq<AppUser>, messages: seq<Message>, groups: seq<Group>,
                       registry: PresenceTracker.Registry, caller: string, recipientUsername: string,
                       content: string, newId: int, now: int, saveOk: bool): (r: Outcome<SendStep>)
    requires SendPreconditions(users, groups, caller, recipientUsername)
    ensures caller == ToLower(recipientUsername) ==> r == Failure("You cannot send messages to yourself")
    ensures caller != ToLower(recipientUsername) && UserRepository.GetUserByUsername(users, recipientUsername).None? ==>
      r == Failure("Not found user")
    ensures r.Failure? <==>
      caller == ToLower(recipientUsername) || UserRepository.GetUserByUsername(users, recipientUsername).None?
    ensures r.Success? ==>
      var group := MessageRepository.GetMessageGroup(groups, GetGroupName(caller, recipientUsername)).value;
      var sender := UserRepository.GetUserByUsername(users, caller).value;
      && (saveOk ==> |r.value.messages| == |messages| + 1 && r.value.messages[..|messages|] == messages)
      && (!saveOk ==> r.value.messages == messages && r.value.sent == [])
      && (InGroup(group, recipientUsername) ==> r.value.notifications == [])
      && (!InGroup(group, recipientUsername) ==>
            r.value.notifications == PresenceHub.NotifyNewMessage(
              PresenceTracker.GetConnectionsForUser(registry, recipientUsername), caller, sender.knownAs))
    ensures r.Success? && saveOk ==>
      var group := MessageRepository.GetMessageGroup(groups, GetGroupName(caller, recipientUsername)).value;
      var m := r.value.messages[|messages|];
      && m == Message(newId, caller, recipientUsername, content, m.dateRead, now, false, false)
      && (m.dateRead.Some? <==> InGroup(group, recipientUsername))
      && (m.dateRead.Some? ==> m.dateRead == Some(now))
      && r.value.sent == [HubSend(ToGroup(GetGroupName(caller, recipientUsername)), NewMessage(m))]
  {
    if caller == ToLower(recipientUsername) then Failure("You cannot send messages to yourself")
    else match UserRepository.GetUserByUsername(users, recipientUsername)
      case None => Failure("Not found user")
      case Some(recipient) =>
        var sender := UserRepository.GetUserByUsername(users, caller).value;
        var groupName := GetGroupName(sender.userName, recipient.userName);
        var group := MessageRepository.GetMessageGroup(groups, groupName).value;
        var present := exists k :: 0 <= k < |group.connections| && group.connections[k].username == recipient.userName;
        var message := Message(newId, sender.userName, recipient.userName, content,
                               if present then Some(now) else None, now, false, false);
        var notifications :=
          if present then []
          else PresenceHub.NotifyNewMessage(
            PresenceTracker.GetConnectionsForUser(registry, recipient.userName), sender.userName, sender.knownAs);
        if saveOk then
          Success(SendStep(messages + [message], notifications, [HubSend(ToGroup(groupName), NewMessage(message))]))
        else Success(SendStep(messages, notifications, []))
  }

  datatype HubState = HubState(messages: seq<Message>, groups: seq<Group>)

  datatype ConnectStep = ConnectStep(state: HubState, sent: seq<HubSend>)

  /** `OnConnectedAsync` of the conversation hub: join the group, tell the
      group its new membership, then fetch the thread (stamping what the
      caller had not read) and send it to the caller. */
  function OnConnected(s: HubState, caller: string, otherUser: string, connectionId: string, now: int, saveOk: bool)
    : (r: Outcome<ConnectStep>)
    ensures r.Failure? <==> !saveOk
    ensures r.Success? ==>
      var name := GetGroupName(caller, otherUser);
      var fetch := MessageRepository.GetMessageThread(s.messages, caller, otherUser, now);
      && |r.value.sent| == 2
      && r.value.sent[0].target == ToGroup(name)
      && r.value.sent[0].event.UpdatedGroup?
      && Connection(connectionId, caller) in r.value.sent[0].event.group.connections
      && MessageRepository.GetMessageGroup(r.value.state.groups, name) == Some(r.value.sent[0].event.group)
      && r.value.sent[1] == HubSend(ToCaller, ReceiveMessageThread(fetch.thread))
      && r.value.state.messages == fetch.store
  {
    var name := GetGroupName(caller, otherUser);
    match AddToGroup(s.groups, name, connectionId, caller, saveOk)
    case Failure(e) => Failure(e)
    case Success(joined) =>
      var fetch := MessageRepository.GetMessageThread(s.messages, caller, otherUser, now);
      var sent := [HubSend(ToGroup(name), UpdatedGroup(joined.group)), HubSend(ToCaller, ReceiveMessageThread(fetch.thread))];
      assert joined.group.connections[|joined.group.connections| - 1] == Connection(connectionId, caller);
      Success(ConnectStep(HubState(fetch.store, joined.groups), sent))
  }

  /** `OnDisconnectedAsync` of the conversation hub: leave the group and
      tell the remaining members. */
  function OnDisconnected(s: HubState, connectionId: string, saveOk: bool): (r: Outcome<ConnectStep>)
    requires MessageRepository.GetGroupForConnection(s.groups, connectionId).Some?
    ensures r.Failure? <==> !saveOk
    ensures r.Success? ==>
      && r.value.state.messages == s.messages
      && |r.value.sent| == 1
      && r.value.sent[0].target == ToGroup(MessageRepository.GetGroupForConnection(s.groups, connectionId).value.name)
      && r.value.sent[0].event.UpdatedGroup?
      && |r.value.sent[0].event.group.connections|
         == |MessageRepository.GetGroupForConnection(s.groups, connectionId).value.connections| - 1
  {
    match RemoveFromMessageGroup(s.groups, connectionId, saveOk)
    case Failure(e) => Failure(e)
    case Success(left) =>
      Success(ConnectStep(HubState(s.messages, left.groups), [HubSend(ToGroup(left.group.name), UpdatedGroup(left.group))]))
  }

  /** Joining and then leaving on the same connection restores the
      group's membership. */
  lemma JoinThenLeaveRestoresMembers(groups: seq<Group>, name: string, connectionId: string, caller: string)
    requires MessageRepository.GetGroupForConnection(groups, connectionId).None?
    ensures
      var joined := AddToGroup(groups, name, connectionId, caller, true).value;
      && MessageRepository.GetGroupForConnection(joined.groups, connectionId).Some?
      && RemoveFromMessageGroup(joined.groups, connectionId, true).value.group.connections
         == (match MessageRepository.GetMessageGroup(groups, name)
             case None => []
             case Some(g) => g.connections)
  {
    var joined := AddToGroup(groups, name, connectionId, caller, true).value;
    var j := MessageRepository.GroupIndex(joined.groups, name).value;
    assert MessageRepository.HasConnection(joined.groups[j], connectionId) by {
      var c := joined.group.connections;
      assert c[|c| - 1].connectionId == connectionId;
    }
    assert forall g :: g in joined.groups && g != joined.group ==> g in groups by {
      forall g | g in joined.groups && g != joined.group
        ensures g in groups
      {
        var k :| 0 <= k < |joined.groups| && joined.groups[k] == g;
        assert k < |groups|;
      }
    }
  }
}

=== FILE: message_repository.dfy ===
/** The message store: thread fetch with read-on-fetch, the Inbox / Outbox
    / Unread containers, message lookup by id, and the conversation-group
    lookups. The store is a sequence of records; saving is reported, not
    performed. */
module MessageRepository {
  import opened Common
  import opened Entities
  import opened Sorting
  import opened Paging

  /** `m` is shown to `current` in the conversation with `other`: sent by
      `other` and not deleted by its recipient, or sent by `current` and
      not deleted by its sender. */
  predicate InThread(m: Message, current: string, other: string)
  {
    || (m.recipientUsername == current && !m.recipientDeleted && m.senderUsername == other)
    || (m.recipientUsername == other && !m.senderDeleted && m.senderUsername == current)
  }

  /** `m` is addressed to `current` and has not been read. */
  predicate UnreadInbound(m: Message, current: string)
  {
    m.dateRead.None? && m.recipientUsername == current
  }

  /** Sort keys: oldest first, and newest first as the negated time. */
  function SentAt(m: Message): int { m.messageSent }
  function NewestFirst(m: Message): int { -m.messageSent }

  /** The thread messages of `s`, in store order. */
  function ThreadMessages(s: seq<Message>, current: string, other: string): (r: seq<Message>)
    ensures forall i :: 0 <= i < |r| ==> InThread(r[i], current, other)
  {
    if |s| == 0 then []
    else (if InThread(s[0], current, other) then [s[0]] else []) + ThreadMessages(s[1..], current, other)
  }

  /** The filter keeps every thread message of `s` as often as it occurs
      and drops all others. */
  lemma {:induction false} ThreadMessagesCount(s: seq<Message>, current: string, other: string)
    ensures forall m :: (multiset(ThreadMessages(s, current, other))[m]
      == if InThread(m, current, other) then multiset(s)[m] else 0)
  {
    if |s| > 0 {
      ThreadMessagesCount(s[1..], current, other);
      assert s == [s[0]] + s[1..];
    }
  }

  /** The read-on-fetch update of one message. */
  function MarkRead(m: Message, current: string, other: string, now: int): Message
  {
    if InThread(m, current, other) && UnreadInbound(m, current) then m.(dateRead := Some(now)) else m
  }

  function MarkAll(s: seq<Message>, current: string, other: string, now: int): (r: seq<Message>)
    ensures |r| == |s|
    ensures forall i :: 0 <= i < |s| ==> r[i] == MarkRead(s[i], current, other, now)
  {
    if |s| == 0 then [] else [MarkRead(s[0], current, other, now)] + MarkAll(s[1..], current, other, now)
  }

  /** `b` is `a` with at most its read stamp changed. */
  predicate SameExceptRead(a: Message, b: Message)
  {
    a.(dateRead := b.dateRead) == b
  }

  datatype ThreadFetch = ThreadFetch(thread: seq<Message>, store: seq<Message>, saved: bool)

  /** Some message of `s` is addressed to `current` and unread. */
  predicate HasUnread(s: seq<Message>, current: string)
  {
    exists i :: 0 <= i < |s| && UnreadInbound(s[i], current)
  }

  /** `GetMessageThread`: the conversation between `current` and `other`,
      oldest first, after stamping every unread message addressed to
      `current` as read at `now`. The store is saved only when something
      was stamped. */
  function GetMessageThread(store: seq<Message>, current: string, other: string, now: int): (r: ThreadFetch)
    ensures |r.store| == |store|
    ensures forall i :: 0 <= i < |store| ==> SameExceptRead(store[i], r.store[i])
    ensures forall i :: 0 <= i < |store| ==>
      (r.store[i].dateRead != store[i].dateRead <==> InThread(store[i], current, other) && UnreadInbound(store[i], current))
    ensures forall i :: 0 <= i < |store| && r.store[i].dateRead != store[i].dateRead ==> r.store[i].dateRead == Some(now)
    ensures forall m :: multiset(r.thread)[m] == if InThread(m, current, other) then multiset(r.store)[m] else 0
    ensures forall i, j :: 0 <= i < j < |r.thread| ==> r.thread[i].messageSent <= r.thread[j].messageSent
    ensures forall i :: 0 <= i < |r.thread| && r.thread[i].recipientUsername == current ==> r.thread[i].dateRead.Some?
    ensures r.saved <==> exists i :: 0 <= i < |store| && InThread(store[i], current, other) && UnreadInbound(store[i], current)
  {
    var messages := Sort(ThreadMessages(store, current, other), SentAt);
    var r := ThreadFetch(MarkAll(messages, current, other, now), MarkAll(store, current, other, now), HasUnread(messages, current));
    ThreadFetchFacts(store, current, other, now, r);
    r
  }

  lemma ThreadFetchFacts(store: seq<Message>, current: string, other: string, now: int, r: ThreadFetch)
    requires r.thread == MarkAll(Sort(ThreadMessages(store, current, other), SentAt), current, other, now)
    requires r.store == MarkAll(store, current, other, now)
    requires r.saved == HasUnread(Sort(ThreadMessages(store, current, other), SentAt), current)
    ensures |r.store| == |store|
    ensures forall i :: 0 <= i < |store| ==> SameExceptRead(store[i], r.store[i])
    ensures forall i :: 0 <= i < |store| ==>
      (r.store[i].dateRead != store[i].dateRead <==> InThread(store[i], current, other) && UnreadInbound(store[i], current))
    ensures forall i :: 0 <= i < |store| && r.store[i].dateRead != store[i].dateRead ==> r.store[i].dateRead == Some(now)
    ensures forall m :: multiset(r.thread)[m] == if InThread(m, current, other) then multiset(r.store)[m] else 0
    ensures forall i, j :: 0 <= i < j < |r.thread| ==> r.thread[i].messageSent <= r.thread[j].messageSent
    ensures forall i :: 0 <= i < |r.thread| && r.thread[i].recipientUsername == current ==> r.thread[i].dateRead.Some?
    ensures r.saved <==> exists i :: 0 <= i < |store| && InThread(store[i], current, other) && UnreadInbound(store[i], current)
  {
    StoreIsStamped(store, current, other, now);
    ThreadIsPermutationOfUpdatedThread(store, current, other, now);
    ThreadIsStamped(store, current, other, now);
    UnreadInSortedIffInStore(store, current, other);
  }

  /** The updated store differs from the old one exactly in the read
      stamps of the thread's unread inbound messages, all set to `now`. */
  lemma StoreIsStamped(store: seq<Message>, current: string, other: string, now: int)
    ensures
      var updated := MarkAll(store, current, other, now);
      && |updated| == |store|
      && (forall i :: 0 <= i < |store| ==> SameExceptRead(store[i], updated[i]))
      && (forall i :: 0 <= i < |store| ==>
            (updated[i].dateRead != store[i].dateRead <==> InThread(store[i], current, other) && UnreadInbound(store[i], current)))
      && (forall i :: 0 <= i < |store| && updated[i].dateRead != store[i].dateRead ==> updated[i].dateRead == Some(now))
  {
    var updated := MarkAll(store, current, other, now);
    forall i | 0 <= i < |store|
      ensures SameExceptRead(store[i], updated[i])
      ensures updated[i].dateRead != store[i].dateRead <==> InThread(store[i], current, other) && UnreadInbound(store[i], current)
      ensures updated[i].dateRead != store[i].dateRead ==> updated[i].dateRead == Some(now)
    {
      assert updated[i] == MarkRead(store[i], current, other, now);
    }
  }

  lemma ThreadIsPermutationOfUpdatedThread(store: seq<Message>, current: string, other: string, now: int)
    ensures
      var thread := MarkAll(Sort(ThreadMessages(store, current, other), SentAt), current, other, now);
      var updated := MarkAll(store, current, other, now);
      && (forall m :: multiset(thread)[m] == if InThread(m, current, other) then multiset(updated)[m] else 0)
      && (forall i, j :: 0 <= i < j < |thread| ==> thread[i].messageSent <= thread[j].messageSent)
  {
    ThreadIsSortedUpdatedThread(store, current, other, now);
    ThreadMessagesCount(MarkAll(store, current, other, now), current, other);
  }

  lemma ThreadIsStamped(store: seq<Message>, current: string, other: string, now: int)
    ensures
      var thread := MarkAll(Sort(ThreadMessages(store, current, other), SentAt), current, other, now);
      forall i :: 0 <= i < |thread| && thread[i].recipientUsername == current ==> thread[i].dateRead.Some?
  {
    SortedMessagesAreThread(store, current, other);
  }

  /** The fetched thread is the sort of the updated store's thread. */
  lemma ThreadIsSortedUpdatedThread(store: seq<Message>, current: string, other: string, now: int)
    ensures MarkAll(Sort(ThreadMessages(store, current, other), SentAt), current, other, now)
         == Sort(ThreadMessages(MarkAll(store, current, other, now), current, other), SentAt)
  {
    SortMarkCommute(ThreadMessages(store, current, other), current, other, now);
    ThreadMarkCommute(store, current, other, now);
  }

  lemma SortedMessagesAreThread(store: seq<Message>, current: string, other: string)
    ensures forall i :: 0 <= i < |Sort(ThreadMessages(store, current, other), SentAt)| ==>
      InThread(Sort(ThreadMessages(store, current, other), SentAt)[i], current, other)
  {
    var messages := Sort(ThreadMessages(store, current, other), SentAt);
    forall i | 0 <= i < |messages|
      ensures InThread(messages[i], current, other)
    {
      assert messages[i] in multiset(messages);
    }
  }

  lemma UnreadInSortedIffInStore(store: seq<Message>, current: string, other: string)
    ensures
      var messages := Sort(ThreadMessages(store, current, other), SentAt);
      HasUnread(messages, current) <==>
        (exists i :: 0 <= i < |store| && InThread(store[i], current, other) && UnreadInbound(store[i], current))
  {
    var messages := Sort(ThreadMessages(store, current, other), SentAt);
    if exists i :: 0 <= i < |store| && InThread(store[i], current, other) && UnreadInbound(store[i], current) {
      var i :| 0 <= i < |store| && InThread(store[i], current, other) && UnreadInbound(store[i], current);
      var j := StoreThreadMessageIsFetched(store, current, other, i);
      assert UnreadInbound(messages[j], current);
    }
    if exists j :: 0 <= j < |messages| && UnreadInbound(messages[j], current) {
      var j :| 0 <= j < |messages| && UnreadInbound(messages[j], current);
      var i := FetchedMessageIsInStore(store, current, other, j);
      assert InThread(store[i], current, other) && UnreadInbound(store[i], current);
    }
  }

  lemma StoreThreadMessageIsFetched(store: seq<Message>, current: string, other: string, i: int) returns (j: int)
    requires 0 <= i < |store| && InThread(store[i], current, other)
    ensures 0 <= j < |Sort(ThreadMessages(store, current, other), SentAt)|
    ensures Sort(ThreadMessages(store, current, other), SentAt)[j] == store[i]
  {
    var messages := Sort(ThreadMessages(store, current, other), SentAt);
    ThreadMessagesCount(store, current, other);
    assert store[i] in multiset(store);
    assert store[i] in multiset(messages);
    j :| 0 <= j < |messages| && messages[j] == store[i];
  }

  lemma FetchedMessageIsInStore(store: seq<Message>, current: string, other: string, j: int) returns (i: int)
    requires 0 <= j < |Sort(ThreadMessages(store, current, other), SentAt)|
    ensures 0 <= i < |store| && store[i] == Sort(ThreadMessages(store, current, other), SentAt)[j]
    ensures InThread(store[i], current, other)
  {
    var messages := Sort(ThreadMessages(store, current, other), SentAt);
    ThreadMessagesCount(store, current, other);
    assert messages[j] in multiset(messages);
    assert messages[j] in multiset(store);
    i :| 0 <= i < |store| && store[i] == messages[j];
  }

  /** Stamping keeps a message in its thread and in its place in time. */
  lemma MarkReadKeeps(m: Message, current: string, other: string, now: int)
    ensures InThread(MarkRead(m, current, other, now), current, other) == InThread(m, current, other)
    ensures MarkRead(m, current, other, now).messageSent == m.messageSent
  {
  }

  lemma MarkAllCons(x: Message, s: seq<Message>, current: string, other: string, now: int)
    ensures MarkAll([x] + s, current, other, now) == [MarkRead(x, current, other, now)] + MarkAll(s, current, other, now)
  {
    assert ([x] + s)[1..] == s;
  }

  /** Stamping then filtering equals filtering then stamping. */
  lemma {:induction false} ThreadMarkCommute(s: seq<Message>, current: string, other: string, now: int)
    ensures ThreadMessages(MarkAll(s, current, other, now), current, other)
         == MarkAll(ThreadMessages(s, current, other), current, other, now)
  {
    if |s| > 0 {
      ThreadMarkCommute(s[1..], current, other, now);
      MarkReadKeeps(s[0], current, other, now);
      var marked := MarkAll(s, current, other, now);
      assert s == [s[0]] + s[1..];
      MarkAllCons(s[0], s[1..], current, other, now);
      assert marked[0] == MarkRead(s[0], current, other, now);
      assert marked[1..] == MarkAll(s[1..], current, other, now);
      var tail := ThreadMessages(s[1..], current, other);
      if InThread(s[0], current, other) {
        assert ThreadMessages(s, current, other) == [s[0]] + tail;
        MarkAllCons(s[0], tail, current, other, now);
      } else {
        assert ThreadMessages(s, current, other) == tail;
      }
    }
  }

  /** Stamping does not move a message in the time order, so it commutes
      with the sort. */
  lemma MarkAllKeepsSorted(s: seq<Message>, current: string, other: string, now: int)
    requires SortedByKey(s, SentAt)
    ensures SortedByKey(MarkAll(s, current, other, now), SentAt)
  {
    var marked := MarkAll(s, current, other, now);
    forall i, j | 0 <= i < j < |marked|
      ensures SentAt(marked[i]) <= SentAt(marked[j])
    {
      MarkReadKeeps(s[i], current, other, now);
      MarkReadKeeps(s[j], current, other, now);
    }
  }

  lemma {:induction false} InsertMarkCommute(x: Message, s: seq<Message>, current: string, other: string, now: int)
    requires SortedByKey(s, SentAt)
    ensures SortedByKey(MarkAll(s, current, other, now), SentAt)
    ensures MarkAll(Insert(x, s, SentAt), current, other, now)
         == Insert(MarkRead(x, current, other, now), MarkAll(s, current, other, now), SentAt)
  {
    var mx := MarkRead(x, current, other, now);
    var ms := MarkAll(s, current, other, now);
    MarkAllKeepsSorted(s, current, other, now);
    MarkReadKeeps(x, current, other, now);
    if |s| == 0 || SentAt(x) <= SentAt(s[0]) {
      InsertInFront(x, s, SentAt);
      if |s| > 0 {
        MarkReadKeeps(s[0], current, other, now);
      }
      InsertInFront(mx, ms, SentAt);
      MarkAllCons(x, s, current, other, now);
    } else {
      MarkReadKeeps(s[0], current, other, now);
      InsertBehind(x, s, SentAt);
      InsertBehind(mx, ms, SentAt);
      HeadTail(s);
      MarkAllCons(s[0], s[1..], current, other, now);
      InsertMarkCommute(x, s[1..], current, other, now);
      MarkAllCons(s[0], Insert(x, s[1..], SentAt), current, other, now);
    }
  }

  lemma {:induction false} SortMarkCommute(s: seq<Message>, current: string, other: string, now: int)
    ensures MarkAll(Sort(s, SentAt), current, other, now) == Sort(MarkAll(s, current, other, now), SentAt)
  {
    if |s| > 0 {
      SortMarkCommute(s[1..], current, other, now);
      InsertMarkCommute(s[0], Sort(s[1..], SentAt), current, other, now);
      assert MarkAll(s, current, other, now)[1..] == MarkAll(s[1..], current, other, now);
    }
  }

  /** Which folder of a user's mail a query asks for. */
  predicate InContainer(m: Message, username: string, container: string)
  {
    if container == "Inbox" then m.recipientUsername == username && !m.recipientDeleted
    else if container == "Outbox" then m.senderUsername == username && !m.senderDeleted
    else m.recipientUsername == username && !m.recipientDeleted && m.dateRead.None?
  }

  /** The container's messages of `s`, in the order of `s`. */
  function ContainerMessages(s: seq<Message>, username: string, container: string): (r: seq<Message>)
    ensures forall i :: 0 <= i < |r| ==> InContainer(r[i], username, container)
  {
    if |s| == 0 then []
    else (if InContainer(s[0], username, container) then [s[0]] else []) + ContainerMessages(s[1..], username, container)
  }

  lemma {:induction false} ContainerMessagesCount(s: seq<Message>, username: string, container: string)
    ensures forall m :: (multiset(ContainerMessages(s, username, container))[m]
      == if InContainer(m, username, container) then multiset(s)[m] else 0)
  {
    if |s| > 0 {
      ContainerMessagesCount(s[1..], username, container);
      assert s == [s[0]] + s[1..];
    }
  }

  /** Filtering a newest-first sequence leaves it newest first. */
  lemma {:induction false} ContainerMessagesKeepOrder(s: seq<Message>, username: string, container: string)
    requires SortedByKey(s, NewestFirst)
    ensures SortedByKey(ContainerMessages(s, username, container), NewestFirst)
  {
    if |s| > 0 {
      TailSorted(s, NewestFirst);
      ContainerMessagesKeepOrder(s[1..], username, container);
      ContainerMessagesCount(s[1..], username, container);
      var rest := ContainerMessages(s[1..], username, container);
      forall k | 0 <= k < |rest|
        ensures NewestFirst(s[0]) <= NewestFirst(rest[k])
      {
        assert rest[k] in multiset(rest);
        assert rest[k] in s[1..];
      }
      if InContainer(s[0], username, container) {
        ConsKeepsSorted(s[0], rest, NewestFirst);
      } else {
        assert ContainerMessages(s, username, container) == rest;
      }
    }
  }

  datatype MessageParams = MessageParams(username: string, container: string, pageNumber: int, pageSize: int)

  /** The `Container` default when the query does not name one. */
  const DefaultContainer: string := "Unread"

  /** The container's messages newest first: a sorted permutation of the
      container's messages in store order. */
  lemma NewestFirstContainer(store: seq<Message>, username: string, container: string)
    ensures SortedByKey(ContainerMessages(Sort(store, NewestFirst), username, container), NewestFirst)
    ensures multiset(ContainerMessages(Sort(store, NewestFirst), username, container))
         == multiset(ContainerMessages(store, username, container))
  {
    var sorted := Sort(store, NewestFirst);
    ContainerMessagesKeepOrder(sorted, username, container);
    ContainerMessagesCount(sorted, username, container);
    ContainerMessagesCount(store, username, container);
    assert multiset(ContainerMessages(sorted, username, container)) == multiset(ContainerMessages(store, username, container));
  }

  /** `GetMessagesForUser`: newest first, filtered by container, paged.
      The page is cut from the container's newest-first listing, which
      `NewestFirstContainer` shows is a sorted permutation of the
      container's messages. */
  function GetMessagesForUser(store: seq<Message>, p: MessageParams): (r: PagedList<Message>)
    ensures forall i :: 0 <= i < |r.items| ==> InContainer(r.items[i], p.username, p.container) && r.items[i] in store
    ensures forall i, j :: 0 <= i < j < |r.items| ==> r.items[i].messageSent >= r.items[j].messageSent
    ensures r.totalCount == |ContainerMessages(store, p.username, p.container)|
    ensures r.currentPage == p.pageNumber && r.pageSize == p.pageSize
    ensures IsPageOf(r.items, ContainerMessages(Sort(store, NewestFirst), p.username, p.container), p.pageNumber, p.pageSize)
    ensures p.pageNumber == 1 && p.pageSize >= r.totalCount ==>
      multiset(r.items) == multiset(ContainerMessages(store, p.username, p.container))
  {
    var all := ContainerMessages(Sort(store, NewestFirst), p.username, p.container);
    MessagesPageFacts(store, p, all);
    CreatePage(all, p.pageNumber, p.pageSize)
  }

  lemma MessagesPageFacts(store: seq<Message>, p: MessageParams, all: seq<Message>)
    requires all == ContainerMessages(Sort(store, NewestFirst), p.username, p.container)
    ensures
      var items := CreatePage(all, p.pageNumber, p.pageSize).items;
      && (forall i :: 0 <= i < |items| ==> InContainer(items[i], p.username, p.container) && items[i] in store)
      && (forall i, j :: 0 <= i < j < |items| ==> items[i].messageSent >= items[j].messageSent)
      && |all| == |ContainerMessages(store, p.username, p.container)|
      && (p.pageNumber == 1 && p.pageSize >= |all| ==>
            multiset(items) == multiset(ContainerMessages(store, p.username, p.container)))
  {
    var items := CreatePage(all, p.pageNumber, p.pageSize).items;
    NewestFirstContainer(store, p.username, p.container);
    ContainerFromStore(store, p.username, p.container);
    PageItemsFromSource(all, p.pageNumber, p.pageSize);
    PageKeepsOrder(all, p.pageNumber, p.pageSize, NewestFirst);
    PartOfContainerFacts(store, p, all, items);
    if p.pageNumber == 1 && p.pageSize >= |all| {
      FirstPageHoldsAll(all, p.pageSize);
    }
  }

  /** Any newest-first part of the container listing is container mail
      from the store, newest first. */
  lemma PartOfContainerFacts(store: seq<Message>, p: MessageParams, all: seq<Message>, items: seq<Message>)
    requires all == ContainerMessages(Sort(store, NewestFirst), p.username, p.container)
    requires forall x :: x in items ==> x in all
    requires SortedByKey(items, NewestFirst)
    ensures forall i :: 0 <= i < |items| ==> InContainer(items[i], p.username, p.container) && items[i] in store
    ensures forall i, j :: 0 <= i < j < |items| ==> items[i].messageSent >= items[j].messageSent
  {
    ContainerFromStore(store, p.username, p.container);
    forall i | 0 <= i < |items|
      ensures InContainer(items[i], p.username, p.container) && items[i] in store
    {
      assert items[i] in all;
      var k :| 0 <= k < |all| && all[k] == items[i];
    }
    forall i, j | 0 <= i < j < |items|
      ensures items[i].messageSent >= items[j].messageSent
    {
      assert NewestFirst(items[i]) <= NewestFirst(items[j]);
    }
  }

  lemma ContainerFromStore(store: seq<Message>, username: string, container: string)
    ensures |ContainerMessages(Sort(store, NewestFirst), username, container)| == |ContainerMessages(store, username, container)|
    ensures forall k :: 0 <= k < |ContainerMessages(Sort(store, NewestFirst), username, container)| ==>
      ContainerMessages(Sort(store, NewestFirst), username, container)[k] in store
  {
    var all := ContainerMessages(Sort(store, NewestFirst), username, container);
    NewestFirstContainer(store, username, container);
    assert |multiset(all)| == |all|;
    ContainerMessagesCount(store, username, container);
    forall k | 0 <= k < |all|
      ensures all[k] in store
    {
      assert all[k] in multiset(all);
    }
  }

  /** `GetMessage`: the message with that id, or `None`. */
  function GetMessage(store: seq<Message>, id: int): (r: Option<nat>)
    ensures r.Some? ==> r.value < |store| && store[r.value].id == id
    ensures r.Some? ==> forall j :: 0 <= j < r.value ==> store[j].id != id
    ensures r.None? ==> forall i :: 0 <= i < |store| ==> store[i].id != id
  {
    if |store| == 0 then None
    else if store[0].id == id then Some(0)
    else match GetMessage(store[1..], id)
      case None => None
      case Some(k) => Some(k + 1)
  }

  /** Index of the first group called `name`, or `None`. */
  function GroupIndex(groups: seq<Group>, name: string): (r: Option<nat>)
    ensures r.Some? ==> r.value < |groups| && groups[r.value].name == name
    ensures r.Some? ==> forall j :: 0 <= j < r.value ==> groups[j].name != name
    ensures r.None? ==> forall j :: 0 <= j < |groups| ==> groups[j].name != name
  {
    if |groups| == 0 then None
    else if groups[0].name == name then Some(0)
    else match GroupIndex(groups[1..], name)
      case None => None
      case Some(k) => Some(k + 1)
  }

  /** `GetMessageGroup`: the group with that name, or `None`. */
  function GetMessageGroup(groups: seq<Group>, name: string): (r: Option<Group>)
    ensures r.Some? ==> r.value in groups && r.value.name == name
    ensures r.None? <==> forall g :: g in groups ==> g.name != name
  {
    match GroupIndex(groups, name)
    case None => None
    case Some(i) => Some(groups[i])
  }

  predicate HasConnection(g: Group, connectionId: string)
  {
    exists k :: 0 <= k < |g.connections| && g.connections[k].connectionId == connectionId
  }

  /** Index of the first group holding a connection with that id. */
  function ConnectionGroupIndex(groups: seq<Group>, connectionId: string): (r: Option<nat>)
    ensures r.Some? ==> r.value < |groups| && HasConnection(groups[r.value], connectionId)
    ensures r.Some? ==> forall j :: 0 <= j < r.value ==> !HasConnection(groups[j], connectionId)
    ensures r.None? ==> forall j :: 0 <= j < |groups| ==> !HasConnection(groups[j], connectionId)
  {
    if |groups| == 0 then None
    else if HasConnection(groups[0], connectionId) then Some(0)
    else match ConnectionGroupIndex(groups[1..], connectionId)
      case None => None
      case Some(k) => Some(k + 1)
  }

  /** `GetGroupForConnection`: a group containing the connection, or `None`. */
  function GetGroupForConnection(groups: seq<Group>, connectionId: string): (r: Option<Group>)
    ensures r.Some? ==> r.value in groups && HasConnection(r.value, connectionId)
    ensures r.None? <==> forall g :: g in groups ==> !HasConnection(g, connectionId)
  {
    match ConnectionGroupIndex(groups, connectionId)
    case None => None
    case Some(i) => Some(groups[i])
  }
}

=== FILE: messages_controller.dfy ===
/** The messages HTTP endpoints: create a message, list the caller's
    containers, and delete a message for one side of the conversation. */
module MessagesController {
  import opened Common
  import opened Strings
  import opened Entities
  import opened Paging
  import MessageRepository
  import UserRepository

  datatype MessagesStep = MessagesStep(messages: seq<Message>, result: ActionResult)

  /** The source dereferences the sender once the self-send check and the
      recipient lookup have passed; the authenticated caller exists. */
  predicate SenderExists(users: seq<AppUser>, caller: string, recipientUsername: string)
  {
    caller != ToLower(recipientUsername) && UserRepository.GetUserByUsername(users, recipientUsername).Some? ==>
      UserRepository.GetUserByUsername(users, caller).Some?
  }

  /** `CreateMessage`. The message gets the database-assigned id `newId`
      and is sent at `now`. */
  function CreateMessage(users: seq<AppUser>, messages: seq<Message>, caller: string, recipientUsername: string,
                         content: string, newId: int, now: int, saveOk: bool): (r: MessagesStep)
    requires SenderExists(users, caller, recipientUsername)
    ensures caller == ToLower(recipientUsername) ==>
      r == MessagesStep(messages, BadRequest("You cannot send messages to yourself"))
    ensures caller != ToLower(recipientUsername) && UserRepository.GetUserByUsername(users, recipientUsername).None? ==>
      r == MessagesStep(messages, NotFound(None))
    ensures r.result.Ok? <==>
      caller != ToLower(recipientUsername) && UserRepository.GetUserByUsername(users, recipientUsername).Some? && saveOk
    ensures r.result.Ok? ==>
      r.messages == messages + [Message(newId, caller, recipientUsername, content, None, now, false, false)]
    ensures !r.result.Ok? ==> r.messages == messages
    ensures caller != ToLower(recipientUsername) && UserRepository.GetUserByUsername(users, recipientUsername).Some? && !saveOk ==>
      r.result == BadRequest("Failed to send message")
  {
    if caller == ToLower(recipientUsername) then MessagesStep(messages, BadRequest("You cannot send messages to yourself"))
    else
      var sender := UserRepository.GetUserByUsername(users, caller);
      match UserRepository.GetUserByUsername(users, recipientUsername)
      case None => MessagesStep(messages, NotFound(None))
      case Some(recipient) =>
        var message := Message(newId, sender.value.userName, recipient.userName, content, None, now, false, false);
        if saveOk then MessagesStep(messages + [message], Ok)
        else MessagesStep(messages, BadRequest("Failed to send message"))
  }

  /** A created message waits in the recipient's Unread container and
      shows in the sender's Outbox: each container holds one more copy of
      it than before. */
  lemma CreatedMessageIsListed(users: seq<AppUser>, messages: seq<Message>, caller: string, recipientUsername: string,
                               content: string, newId: int, now: int, saveOk: bool)
    requires SenderExists(users, caller, recipientUsername)
    requires CreateMessage(users, messages, caller, recipientUsername, content, newId, now, saveOk).result.Ok?
    ensures
      var after := CreateMessage(users, messages, caller, recipientUsername, content, newId, now, saveOk).messages;
      var m := Message(newId, caller, recipientUsername, content, None, now, false, false);
      && multiset(MessageRepository.ContainerMessages(after, recipientUsername, "Unread"))[m]
           == multiset(MessageRepository.ContainerMessages(messages, recipientUsername, "Unread"))[m] + 1
      && multiset(MessageRepository.ContainerMessages(after, caller, "Outbox"))[m]
           == multiset(MessageRepository.ContainerMessages(messages, caller, "Outbox"))[m] + 1
  {
    var after := CreateMessage(users, messages, caller, recipientUsername, content, newId, now, saveOk).messages;
    var m := Message(newId, caller, recipientUsername, content, None, now, false, false);
    assert MessageRepository.InContainer(m, recipientUsername, "Unread");
    assert MessageRepository.InContainer(m, caller, "Outbox");
    MessageRepository.ContainerMessagesCount(after, recipientUsername, "Unread");
    MessageRepository.ContainerMessagesCount(messages, recipientUsername, "Unread");
    MessageRepository.ContainerMessagesCount(after, caller, "Outbox");
    MessageRepository.ContainerMessagesCount(messages, caller, "Outbox");
    assert multiset(after) == multiset(messages) + multiset{m};
  }

  /** `GetMessagesForUser`: the container query always runs for the
      caller, so every listed message has the caller as a party. */
  function GetMessagesForUser(messages: seq<Message>, caller: string, container: string, pageNumber: int, pageSize: int)
    : (r: PagedList<Message>)
    ensures forall i :: 0 <= i < |r.items| ==>
      r.items[i].recipientUsername == caller || r.items[i].senderUsername == caller
    ensures forall i :: 0 <= i < |r.items| ==> r.items[i] in messages
    ensures r.currentPage == pageNumber && r.pageSize == pageSize
  {
    MessageRepository.GetMessagesForUser(messages, MessageRepository.MessageParams(caller, container, pageNumber, pageSize))
  }

  /** `DeleteMessage`. Each party sets only its own deleted flag; the row
      goes once both flags are set. `Complete` reports success only when
      something changed, so a delete that changes nothing is a bad
      request. The source dereferences the message, so a missing id is
      outside its contract. */
  function DeleteMessage(messages: seq<Message>, caller: string, id: int, saveOk: bool): (r: MessagesStep)
    requires MessageRepository.GetMessage(messages, id).Some?
    ensures
      var i := MessageRepository.GetMessage(messages, id).value;
      var m := messages[i];
      && (r.result == Unauthorized <==> m.senderUsername != caller && m.recipientUsername != caller)
      && (!r.result.Ok? ==> r.messages == messages)
      && (r.result.Ok? ==>
            var senderDeleted := m.senderDeleted || m.senderUsername == caller;
            var recipientDeleted := m.recipientDeleted || m.recipientUsername == caller;
            && saveOk
            && (senderDeleted && recipientDeleted ==> r.messages == RemoveAt(messages, i))
            && (!(senderDeleted && recipientDeleted) ==>
                  r.messages == messages[i := m.(senderDeleted := senderDeleted, recipientDeleted := recipientDeleted)]))
      && (r.result.Ok? <==>
            && (m.senderUsername == caller || m.recipientUsername == caller)
            && saveOk
            && (|| (m.senderUsername == caller && !m.senderDeleted)
                || (m.recipientUsername == caller && !m.recipientDeleted)
                || (m.senderDeleted && m.recipientDeleted)))
      && (r.result.BadRequest? ==> r.result.message == "Problem deleting the message")
  {
    var i := MessageRepository.GetMessage(messages, id).value;
    var m := messages[i];
    if m.senderUsername != caller && m.recipientUsername != caller then MessagesStep(messages, Unauthorized)
    else
      var updated := m.(senderDeleted := m.senderDeleted || m.senderUsername == caller,
                        recipientDeleted := m.recipientDeleted || m.recipientUsername == caller);
      var hardDelete := updated.senderDeleted && updated.recipientDeleted;
      var changed := hardDelete || updated != m;
      if changed && saveOk then
        MessagesStep(if hardDelete then RemoveAt(messages, i) else messages[i := updated], Ok)
      else MessagesStep(messages, BadRequest("Problem deleting the message"))
  }

  /** A delete never clears a flag: whatever survives keeps the deleted
      flags it had. */
  lemma DeleteNeverClearsFlags(messages: seq<Message>, caller: string, id: int, saveOk: bool)
    requires MessageRepository.GetMessage(messages, id).Some?
    ensures
      var r := DeleteMessage(messages, caller, id, saveOk);
      var i := MessageRepository.GetMessage(messages, id).value;
      |r.messages| == |messages| ==>
        && (messages[i].senderDeleted ==> r.messages[i].senderDeleted)
        && (messages[i].recipientDeleted ==> r.messages[i].recipientDeleted)
  {
  }

  /** Repeating a delete that kept the row changes nothing and reports a
      bad request, because nothing was left to save. */
  lemma RepeatedDeleteChangesNothing(messages: seq<Message>, caller: string, id: int, saveOk1: bool, saveOk2: bool)
    requires MessageRepository.GetMessage(messages, id).Some?
    requires DeleteMessage(messages, caller, id, saveOk1).result.Ok?
    requires |DeleteMessage(messages, caller, id, saveOk1).messages| == |messages|
    ensures MessageRepository.GetMessage(DeleteMessage(messages, caller, id, saveOk1).messages, id).Some?
    ensures
      var once := DeleteMessage(messages, caller, id, saveOk1).messages;
      DeleteMessage(once, caller, id, saveOk2) == MessagesStep(once, BadRequest("Problem deleting the message"))
  {
    var i := MessageRepository.GetMessage(messages, id).value;
    var once := DeleteMessage(messages, caller, id, saveOk1).messages;
    assert MessageRepository.GetMessage(once, id) == Some(i) by {
      assert once[i].id == id;
      assert forall k :: 0 <= k < i ==> once[k] == messages[k];
    }
  }
}

=== FILE: paging.dfy ===
/** Paging of list queries: the page-number/page-size request parameters
    with their size cap, and the page object (items of one page plus the
    page metadata) built from a full result sequence. */
module Paging {
  import opened Common
  import opened Sorting

  const MaxPageSize: int := 50

  datatype PaginationParams = PaginationParams(pageNumber: Int32, pageSize: Int32)

  /** A freshly bound request: page 1 of size 10. */
  function DefaultParams(): (p: PaginationParams)
    ensures p.pageNumber == 1 && p.pageSize == 10
    ensures p.pageSize <= MaxPageSize
  {
    PaginationParams(1, 10)
  }

  /** The `PageSize` setter: values above the cap are stored as the cap;
      anything else, zero and negatives included, is stored unchanged. */
  function SetPageSize(p: PaginationParams, value: Int32): (r: PaginationParams)
    ensures r.pageNumber == p.pageNumber
    ensures r.pageSize <= MaxPageSize
    ensures value > MaxPageSize ==> r.pageSize == MaxPageSize
    ensures value <= MaxPageSize ==> r.pageSize == value
  {
    p.(pageSize := if value > MaxPageSize then MaxPageSize else value)
  }

  function SetPageSizes(p: PaginationParams, values: seq<Int32>): PaginationParams
    decreases |values|
  {
    if |values| == 0 then p else SetPageSizes(SetPageSize(p, values[0]), values[1..])
  }

  /** The cap holds after any sequence of assignments, starting from the
      default parameters. */
  lemma {:induction false} PageSizeStaysCapped(p: PaginationParams, values: seq<Int32>)
    requires p.pageSize <= MaxPageSize
    ensures SetPageSizes(p, values).pageSize <= MaxPageSize
    ensures |values| > 0 ==> SetPageSizes(p, values).pageSize == SetPageSize(p, values[|values| - 1]).pageSize
    decreases |values|
  {
    if |values| > 0 {
      PageSizeStaysCapped(SetPageSize(p, values[0]), values[1..]);
      if |values| > 1 {
        assert values[1..][|values[1..]| - 1] == values[|values| - 1];
      }
    }
  }

  lemma DefaultPageSizeStaysCapped(values: seq<Int32>)
    ensures SetPageSizes(DefaultParams(), values).pageSize <= MaxPageSize
  {
    PageSizeStaysCapped(DefaultParams(), values);
  }

  /** One page of a result plus its metadata. `totalPages` is `None` for a
      page size of 0, where the source converts an infinite or NaN
      quotient to `int`. */
  datatype PagedList<T> = PagedList(
    items: seq<T>,
    currentPage: int,
    totalPages: Option<int>,
    pageSize: int,
    totalCount: int)

  function Max(a: int, b: int): int { if a >= b then a else b }
  function Min(a: int, b: int): int { if a <= b then a else b }

  /** `(int)Math.Ceiling(count / (double)pageSize)` for a non-zero page size. */
  function CeilDiv(count: nat, pageSize: int): (t: int)
    requires pageSize != 0
    ensures pageSize > 0 ==> t * pageSize >= count && (t - 1) * pageSize < count
    ensures pageSize < 0 ==> t * pageSize <= count && (t - 1) * pageSize > count
  {
    if pageSize > 0 then (count + pageSize - 1) / pageSize
    else -(count / -pageSize)
  }

  /** Index of the first item of a page: `Skip` ignores a non-positive
      count and stops at the end of the source. */
  function PageStart(count: nat, offset: int): (start: nat)
    ensures start <= count
    ensures offset <= 0 ==> start == 0
    ensures 0 < offset <= count ==> start == offset
    ensures offset > count ==> start == count
  {
    if offset <= 0 then 0 else Min(offset, count)
  }

  /** How many of the `remaining` rows a `LIMIT` of `pageSize` keeps: the
      store is SQLite, where a negative limit means no limit. */
  function TakeCount(pageSize: int, remaining: nat): (n: nat)
    ensures n <= remaining
    ensures pageSize < 0 ==> n == remaining
    ensures pageSize >= 0 ==> n == Min(pageSize, remaining)
  {
    if pageSize < 0 then remaining else Min(pageSize, remaining)
  }

  /** `Skip(offset).Take(pageSize)`, run by the store as
      `LIMIT pageSize OFFSET offset`. */
  function SkipTake<T>(source: seq<T>, offset: int, pageSize: int): (items: seq<T>)
    ensures |items| == TakeCount(pageSize, |source| - PageStart(|source|, offset))
    ensures pageSize < 0 ==> items == source[PageStart(|source|, offset)..]
    ensures items == source[PageStart(|source|, offset)..PageStart(|source|, offset) + |items|]
  {
    var start := PageStart(|source|, offset);
    var take := TakeCount(pageSize, |source| - start);
    source[start..start + take]
  }

  /** `items` is page `pageNumber` (1-based) of `source` cut into pages of
      `pageSize`: the run of at most `pageSize` elements that starts after
      the first `(pageNumber - 1) * pageSize`, or every element from there
      on when the size is negative. */
  ghost predicate IsPageOf<T>(items: seq<T>, source: seq<T>, pageNumber: int, pageSize: int)
  {
    && |items| == TakeCount(pageSize, Max(0, |source| - Max(0, (pageNumber - 1) * pageSize)))
    && forall k :: 0 <= k < |items| ==> items[k] == source[Max(0, (pageNumber - 1) * pageSize) + k]
  }

  /** `PagedList.CreateAsync`: page `pageNumber` (1-based) of `source`. */
  function CreatePage<T>(source: seq<T>, pageNumber: int, pageSize: int): (r: PagedList<T>)
    ensures r.totalCount == |source|
    ensures r.currentPage == pageNumber && r.pageSize == pageSize
    ensures pageSize > 0 ==>
      (r.totalPages.Some? && r.totalPages.value * pageSize >= |source| && (r.totalPages.value - 1) * pageSize < |source|)
    ensures pageSize == 0 ==> r.totalPages.None?
    ensures IsPageOf(r.items, source, pageNumber, pageSize)
  {
    var items := SkipTake(source, (pageNumber - 1) * pageSize, pageSize);
    var totalPages := if pageSize == 0 then None else Some(CeilDiv(|source|, pageSize));
    PagedList(items, pageNumber, totalPages, pageSize, |source|)
  }

  /** A first page at least as large as the result holds all of it. */
  lemma FirstPageHoldsAll<T>(source: seq<T>, pageSize: int)
    requires pageSize >= |source|
    ensures CreatePage(source, 1, pageSize).items == source
  {
    var items := CreatePage(source, 1, pageSize).items;
    assert |items| == |source|;
  }

  /** A negative page size puts no limit on a page: every page from 1 on
      holds the whole source, and a page before 1 skips
      `(pageNumber - 1) * pageSize` rows and holds the rest. */
  lemma NegativeSizeHasNoLimit<T>(source: seq<T>, pageNumber: int, pageSize: int)
    requires pageSize < 0
    ensures pageNumber >= 1 ==> CreatePage(source, pageNumber, pageSize).items == source
    ensures pageNumber < 1 && (pageNumber - 1) * pageSize <= |source| ==>
      CreatePage(source, pageNumber, pageSize).items == source[(pageNumber - 1) * pageSize..]
  {
    if pageNumber >= 1 {
      assert (pageNumber - 1) * pageSize <= 0;
    }
  }

  /** The position in the source of one item of a page. */
  lemma PageItemAt<T>(source: seq<T>, pageNumber: int, pageSize: int, i: nat) returns (k: nat)
    requires i < |CreatePage(source, pageNumber, pageSize).items|
    ensures k < |source| && CreatePage(source, pageNumber, pageSize).items[i] == source[k]
  {
    k := Max(0, (pageNumber - 1) * pageSize) + i;
  }

  /** Every item of a page comes from the source. */
  lemma PageItemsFromSource<T>(source: seq<T>, pageNumber: int, pageSize: int)
    ensures forall x :: x in CreatePage(source, pageNumber, pageSize).items ==> x in source
  {
    var items := CreatePage(source, pageNumber, pageSize).items;
    var start := Max(0, (pageNumber - 1) * pageSize);
    forall x | x in items
      ensures x in source
    {
      var k :| 0 <= k < |items| && items[k] == x;
      assert items[k] == source[start + k];
    }
  }

  /** A page of an ordered result is ordered. */
  lemma PageKeepsOrder<T>(source: seq<T>, pageNumber: int, pageSize: int, key: T -> int)
    requires SortedByKey(source, key)
    ensures SortedByKey(CreatePage(source, pageNumber, pageSize).items, key)
  {
    var items := CreatePage(source, pageNumber, pageSize).items;
    var start := Max(0, (pageNumber - 1) * pageSize);
    forall i, j | 0 <= i < j < |items|
      ensures key(items[i]) <= key(items[j])
    {
      assert items[i] == source[start + i] && items[j] == source[start + j];
    }
  }

  /** For a positive page size every element of the source is on some
      page between 1 and `TotalPages`, and on page 1 when that page holds
      the whole source. */
  lemma EveryItemIsOnSomePage<T>(source: seq<T>, pageSize: int, i: nat) returns (pageNumber: int)
    requires pageSize > 0 && i < |source|
    ensures 1 <= pageNumber <= CreatePage(source, 1, pageSize).totalPages.value
    ensures pageSize >= |source| ==> pageNumber == 1
    ensures source[i] in CreatePage(source, pageNumber, pageSize).items
  {
    var q, m := DivMod(i, pageSize);
    pageNumber := q + 1;
    var t := CreatePage(source, 1, pageSize).totalPages.value;
    MulLessCancels(q, t, pageSize);
    var items := CreatePage(source, pageNumber, pageSize).items;
    var start := q * pageSize;
    assert (pageNumber - 1) * pageSize == start;
    assert |items| == Min(pageSize, |source| - start);
    assert items[m] == source[start + m];
    if pageSize >= |source| {
      MulLessCancels(q, 1, pageSize);
    }
  }

  /** Quotient and remainder of `i` by a positive divisor. */
  lemma DivMod(i: nat, d: int) returns (q: nat, m: nat)
    requires d > 0
    ensures q * d + m == i && m < d
    ensures q == i / d && m == i % d
  {
    q, m := i / d, i % d;
  }

  /** Multiplying by a positive factor preserves strict order. */
  lemma MulLessCancels(a: int, b: int, d: int)
    requires d > 0 && a * d < b * d
    ensures a < b
  {
  }

  /** The items of pages 1 to k, concatenated. */
  function PagesUpTo<T>(source: seq<T>, pageSize: int, k: nat): seq<T>
    requires pageSize > 0
  {
    if k == 0 then [] else PagesUpTo(source, pageSize, k - 1) + CreatePage(source, k, pageSize).items
  }

  lemma {:induction false} PagesUpToIsPrefix<T>(source: seq<T>, pageSize: int, k: nat)
    requires pageSize > 0
    ensures PagesUpTo(source, pageSize, k) == source[..Min(k * pageSize, |source|)]
  {
    if k > 0 {
      PagesUpToIsPrefix(source, pageSize, k - 1);
      MulStep(k, pageSize);
      var start := (k - 1) * pageSize;
      PageIsSlice(source, k, pageSize, start);
      ConcatSlices(source, start, start + pageSize);
    }
  }

  /** The prefix up to `a` followed by the slice from `a` to `b` is the
      prefix up to `b`, each bound clipped to the source. */
  lemma ConcatSlices<T>(source: seq<T>, a: int, b: int)
    requires 0 <= a <= b
    ensures source[..Min(a, |source|)] + source[Min(a, |source|)..Min(b, |source|)] == source[..Min(b, |source|)]
  {
  }

  lemma MulStep(k: nat, pageSize: int)
    requires k > 0 && pageSize > 0
    ensures (k - 1) * pageSize >= 0 && k * pageSize == (k - 1) * pageSize + pageSize
  {
  }

  /** Page `pageNumber` is the slice of the source from its offset `start`. */
  lemma PageIsSlice<T>(source: seq<T>, pageNumber: int, pageSize: int, start: int)
    requires pageSize > 0 && start == (pageNumber - 1) * pageSize && start >= 0
    ensures CreatePage(source, pageNumber, pageSize).items == source[Min(start, |source|)..Min(start + pageSize, |source|)]
  {
    var page := CreatePage(source, pageNumber, pageSize).items;
    assert forall i :: 0 <= i < |page| ==> page[i] == source[start + i];
  }

  /** Reading pages 1 to `TotalPages` in order gives back the whole source. */
  lemma PagesReproduceSource<T>(source: seq<T>, pageSize: int)
    requires pageSize > 0
    ensures PagesUpTo(source, pageSize, CreatePage(source, 1, pageSize).totalPages.value) == source
  {
    var t := CreatePage(source, 1, pageSize).totalPages.value;
    PagesUpToIsPrefix(source, pageSize, t);
    assert Min(t * pageSize, |source|) == |source|;
  }

  /** Two's-complement wrap of an integer into the C# `int` range. */
  function WrapInt32(x: int): (r: Int32)
    ensures Int32Min <= x <= Int32Max ==> r == x
    ensures (r - x) % 0x1_0000_0000 == 0
  {
    (x - Int32Min) % 0x1_0000_0000 + Int32Min
  }

  /** The page as the source computes it: the skip count
      `(pageNumber - 1) * pageSize` is unchecked `int` arithmetic. */
  function CreatePageAsWritten<T>(source: seq<T>, pageNumber: Int32, pageSize: Int32): (r: PagedList<T>)
    ensures r.totalCount == |source| && r.pageSize == pageSize
    ensures r.items == SkipTake(source, WrapInt32(WrapInt32(pageNumber - 1) * pageSize), pageSize)
  {
    var items := SkipTake(source, WrapInt32(WrapInt32(pageNumber - 1) * pageSize), pageSize);
    var totalPages := if pageSize == 0 then None else Some(CeilDiv(|source|, pageSize));
    PagedList(items, pageNumber, totalPages, pageSize, |source|)
  }

  /** Whenever the skip count fits in an `int` the two computations agree. */
  lemma AsWrittenAgreesWithoutOverflow<T>(source: seq<T>, pageNumber: Int32, pageSize: Int32)
    requires Int32Min <= (pageNumber - 1) * pageSize <= Int32Max
    ensures CreatePageAsWritten(source, pageNumber, pageSize) == CreatePage(source, pageNumber, pageSize)
  {
  }

  /** Page 268435457 of size 16 skips (2^28) * 16 = 2^32 items, which wraps
      to 0: the source answers that page with the items of page 1, where
      the page should be empty. */
  lemma SkipOffsetWrapsToFirstPage<T>(source: seq<T>)
    requires 0 < |source| <= Int32Max
    ensures CreatePageAsWritten(source, 268435457, 16).items == CreatePage(source, 1, 16).items
    ensures CreatePageAsWritten(source, 268435457, 16).items != []
    ensures CreatePage(source, 268435457, 16).items == []
  {
    assert WrapInt32(268435456) == 268435456;
    assert WrapInt32(268435456 * 16) == 0;
    assert (268435457 - 1) * 16 == 0x1_0000_0000;
  }
}

=== FILE: presence_client.dfy ===
/** The browser's list of online usernames, kept up to date from the
    presence hub's events. The list is replaced, never mutated: each event
    yields a new list. */
module PresenceClient {
  import opened Common
  import PresenceTracker
  import PresenceHub
  import Strings

  type OnlineList = seq<string>

  /** The list before any event arrives. */
  function Initial(): (r: OnlineList)
    ensures |r| == 0
  {
    []
  }

  /** `s` without any occurrence of `x`, the others in their order. */
  function RemoveAll(s: seq<string>, x: string): (r: seq<string>)
    ensures x !in r
    ensures forall y :: y in r <==> y in s && y != x
    ensures |r| <= |s|
  {
    if |s| == 0 then []
    else
      assert s == [s[0]] + s[1..];
      var rest := RemoveAll(s[1..], x);
      if s[0] == x then rest else [s[0]] + rest
  }

  /** Every other name keeps its number of occurrences. */
  lemma {:induction false} RemoveAllCount(s: seq<string>, x: string, y: string)
    requires y != x
    ensures Count(RemoveAll(s, x), y) == Count(s, y)
  {
    if |s| > 0 {
      RemoveAllCount(s[1..], x, y);
      var rest := RemoveAll(s[1..], x);
      if s[0] != x {
        assert ([s[0]] + rest)[1..] == rest;
      }
    }
  }

  lemma RemoveAllCons(h: string, t: seq<string>, x: string)
    ensures RemoveAll([h] + t, x) == if h == x then RemoveAll(t, x) else [h] + RemoveAll(t, x)
  {
    assert ([h] + t)[0] == h && ([h] + t)[1..] == t;
  }

  /** Removal keeps relative order: it distributes over concatenation. */
  lemma {:induction false} RemoveAllDistributes(a: seq<string>, b: seq<string>, x: string)
    ensures RemoveAll(a + b, x) == RemoveAll(a, x) + RemoveAll(b, x)
  {
    if |a| == 0 {
      assert a + b == b;
    } else {
      var t := a[1..];
      assert a == [a[0]] + t;
      assert a + b == [a[0]] + (t + b);
      RemoveAllCons(a[0], t + b, x);
      RemoveAllCons(a[0], t, x);
      RemoveAllDistributes(t, b, x);
      if a[0] != x {
        assert [a[0]] + (RemoveAll(t, x) + RemoveAll(b, x)) == ([a[0]] + RemoveAll(t, x)) + RemoveAll(b, x);
      }
    }
  }

  /** The list after one presence event. A new-message toast leaves the
      list alone. */
  function Receive(list: OnlineList, e: PresenceHub.PresenceEvent): (r: OnlineList)
    ensures e.UserIsOnline? ==> |r| == |list| + 1 && r[..|list|] == list && r[|list|] == e.username
    ensures e.UserIsOffline? ==> r == RemoveAll(list, e.username)
    ensures e.GetOnlineUsers? ==> r == e.usernames
    ensures e.NewMessageReceived? ==> r == list
  {
    match e
    case UserIsOnline(u) => list + [u]
    case UserIsOffline(u) => RemoveAll(list, u)
    case GetOnlineUsers(us) => us
    case NewMessageReceived(_, _) => list
  }

  function ReceiveAll(list: OnlineList, events: seq<PresenceHub.PresenceEvent>): OnlineList
    decreases |events|
  {
    if |events| == 0 then list else ReceiveAll(Receive(list, events[0]), events[1..])
  }

  /** Whether a send from the hub call made by connection `caller`
      reaches connection `me`. */
  predicate Reaches(audience: PresenceHub.Audience, caller: string, me: string)
  {
    match audience
    case Others => me != caller
    case Caller => me == caller
    case Clients(ids) => me in ids
  }

  /** `Reaches` agrees with the hub's delivery rule for an open connection. */
  lemma ReachesIsDelivery(audience: PresenceHub.Audience, caller: string, me: string, open: set<string>)
    requires me in open
    requires audience.Caller? ==> caller in open
    ensures Reaches(audience, caller, me) <==> me in PresenceHub.Delivered(audience, caller, open)
  {
  }

  /** The events that connection `me` receives from a list of sends. */
  function Inbox(sent: seq<PresenceHub.Send>, caller: string, me: string): (r: seq<PresenceHub.PresenceEvent>)
    ensures |r| <= |sent|
    ensures forall e :: e in r ==> exists s :: s in sent && s.event == e && Reaches(s.audience, caller, me)
  {
    if |sent| == 0 then []
    else (if Reaches(sent[0].audience, caller, me) then [sent[0].event] else []) + Inbox(sent[1..], caller, me)
  }

  predicate NoDuplicates(s: seq<string>)
  {
    forall i, j :: 0 <= i < j < |s| ==> s[i] != s[j]
  }

  /** The client list mirrors the registry: each online user once. */
  ghost predicate Mirrors(list: OnlineList, m: PresenceTracker.Registry)
  {
    NoDuplicates(list) && forall u :: u in list <==> u in m
  }

  /** The snapshot a connecting client gets mirrors the registry. */
  lemma SnapshotMirrors(m: PresenceTracker.Registry)
    ensures Mirrors(PresenceTracker.GetOnlineUsers(m), m)
  {
    var r := PresenceTracker.GetOnlineUsers(m);
    forall i, j | 0 <= i < j < |r|
      ensures r[i] != r[j]
    {
      Strings.OrdinalLessIrreflexive(r[i]);
    }
  }

  lemma InboxSingle(a: PresenceHub.Send, caller: string, me: string)
    ensures Inbox([a], caller, me) == if Reaches(a.audience, caller, me) then [a.event] else []
  {
    assert [a][1..] == [];
  }

  lemma InboxPair(a: PresenceHub.Send, b: PresenceHub.Send, caller: string, me: string)
    ensures Inbox([a, b], caller, me)
         == (if Reaches(a.audience, caller, me) then [a.event] else []) + (if Reaches(b.audience, caller, me) then [b.event] else [])
  {
    assert [a, b][1..] == [b];
    InboxSingle(b, caller, me);
  }

  lemma ReceiveOne(list: OnlineList, e: PresenceHub.PresenceEvent)
    ensures ReceiveAll(list, [e]) == Receive(list, e)
  {
    assert [e][1..] == [];
  }

  /** The connecting client ends up with the snapshot whatever list it
      held before, so it mirrors the registry after its own connect. */
  lemma ConnectingClientMirrors(m: PresenceTracker.Registry, username: string, connectionId: string, list: OnlineList)
    ensures
      var step := PresenceHub.OnConnected(m, username, connectionId);
      Mirrors(ReceiveAll(list, Inbox(step.sent, connectionId, connectionId)), step.registry)
  {
    var step := PresenceHub.OnConnected(m, username, connectionId);
    var sent := step.sent;
    assert forall i :: 0 <= i < |sent| - 1 ==> sent[i].audience == PresenceHub.Others;
    SnapshotReceived(list, step.registry, sent, connectionId);
  }

  /** A caller that is sent the snapshot last, after announcements to the
      others only, holds the snapshot. */
  lemma SnapshotReceived(list: OnlineList, registry: PresenceTracker.Registry, sent: seq<PresenceHub.Send>, connectionId: string)
    requires 1 <= |sent| <= 2
    requires sent[|sent| - 1] == PresenceHub.Send(PresenceHub.Caller, PresenceHub.GetOnlineUsers(PresenceTracker.GetOnlineUsers(registry)))
    requires forall i :: 0 <= i < |sent| - 1 ==> sent[i].audience == PresenceHub.Others
    ensures Mirrors(ReceiveAll(list, Inbox(sent, connectionId, connectionId)), registry)
  {
    SnapshotMirrors(registry);
    var last := sent[|sent| - 1];
    if |sent| == 1 {
      assert sent == [last];
      InboxSingle(last, connectionId, connectionId);
    } else {
      assert sent == [sent[0], last];
      InboxPair(sent[0], last, connectionId, connectionId);
    }
    ReceiveOne(list, last.event);
  }

  /** Every other client that mirrored the registry still mirrors it after
      someone connects: a first connection appends the one name it lacked,
      and a second device sends it nothing. */
  lemma WatcherMirrorsAfterConnect(m: PresenceTracker.Registry, username: string, connectionId: string,
                                   me: string, list: OnlineList)
    requires me != connectionId
    requires Mirrors(list, m)
    ensures
      var step := PresenceHub.OnConnected(m, username, connectionId);
      Mirrors(ReceiveAll(list, Inbox(step.sent, connectionId, me)), step.registry)
  {
    var step := PresenceHub.OnConnected(m, username, connectionId);
    var sent := step.sent;
    assert forall i :: 0 <= i < |sent| - 1 ==> sent[i] == PresenceHub.Send(PresenceHub.Others, PresenceHub.UserIsOnline(username));
    AnnouncementReceived(list, m, step.registry, sent, username, connectionId, me);
  }

  /** A watcher sent at most the announcement of a newly online user, and
      not the caller's snapshot, keeps mirroring the registry. */
  lemma AnnouncementReceived(list: OnlineList, m: PresenceTracker.Registry, registry: PresenceTracker.Registry,
                             sent: seq<PresenceHub.Send>, username: string, connectionId: string, me: string)
    requires me != connectionId
    requires Mirrors(list, m)
    requires registry.Keys == m.Keys + {username}
    requires 1 <= |sent| <= 2
    requires |sent| == 2 <==> username !in m
    requires sent[|sent| - 1].audience == PresenceHub.Caller
    requires forall i :: 0 <= i < |sent| - 1 ==> sent[i] == PresenceHub.Send(PresenceHub.Others, PresenceHub.UserIsOnline(username))
    ensures Mirrors(ReceiveAll(list, Inbox(sent, connectionId, me)), registry)
  {
    var last := sent[|sent| - 1];
    if |sent| == 1 {
      assert sent == [last];
      InboxSingle(last, connectionId, me);
      assert registry.Keys == m.Keys;
    } else {
      var first := sent[0];
      assert sent == [first, last];
      InboxPair(first, last, connectionId, me);
      ReceiveOne(list, first.event);
      var after := list + [username];
      assert username !in list;
      forall i, j | 0 <= i < j < |after|
        ensures after[i] != after[j]
      {
        if j == |list| {
          assert after[i] == list[i];
        } else {
          assert after[i] == list[i] && after[j] == list[j];
        }
      }
    }
  }

  /** Every other client that mirrored the registry still mirrors it after
      a connection closes. */
  lemma WatcherMirrorsAfterDisconnect(m: PresenceTracker.Registry, username: string, connectionId: string,
                                      me: string, list: OnlineList)
    requires PresenceTracker.Valid(m)
    requires me != connectionId
    requires Mirrors(list, m)
    ensures
      var step := PresenceHub.OnDisconnected(m, username, connectionId);
      Mirrors(ReceiveAll(list, Inbox(step.sent, connectionId, me)), step.registry)
  {
    var step := PresenceHub.OnDisconnected(m, username, connectionId);
    if |step.sent| == 0 {
      assert Inbox(step.sent, connectionId, me) == [];
      assert step.registry.Keys == m.Keys by {
        if username in m {
          assert username in step.registry;
        }
      }
    } else {
      var first := step.sent[0];
      assert step.sent == [first];
      assert first == PresenceHub.Send(PresenceHub.Others, PresenceHub.UserIsOffline(username));
      InboxSingle(first, connectionId, me);
      ReceiveOne(list, first.event);
      NoDuplicatesAfterRemove(list, username);
    }
  }

  lemma {:induction false} NoDuplicatesAfterRemove(s: seq<string>, x: string)
    requires NoDuplicates(s)
    ensures NoDuplicates(RemoveAll(s, x))
  {
    if |s| > 0 {
      NoDuplicatesAfterRemove(s[1..], x);
      var rest := RemoveAll(s[1..], x);
      if s[0] != x {
        assert s[0] !in s[1..] by {
          forall k | 0 <= k < |s[1..]|
            ensures s[1..][k] != s[0]
          {
            assert s[k + 1] != s[0];
          }
        }
        assert s[0] !in rest;
        var r := [s[0]] + rest;
        forall i, j | 0 <= i < j < |r|
          ensures r[i] != r[j]
        {
          if i == 0 {
            assert r[j] == rest[j - 1];
            assert r[j] in rest;
          } else {
            assert r[i] == rest[i - 1] && r[j] == rest[j - 1];
          }
        }
      }
    }
  }
}

=== FILE: presence_hub.dfy ===
/** The presence hub: on each connection open and close it updates the
    online registry and decides which online/offline events to broadcast.
    Outgoing hub sends are returned as a list instead of being performed.
    The same module holds the routing used by the message hub to reach a
    user's presence connections (`NotifyNewMessage`). */
module PresenceHub {
  import opened Common
  import PresenceTracker

  /** Client methods invoked on presence-hub connections. */
  datatype PresenceEvent =
    | UserIsOnline(username: string)
    | UserIsOffline(username: string)
    | GetOnlineUsers(usernames: seq<string>)
    | NewMessageReceived(username: string, knownAs: string)

  /** Who a send reaches: every connection but the caller's, the caller
      only, or an explicit list of connection ids. */
  datatype Audience = Others | Caller | Clients(connectionIds: seq<string>)

  datatype Send = Send(audience: Audience, event: PresenceEvent)

  datatype HubStep = HubStep(registry: PresenceTracker.Registry, sent: seq<Send>)

  /** The connection ids a send reaches, given the connection that made
      the hub call and the set of connections open on the hub. */
  function Delivered(audience: Audience, caller: string, open: set<string>): (r: set<string>)
    ensures caller !in r || audience.Caller? || (audience.Clients? && caller in audience.connectionIds)
    ensures audience.Others? ==> r == open - {caller}
  {
    match audience
    case Others => open - {caller}
    case Caller => {caller}
    case Clients(ids) => set i | i in ids
  }

  /** `OnConnectedAsync`: register, announce a first connection to the
      others, then send the caller the online snapshot taken after
      registering. */
  function OnConnected(m: PresenceTracker.Registry, username: string, connectionId: string): (r: HubStep)
    ensures r.registry.Keys == m.Keys + {username}
    ensures connectionId in r.registry[username]
    ensures 1 <= |r.sent| <= 2
    ensures |r.sent| == 2 <==> username !in m
    ensures r.sent[|r.sent| - 1].audience == Caller
    ensures r.sent[|r.sent| - 1].event == GetOnlineUsers(PresenceTracker.GetOnlineUsers(r.registry))
    ensures username in r.sent[|r.sent| - 1].event.usernames
    ensures forall i :: 0 <= i < |r.sent| - 1 ==> r.sent[i] == Send(Others, UserIsOnline(username))
  {
    var step := PresenceTracker.UserConnected(m, username, connectionId);
    var snapshot := Send(Caller, GetOnlineUsers(PresenceTracker.GetOnlineUsers(step.registry)));
    if step.isOnline then HubStep(step.registry, [Send(Others, UserIsOnline(username)), snapshot])
    else HubStep(step.registry, [snapshot])
  }

  /** `OnDisconnectedAsync`: deregister, and announce the last close to
      the others. */
  function OnDisconnected(m: PresenceTracker.Registry, username: string, connectionId: string): (r: HubStep)
    requires PresenceTracker.Valid(m)
    ensures PresenceTracker.Valid(r.registry)
    ensures username !in m ==> r.registry == m && r.sent == []
    ensures |r.sent| <= 1
    ensures forall i :: 0 <= i < |r.sent| ==> r.sent[i] == Send(Others, UserIsOffline(username))
    ensures |r.sent| == 1 <==> (username in m && m[username] == [connectionId])
    ensures |r.sent| == 1 <==> username in m && username !in r.registry
  {
    var step := PresenceTracker.UserDisconnected(m, username, connectionId);
    if !step.isOffline then HubStep(step.registry, [])
    else
      PresenceTracker.LastConnectionIffOnlyConnection(m, username, connectionId);
      HubStep(step.registry, [Send(Others, UserIsOffline(username))])
  }

  /** Online and offline announcements are never delivered back to the
      connection whose open or close caused them. */
  lemma TransitionsSkipTheCause(m: PresenceTracker.Registry, username: string, connectionId: string, open: set<string>)
    requires PresenceTracker.Valid(m)
    ensures forall s :: s in OnConnected(m, username, connectionId).sent && (s.event.UserIsOnline? || s.event.UserIsOffline?) ==>
      connectionId !in Delivered(s.audience, connectionId, open)
    ensures forall s :: s in OnDisconnected(m, username, connectionId).sent ==>
      connectionId !in Delivered(s.audience, connectionId, open)
  {
  }

  /** A second device of an online user produces no online announcement. */
  lemma SecondDeviceIsSilent(m: PresenceTracker.Registry, username: string, c1: string, c2: string)
    ensures forall s :: s in OnConnected(OnConnected(m, username, c1).registry, username, c2).sent ==>
      !s.event.UserIsOnline?
  {
    var r := OnConnected(OnConnected(m, username, c1).registry, username, c2);
    assert |r.sent| == 1;
  }

  /** The notification the message hub pushes to an absent recipient:
      one send addressed to exactly the recipient's presence connections,
      or nothing when the recipient has no registry entry. */
  function NotifyNewMessage(connections: Option<seq<string>>, senderUsername: string, senderKnownAs: string): (r: seq<Send>)
    ensures connections.None? <==> r == []
    ensures connections.Some? ==> r == [Send(Clients(connections.value), NewMessageReceived(senderUsername, senderKnownAs))]
  {
    match connections
    case None => []
    case Some(ids) => [Send(Clients(ids), NewMessageReceived(senderUsername, senderKnownAs))]
  }
}

=== FILE: presence_tracker.dfy ===
/** The process-wide online registry: a map from username to the list of
    that user's live presence-hub connection ids. Every operation runs under
    one lock in the source, so each is one atomic step here: a pure function
    from the old map to the new map and the reported transition. */
module PresenceTracker {
  import opened Common
  import opened Strings

  type Registry = map<string, seq<string>>

  const Empty: Registry := map[]

  /** A username is a key exactly while it has at least one connection. */
  ghost predicate Valid(m: Registry)
  {
    forall u :: u in m ==> |m[u]| > 0
  }

  datatype ConnectResult = ConnectResult(registry: Registry, isOnline: bool)
  datatype DisconnectResult = DisconnectResult(registry: Registry, isOffline: bool)

  /** Registers a connection. `isOnline` reports the 0 -> 1 transition. */
  function UserConnected(m: Registry, username: string, connectionId: string): (r: ConnectResult)
    ensures r.isOnline <==> username !in m
    ensures username in r.registry && connectionId in r.registry[username]
    ensures username in m ==> r.registry[username] == m[username] + [connectionId]
    ensures username !in m ==> r.registry[username] == [connectionId]
    ensures r.registry.Keys == m.Keys + {username}
    ensures forall u :: u in m && u != username ==> r.registry[u] == m[u]
    ensures Valid(m) ==> Valid(r.registry)
  {
    if username in m then ConnectResult(m[username := m[username] + [connectionId]], false)
    else ConnectResult(m[username := [connectionId]], true)
  }

  /** Deregisters a connection. `isOffline` reports the 1 -> 0 transition;
      an unknown username is a no-op. */
  function UserDisconnected(m: Registry, username: string, connectionId: string): (r: DisconnectResult)
    ensures username !in m ==> r.registry == m && !r.isOffline
    ensures username in m ==> (r.isOffline <==> |RemoveFirst(m[username], connectionId)| == 0)
    ensures r.isOffline ==> r.registry.Keys == m.Keys - {username}
    ensures username in m && !r.isOffline ==>
      && r.registry.Keys == m.Keys
      && multiset(r.registry[username]) == multiset(m[username]) - multiset{connectionId}
    ensures forall u :: u in m && u != username ==> u in r.registry && r.registry[u] == m[u]
    ensures Valid(m) ==> Valid(r.registry)
  {
    if username !in m then DisconnectResult(m, false)
    else
      var remaining := RemoveFirst(m[username], connectionId);
      if |remaining| == 0 then
        var r := m - {username};
        assert r.Keys == m.Keys - {username};
        DisconnectResult(r, true)
      else
        var r := m[username := remaining];
        assert r.Keys == m.Keys;
        DisconnectResult(r, false)
  }

  /** On a valid registry, a disconnect is the last one exactly when the
      closing connection was the user's only one. */
  lemma LastConnectionIffOnlyConnection(m: Registry, username: string, connectionId: string)
    requires Valid(m)
    requires username in m
    ensures UserDisconnected(m, username, connectionId).isOffline <==> m[username] == [connectionId]
  {
    var s := m[username];
    var remaining := RemoveFirst(s, connectionId);
    if |remaining| == 0 {
      assert connectionId in s;
      assert |s| == 1;
      assert s == [s[0]];
    }
  }

  /** `x` is the ordinal minimum of `s`. */
  predicate IsMin(x: string, s: set<string>)
  {
    x in s && forall y :: y in s ==> y == x || OrdinalLess(x, y)
  }

  lemma {:induction false} MinExists(s: set<string>)
    requires s != {}
    ensures exists x :: IsMin(x, s)
    decreases |s|
  {
    var y :| y in s;
    var rest := s - {y};
    if rest == {} {
      assert s == {y};
      assert IsMin(y, s);
    } else {
      MinExists(rest);
      var x :| IsMin(x, rest);
      OrdinalLessTotal(x, y);
      if OrdinalLess(y, x) {
        forall z | z in s
          ensures z == y || OrdinalLess(y, z)
        {
          if z != y {
            OrdinalLessTransitive(y, x, z);
          }
        }
        assert IsMin(y, s);
      } else {
        assert IsMin(x, s);
      }
    }
  }

  ghost predicate StrictlySorted(r: seq<string>)
  {
    forall i, j :: 0 <= i < j < |r| ==> OrdinalLess(r[i], r[j])
  }

  /** The keys of a registry in ascending ordinal order, each once. */
  function SortedNames(s: set<string>): (r: seq<string>)
    ensures StrictlySorted(r)
    ensures forall u :: u in r <==> u in s
    ensures |r| == |s|
    decreases |s|
  {
    if s == {} then []
    else
      MinExists(s);
      OrdinalIsStrictTotalOrder();
      var x :| IsMin(x, s);
      var rest := SortedNames(s - {x});
      [x] + rest
  }

  /** The online snapshot: every username with a registry entry, each once,
      in ascending order. The registry itself is untouched. */
  function GetOnlineUsers(m: Registry): (r: seq<string>)
    ensures StrictlySorted(r)
    ensures forall u :: u in r <==> u in m
    ensures |r| == |m|
  {
    SortedNames(m.Keys)
  }

  /** The user's connection list, or `None` (the source's null) when the
      user has no entry. */
  function GetConnectionsForUser(m: Registry, username: string): (r: Option<seq<string>>)
    ensures r.Some? <==> username in m
    ensures r.Some? ==> r.value == m[username]
  {
    if username in m then Some(m[username]) else None
  }

  /** A user is listed online exactly when the registry holds a non-empty
      list of connections for them. */
  lemma OnlineIffHasConnections(m: Registry, username: string)
    requires Valid(m)
    ensures username in GetOnlineUsers(m) <==>
      (GetConnectionsForUser(m, username).Some? && |GetConnectionsForUser(m, username).value| > 0)
  {
  }

  /** Only the first of two registrations for one user reports a transition. */
  lemma SecondConnectionIsNotATransition(m: Registry, username: string, c1: string, c2: string)
    requires username !in m
    ensures UserConnected(m, username, c1).isOnline
    ensures !UserConnected(UserConnected(m, username, c1).registry, username, c2).isOnline
  {
  }

  /** The transition flags reported while closing the connections `ids` one
      after another. */
  function DrainFlags(m: Registry, username: string, ids: seq<string>): seq<bool>
    decreases |ids|
  {
    if |ids| == 0 then []
    else
      var step := UserDisconnected(m, username, ids[0]);
      [step.isOffline] + DrainFlags(step.registry, username, ids[1..])
  }

  /** Closing one of several connections is not a transition, and the
      remaining ids are exactly the remaining connections. */
  lemma DrainStepKeepsUser(m: Registry, username: string, ids: seq<string>)
    requires Valid(m)
    requires username in m
    requires multiset(ids) == multiset(m[username])
    requires |ids| > 1
    ensures
      var step := UserDisconnected(m, username, ids[0]);
      && !step.isOffline
      && username in step.registry
      && Valid(step.registry)
      && multiset(ids[1..]) == multiset(step.registry[username])
  {
    assert |ids| == |m[username]| by {
      assert |multiset(ids)| == |ids| && |multiset(m[username])| == |m[username]|;
    }
    assert ids[0] in multiset(m[username]);
    assert |RemoveFirst(m[username], ids[0])| == |m[username]| - 1;
    assert ids == [ids[0]] + ids[1..];
    assert multiset(ids) == multiset{ids[0]} + multiset(ids[1..]);
  }

  /** Closing the only connection is the transition. */
  lemma DrainLastIsOffline(m: Registry, username: string, ids: seq<string>)
    requires Valid(m)
    requires username in m
    requires multiset(ids) == multiset(m[username])
    requires |ids| == 1
    ensures UserDisconnected(m, username, ids[0]).isOffline
  {
    assert ids == [ids[0]];
    assert |m[username]| == 1 by {
      assert |multiset(ids)| == |ids| && |multiset(m[username])| == |m[username]|;
    }
    assert m[username] == [ids[0]] by {
      assert m[username][0] in multiset(ids);
    }
    LastConnectionIffOnlyConnection(m, username, ids[0]);
  }

  /** Prefixing `false` to a flag list set at its last place only keeps it
      set at its last place only. */
  lemma OnlyLastAfterFalse(flags: seq<bool>, rest: seq<bool>)
    requires |rest| > 0
    requires flags == [false] + rest
    requires forall k :: 0 <= k < |rest| ==> (rest[k] <==> k == |rest| - 1)
    ensures forall k :: 0 <= k < |flags| ==> (flags[k] <==> k == |flags| - 1)
  {
    forall k | 0 <= k < |flags|
      ensures flags[k] <==> k == |flags| - 1
    {
      if k > 0 {
        assert flags[k] == rest[k - 1];
      }
    }
  }

  /** Closing all of a user's connections, in any order, reports the
      offline transition on the final close only. */
  lemma {:induction false} OnlyLastCloseIsOffline(m: Registry, username: string, ids: seq<string>)
    requires Valid(m)
    requires username in m
    requires multiset(ids) == multiset(m[username])
    ensures |DrainFlags(m, username, ids)| == |ids|
    ensures forall k :: 0 <= k < |ids| ==> (DrainFlags(m, username, ids)[k] <==> k == |ids| - 1)
    decreases |ids|
  {
    if |ids| > 0 {
      var step := UserDisconnected(m, username, ids[0]);
      var flags := DrainFlags(m, username, ids);
      var rest := DrainFlags(step.registry, username, ids[1..]);
      assert flags == [step.isOffline] + rest;
      if |ids| == 1 {
        DrainLastIsOffline(m, username, ids);
        assert rest == [];
      } else {
        DrainStepKeepsUser(m, username, ids);
        OnlyLastCloseIsOffline(step.registry, username, ids[1..]);
        OnlyLastAfterFalse(flags, rest);
      }
    }
  }
}

=== FILE: sorting.dfy ===
/** An insertion sort on an integer key: the model of an `OrderBy(key)`
    that the store translates to SQL `ORDER BY`. `OrderByDescending(key)` is
    the same sort on the negated key. SQL leaves the order of equal keys
    unspecified; this sort fixes one admissible order, ties in store
    order. */
module Sorting {

  /** `s` is in ascending order of `key`. */
  predicate SortedByKey<T>(s: seq<T>, key: T -> int)
  {
    forall i, j :: 0 <= i < j < |s| ==> key(s[i]) <= key(s[j])
  }

  /** Puts `x` in front of the first element whose key is at least its
      own, so that it stays ahead of the elements it ties with. */
  function Insert<T>(x: T, s: seq<T>, key: T -> int): (r: seq<T>)
    requires SortedByKey(s, key)
    ensures SortedByKey(r, key)
    ensures multiset(r) == multiset(s) + multiset{x}
    ensures |r| == |s| + 1
  {
    if |s| == 0 then [x]
    else if key(x) <= key(s[0]) then [x] + s
    else
      var rest := Insert(x, s[1..], key);
      assert s == [s[0]] + s[1..];
      BoundCarriesOver(rest, s[1..], x, key, key(s[0]));
      ConsKeepsSorted(s[0], rest, key);
      [s[0]] + rest
  }

  /** A head no larger than any key of a sorted tail gives a sorted sequence. */
  lemma ConsKeepsSorted<T>(h: T, rest: seq<T>, key: T -> int)
    requires SortedByKey(rest, key)
    requires forall k :: 0 <= k < |rest| ==> key(h) <= key(rest[k])
    ensures SortedByKey([h] + rest, key)
  {
    var r := [h] + rest;
    forall i, j | 0 <= i < j < |r|
      ensures key(r[i]) <= key(r[j])
    {
      assert r[j] == rest[j - 1];
      if i > 0 {
        assert r[i] == rest[i - 1];
      }
    }
  }

  /** A lower bound on the keys of `base` and on `key(x)` bounds every key
      of a permutation of `base` plus `x`. */
  lemma BoundCarriesOver<T>(r: seq<T>, base: seq<T>, x: T, key: T -> int, b: int)
    requires multiset(r) == multiset(base) + multiset{x}
    requires b <= key(x)
    requires forall k :: 0 <= k < |base| ==> b <= key(base[k])
    ensures forall k :: 0 <= k < |r| ==> b <= key(r[k])
  {
    forall k | 0 <= k < |r|
      ensures b <= key(r[k])
    {
      assert r[k] in multiset(r);
      if r[k] != x {
        assert r[k] in multiset(base);
        var j :| 0 <= j < |base| && base[j] == r[k];
      }
    }
  }

  /** The result is ordered by `key` and is a permutation of `s`. */
  function Sort<T>(s: seq<T>, key: T -> int): (r: seq<T>)
    ensures SortedByKey(r, key)
    ensures multiset(r) == multiset(s)
    ensures |r| == |s|
  {
    if |s| == 0 then []
    else
      assert s == [s[0]] + s[1..];
      Insert(s[0], Sort(s[1..], key), key)
  }

  /** An element no larger than the head goes in front. */
  lemma InsertInFront<T>(x: T, s: seq<T>, key: T -> int)
    requires SortedByKey(s, key)
    requires |s| == 0 || key(x) <= key(s[0])
    ensures Insert(x, s, key) == [x] + s
  {
  }

  /** An element larger than the head goes into the tail. */
  lemma InsertBehind<T>(x: T, s: seq<T>, key: T -> int)
    requires SortedByKey(s, key)
    requires |s| > 0 && key(x) > key(s[0])
    ensures SortedByKey(s[1..], key)
    ensures Insert(x, s, key) == [s[0]] + Insert(x, s[1..], key)
  {
  }

  /** Sorting a sequence whose keys are all equal changes nothing. */
  lemma {:induction false} ConstantKeySortIsIdentity<T>(s: seq<T>, key: T -> int)
    requires forall i, j :: 0 <= i < |s| && 0 <= j < |s| ==> key(s[i]) == key(s[j])
    ensures Sort(s, key) == s
  {
    if |s| > 0 {
      var t := s[1..];
      assert forall i, j :: 0 <= i < |t| && 0 <= j < |t| ==> key(t[i]) == key(t[j]) by {
        forall i, j | 0 <= i < |t| && 0 <= j < |t|
          ensures key(t[i]) == key(t[j])
        {
          assert t[i] == s[i + 1] && t[j] == s[j + 1];
        }
      }
      ConstantKeySortIsIdentity(t, key);
      assert Sort(s, key) == Insert(s[0], Sort(t, key), key);
      if |t| > 0 {
        assert key(s[0]) == key(t[0]) by {
          assert t[0] == s[1];
        }
      }
      InsertInFront(s[0], t, key);
      HeadTail(s);
    }
  }

  /** The tail of a sorted sequence is sorted and bounded below by its head. */
  lemma TailSorted<T>(s: seq<T>, key: T -> int)
    requires SortedByKey(s, key) && |s| > 0
    ensures SortedByKey(s[1..], key)
    ensures forall x :: x in s[1..] ==> key(s[0]) <= key(x)
  {
    var t := s[1..];
    forall i, j | 0 <= i < j < |t|
      ensures key(t[i]) <= key(t[j])
    {
      assert t[i] == s[i + 1] && t[j] == s[j + 1];
    }
    forall x | x in t
      ensures key(s[0]) <= key(x)
    {
      var k :| 0 <= k < |t| && t[k] == x;
      assert t[k] == s[k + 1];
    }
  }

  /** A non-empty sequence is its head followed by its tail. */
  lemma HeadTail<T>(s: seq<T>)
    requires |s| > 0
    ensures s == [s[0]] + s[1..]
  {
  }
}

=== FILE: strings.dfy ===
/** String helpers shared by the model: the ordinal order used
    for canonical group names and sorted user lists, ASCII lower-casing, and
    the comma split/join pair that carries role lists between client and
    server. */
module Strings {

  /** Ordinal comparison: `a` is smaller at the first differing character,
      or `a` is a proper prefix of `b`. Characters compare as Unicode scalar
      values, while `string.CompareOrdinal` compares UTF-16 code units; the
      two orders differ only between a supplementary-plane character and
      one in U+E000 to U+FFFF. The names compared here are identity
      usernames, which by default admit only ASCII letters, digits and
      `-._@+`, so on them this is exactly `CompareOrdinal(a, b) < 0`. */
  predicate OrdinalLess(a: string, b: string)
    decreases |a|
  {
    if |a| == 0 then |b| > 0
    else if |b| == 0 then false
    else if a[0] != b[0] then a[0] < b[0]
    else OrdinalLess(a[1..], b[1..])
  }

  lemma {:induction false} OrdinalLessIrreflexive(a: string)
    ensures !OrdinalLess(a, a)
    decreases |a|
  {
    if |a| > 0 {
      OrdinalLessIrreflexive(a[1..]);
    }
  }

  lemma {:induction false} OrdinalLessAsymmetric(a: string, b: string)
    ensures OrdinalLess(a, b) ==> !OrdinalLess(b, a)
    decreases |a|
  {
    if |a| > 0 && |b| > 0 && a[0] == b[0] {
      OrdinalLessAsymmetric(a[1..], b[1..]);
    }
  }

  /** Any two distinct strings are ordered one way or the other. */
  lemma {:induction false} OrdinalLessTotal(a: string, b: string)
    ensures a == b || OrdinalLess(a, b) || OrdinalLess(b, a)
    decreases |a|
  {
    if |a| > 0 && |b| > 0 && a[0] == b[0] {
      OrdinalLessTotal(a[1..], b[1..]);
      if a[1..] == b[1..] {
        assert a == [a[0]] + a[1..] && b == [b[0]] + b[1..];
      }
    }
  }

  lemma {:induction false} OrdinalLessTransitive(a: string, b: string, c: string)
    ensures OrdinalLess(a, b) && OrdinalLess(b, c) ==> OrdinalLess(a, c)
    decreases |a|
  {
    if |a| > 0 && |b| > 0 && |c| > 0 && a[0] == b[0] && b[0] == c[0] {
      OrdinalLessTransitive(a[1..], b[1..], c[1..]);
    }
  }

  /** The facts above, stated for every pair and triple at once. */
  lemma OrdinalIsStrictTotalOrder()
    ensures forall a: string :: !OrdinalLess(a, a)
    ensures forall a: string, b: string :: OrdinalLess(a, b) ==> !OrdinalLess(b, a)
    ensures forall a: string, b: string :: a == b || OrdinalLess(a, b) || OrdinalLess(b, a)
    ensures forall a: string, b: string, c: string :: OrdinalLess(a, b) && OrdinalLess(b, c) ==> OrdinalLess(a, c)
  {
    forall a: string
      ensures !OrdinalLess(a, a)
    {
      OrdinalLessIrreflexive(a);
    }
    forall a: string, b: string
      ensures OrdinalLess(a, b) ==> !OrdinalLess(b, a)
      ensures a == b || OrdinalLess(a, b) || OrdinalLess(b, a)
    {
      OrdinalLessAsymmetric(a, b);
      OrdinalLessTotal(a, b);
    }
    forall a: string, b: string, c: string
      ensures OrdinalLess(a, b) && OrdinalLess(b, c) ==> OrdinalLess(a, c)
    {
      OrdinalLessTransitive(a, b, c);
    }
  }

  /** Invariant-culture lower-casing restricted to ASCII letters. */
  function ToLowerChar(c: char): (r: char)
    ensures 'A' <= c <= 'Z' ==> r as int == c as int + 32
    ensures !('A' <= c <= 'Z') ==> r == c
  {
    if 'A' <= c <= 'Z' then (c as int + 32) as char else c
  }

  function ToLower(s: string): (r: string)
    ensures |r| == |s|
    ensures forall i :: 0 <= i < |s| ==> r[i] == ToLowerChar(s[i])
  {
    seq(|s|, i requires 0 <= i < |s| => ToLowerChar(s[i]))
  }

  /** Joins the parts with `sep` between neighbours, as a JavaScript array
      does when it is interpolated into a template string. */
  function Join(parts: seq<string>, sep: char): string
  {
    if |parts| == 0 then ""
    else if |parts| == 1 then parts[0]
    else parts[0] + [sep] + Join(parts[1..], sep)
  }

  /** `string.Split(sep)`: the pieces between separators, keeping empty
      pieces; the result always has at least one piece. */
  function Split(s: string, sep: char): (r: seq<string>)
    ensures |r| >= 1
    ensures forall i :: 0 <= i < |r| ==> sep !in r[i]
    decreases |s|
  {
    if sep !in s then [s]
    else
      var i := IndexOf(s, sep);
      [s[..i]] + Split(s[i + 1..], sep)
  }

  function IndexOf(s: string, c: char): (i: nat)
    requires c in s
    ensures i < |s| && s[i] == c && c !in s[..i]
  {
    if s[0] == c then 0 else 1 + IndexOf(s[1..], c)
  }

  /** Splitting and re-joining gives back the original text. */
  lemma {:induction false} JoinSplit(s: string, sep: char)
    ensures Join(Split(s, sep), sep) == s
    decreases |s|
  {
    if sep in s {
      var i := IndexOf(s, sep);
      var rest := s[i + 1..];
      JoinSplit(rest, sep);
      var parts := Split(s, sep);
      assert parts == [s[..i]] + Split(rest, sep);
      assert parts[1..] == Split(rest, sep);
      assert s == s[..i] + [sep] + rest;
    }
  }

  /** The first separator of `a + [sep] + b` is the one after `a` when `a`
      holds none. */
  lemma {:induction false} IndexOfAfterPrefix(a: string, sep: char, b: string)
    requires sep !in a
    ensures sep in a + [sep] + b
    ensures IndexOf(a + [sep] + b, sep) == |a|
    decreases |a|
  {
    var s := a + [sep] + b;
    assert s[|a|] == sep;
    if |a| > 0 {
      assert s[1..] == a[1..] + [sep] + b;
      IndexOfAfterPrefix(a[1..], sep, b);
    }
  }

  /** Joining separator-free pieces and splitting again gives back the pieces. */
  lemma {:induction false} SplitJoin(parts: seq<string>, sep: char)
    requires |parts| >= 1
    requires forall i :: 0 <= i < |parts| ==> sep !in parts[i]
    ensures Split(Join(parts, sep), sep) == parts
    decreases |parts|
  {
    if |parts| > 1 {
      var head := parts[0];
      var tail := Join(parts[1..], sep);
      var s := head + [sep] + tail;
      assert s == Join(parts, sep);
      IndexOfAfterPrefix(head, sep, tail);
      assert s[..|head|] == head;
      assert s[|head| + 1..] == tail;
      assert Split(s, sep) == [head] + Split(tail, sep);
      assert forall i :: 0 <= i < |parts[1..]| ==> sep !in parts[1..][i];
      SplitJoin(parts[1..], sep);
      assert parts == [head] + parts[1..];
    } else {
      assert Join(parts, sep) == parts[0];
    }
  }
}

=== FILE: user_management.dfy ===
/** The admin page's role editor: the checkbox list built from a user's
    roles, the selection sent back to the server, and the user's roles as
    shown afterwards. */
module UserManagement {
  import opened Strings
  import UserRepository
  import AdminController
  import opened Entities
  import opened Common

  /** One checkbox of the roles dialog. */
  datatype RoleEntry = RoleEntry(name: string, value: string, checked: bool)

  /** The roles offered, in display order. */
  const AvailableRoles: seq<string> := ["Admin", "Moderator", "Member"]

  /** `getRolesArray`: one entry per offered role, in order, checked
      exactly when the user holds that role. */
  method GetRolesArray(userRoles: seq<string>) returns (roles: seq<RoleEntry>)
    ensures |roles| == |AvailableRoles|
    ensures forall i :: 0 <= i < |roles| ==> roles[i].name == AvailableRoles[i] && roles[i].value == AvailableRoles[i]
    ensures forall i :: 0 <= i < |roles| ==> (roles[i].checked <==> AvailableRoles[i] in userRoles)
  {
    roles := [];
    var r := 0;
    while r < |AvailableRoles|
      invariant 0 <= r <= |AvailableRoles|
      invariant |roles| == r
      invariant forall i :: 0 <= i < r ==> roles[i].name == AvailableRoles[i] && roles[i].value == AvailableRoles[i]
      invariant forall i :: 0 <= i < r ==> (roles[i].checked <==> AvailableRoles[i] in userRoles)
    {
      var role := AvailableRoles[r];
      var isMatch := false;
      var k := 0;
      while k < |userRoles| && !isMatch
        invariant 0 <= k <= |userRoles|
        decreases |userRoles| - k, !isMatch
        invariant !isMatch ==> role !in userRoles[..k] && |roles| == r
        invariant isMatch ==> role in userRoles && |roles| == r + 1 && roles[r] == RoleEntry(role, role, true)
        invariant forall i :: 0 <= i < r ==> roles[i].name == AvailableRoles[i] && roles[i].value == AvailableRoles[i]
        invariant forall i :: 0 <= i < r ==> (roles[i].checked <==> AvailableRoles[i] in userRoles)
      {
        if role == userRoles[k] {
          isMatch := true;
          roles := roles + [RoleEntry(role, role, true)];
        } else {
          assert userRoles[..k + 1] == userRoles[..k] + [userRoles[k]];
          k := k + 1;
        }
      }
      if !isMatch {
        assert userRoles[..|userRoles|] == userRoles;
        roles := roles + [RoleEntry(role, role, false)];
      }
      r := r + 1;
    }
  }

  /** The names of the checked entries, in entry order: the roles the
      dialog sends back. */
  function SelectedRoles(entries: seq<RoleEntry>): (r: seq<string>)
    ensures |r| <= |entries|
    ensures forall x :: x in r ==> exists e :: e in entries && e.checked && e.name == x
    ensures forall e :: e in entries && e.checked ==> e.name in r
    ensures |entries| == 1 ==> r == if entries[0].checked then [entries[0].name] else []
  {
    if |entries| == 0 then []
    else
      assert entries == [entries[0]] + entries[1..];
      (if entries[0].checked then [entries[0].name] else []) + SelectedRoles(entries[1..])
  }

  /** The checked names come in entry order: selecting from two runs of
      entries laid end to end gives the first run's names, then the
      second's. With the one-entry case (its name when checked, nothing
      otherwise) this fixes the selection as the checked names in order. */
  lemma {:induction false} SelectedRolesInEntryOrder(a: seq<RoleEntry>, b: seq<RoleEntry>)
    ensures SelectedRoles(a + b) == SelectedRoles(a) + SelectedRoles(b)
    decreases |a|
  {
    if |a| > 0 {
      SelectedRolesInEntryOrder(a[1..], b);
      assert (a + b)[1..] == a[1..] + b;
      assert (a + b)[0] == a[0];
    } else {
      assert a + b == b;
    }
  }

  /** The query string value the admin service sends: the array's
      string form, names joined by commas. */
  function RolesQuery(roles: seq<string>): string
  {
    Join(roles, ',')
  }

  /** Reopening the dialog without touching a box sends back the offered
      roles the user holds. */
  lemma UntouchedDialogSendsHeldRoles(entries: seq<RoleEntry>, userRoles: seq<string>)
    requires |entries| == |AvailableRoles|
    requires forall i :: 0 <= i < |entries| ==> entries[i].name == AvailableRoles[i]
    requires forall i :: 0 <= i < |entries| ==> (entries[i].checked <==> AvailableRoles[i] in userRoles)
    ensures forall x :: x in SelectedRoles(entries) <==> x in AvailableRoles && x in userRoles
  {
    var r := SelectedRoles(entries);
    forall x | x in r
      ensures x in AvailableRoles && x in userRoles
    {
      var e :| e in entries && e.checked && e.name == x;
      var i :| 0 <= i < |entries| && entries[i] == e;
      assert AvailableRoles[i] == x;
    }
    forall x | x in AvailableRoles && x in userRoles
      ensures x in r
    {
      var i :| 0 <= i < |AvailableRoles| && AvailableRoles[i] == x;
      assert entries[i] in entries && entries[i].checked;
    }
  }

  /** The user's roles as the page shows them after the edit request
      completes: the sent names when the server answered with success,
      the roles shown before otherwise. */
  function RolesShown(userRoles: seq<string>, entries: seq<RoleEntry>, ok: bool): (r: seq<string>)
    ensures ok ==> forall x :: x in r <==> exists e :: e in entries && e.checked && e.name == x
    ensures !ok ==> r == userRoles
  {
    if ok then SelectedRoles(entries) else userRoles
  }

  /** A non-empty selection of offered roles reaches the server intact:
      after a successful edit the user holds exactly the checked roles,
      and the page shows exactly those roles. */
  lemma SelectionReachesServer(users: seq<AppUser>, store: AdminController.RoleStore, username: string,
                               entries: seq<RoleEntry>, userRoles: seq<string>)
    requires UserRepository.FindUser(users, username).Some?
    requires |SelectedRoles(entries)| >= 1
    requires forall i :: 0 <= i < |entries| ==> entries[i].name in AvailableRoles
    ensures
      var after := AdminController.EditRolesRequest(users, store, username, RolesQuery(SelectedRoles(entries)), true, true);
      && after.result.Ok?
      && AdminController.Held(after.roles, username) == set x | x in SelectedRoles(entries)
      && AdminController.Held(after.roles, username) == set x | x in RolesShown(userRoles, entries, after.result.Ok?)
  {
    var selected := SelectedRoles(entries);
    forall i | 0 <= i < |selected|
      ensures ',' !in selected[i] && selected[i] in AdminController.SeededRoles
      ensures |selected[i]| > 0 && !AdminController.IsWhiteSpace(selected[i][0])
    {
      assert selected[i] in selected;
      var e :| e in entries && e.checked && e.name == selected[i];
      OfferedRoleIsSeeded(e.name);
    }
    JoinStartsWithFirstPart(selected, ',');
    assert AdminController.BindRoles(RolesQuery(selected)).Some?;
    SplitJoin(selected, ',');
  }

  /** A join of parts whose first part is non-empty starts with that
      part's first character. */
  lemma JoinStartsWithFirstPart(parts: seq<string>, sep: char)
    requires |parts| >= 1 && |parts[0]| >= 1
    ensures |Join(parts, sep)| >= 1 && Join(parts, sep)[0] == parts[0][0]
  {
  }

  /** The offered roles are the seeded ones; none contains a comma or
      starts with white space. */
  lemma OfferedRoleIsSeeded(name: string)
    requires name in AvailableRoles
    ensures name in AdminController.SeededRoles && ',' !in name
    ensures |name| > 0 && !AdminController.IsWhiteSpace(name[0])
  {
    assert AvailableRoles[0] == "Admin" && AvailableRoles[1] == "Moderator" && AvailableRoles[2] == "Member";
  }

  /** An empty selection is sent as the empty query value, which binds as
      null. */
  lemma EmptySelectionSendsEmptyValue(entries: seq<RoleEntry>)
    requires forall i :: 0 <= i < |entries| ==> !entries[i].checked
    ensures RolesQuery(SelectedRoles(entries)) == ""
    ensures AdminController.BindRoles(RolesQuery(SelectedRoles(entries))).None?
  {
    NoneCheckedSelectsNothing(entries);
  }

  /** With no box checked nothing is selected. */
  lemma {:induction false} NoneCheckedSelectsNothing(entries: seq<RoleEntry>)
    requires forall i :: 0 <= i < |entries| ==> !entries[i].checked
    ensures SelectedRoles(entries) == []
  {
    if |entries| > 0 {
      NoneCheckedSelectsNothing(entries[1..]);
    }
  }

  /** Clearing every box and saving does not remove the user's roles: the
      request is refused before the action runs, nothing changes, and the
      page keeps showing the roles it showed. */
  lemma EmptySelectionIsRefused(users: seq<AppUser>, store: AdminController.RoleStore, username: string,
                                entries: seq<RoleEntry>, userRoles: seq<string>, addOk: bool, removeOk: bool)
    requires forall i :: 0 <= i < |entries| ==> !entries[i].checked
    ensures
      var after := AdminController.EditRolesRequest(users, store, username, RolesQuery(SelectedRoles(entries)), addOk, removeOk);
      && after == AdminController.RolesStep(store, BadRequest(AdminController.RolesRequired), {})
      && RolesShown(userRoles, entries, after.result.Ok?) == userRoles
  {
    EmptySelectionSendsEmptyValue(entries);
  }

  /** A failed edit leaves the page showing the roles it showed, although
      a failed removal has already granted the newly selected roles on the
      server. */
  lemma FailedEditKeepsShownRoles(users: seq<AppUser>, store: AdminController.RoleStore, username: string,
                                  entries: seq<RoleEntry>, userRoles: seq<string>, addOk: bool, removeOk: bool)
    requires UserRepository.FindUser(users, username).Some?
    requires forall i :: 0 <= i < |entries| ==> entries[i].name in AvailableRoles
    requires |SelectedRoles(entries)| >= 1
    requires addOk && !removeOk
    ensures
      var after := AdminController.EditRolesRequest(users, store, username, RolesQuery(SelectedRoles(entries)), addOk, removeOk);
      && !after.result.Ok?
      && RolesShown(userRoles, entries, after.result.Ok?) == userRoles
      && AdminController.Held(after.roles, username) == AdminController.Held(store, username) + set x | x in SelectedRoles(entries)
  {
    var selected := SelectedRoles(entries);
    forall i | 0 <= i < |selected|
      ensures ',' !in selected[i] && selected[i] in AdminController.SeededRoles
      ensures |selected[i]| > 0 && !AdminController.IsWhiteSpace(selected[i][0])
    {
      assert selected[i] in selected;
      var e :| e in entries && e.checked && e.name == selected[i];
      OfferedRoleIsSeeded(e.name);
    }
    JoinStartsWithFirstPart(selected, ',');
    assert AdminController.BindRoles(RolesQuery(selected)).Some?;
    SplitJoin(selected, ',');
  }
}

=== FILE: user_repository.dfy ===
/** The user store: lookup by username, the caller's gender, the single
    member query and the filtered, ordered, paged member search. Members
    are returned as the stored records; the projection to the member
    transfer object is not modelled. */
module UserRepository {
  import opened Common
  import opened Entities
  import opened Sorting
  import opened Paging

  /** Index of the first user called `username`, or `None`. */
  function FindUser(users: seq<AppUser>, username: string): (r: Option<nat>)
    ensures r.Some? ==> r.value < |users| && users[r.value].userName == username
    ensures r.Some? ==> forall j :: 0 <= j < r.value ==> users[j].userName != username
    ensures r.None? <==> forall j :: 0 <= j < |users| ==> users[j].userName != username
  {
    if |users| == 0 then None
    else if users[0].userName == username then Some(0)
    else match FindUser(users[1..], username)
      case None => None
      case Some(k) => Some(k + 1)
  }

  /** With unique usernames the lookup finds the one user of that name. */
  lemma FindUserIsTheUser(users: seq<AppUser>, username: string, j: nat)
    requires UniqueUserNames(users)
    requires j < |users| && users[j].userName == username
    ensures FindUser(users, username) == Some(j)
  {
  }

  /** `GetUserByUsernameAsync`: the user with that name, or `None`. */
  function GetUserByUsername(users: seq<AppUser>, username: string): (r: Option<AppUser>)
    ensures r.Some? ==> r.value in users && r.value.userName == username
    ensures r.None? <==> forall u :: u in users ==> u.userName != username
  {
    match FindUser(users, username)
    case None => None
    case Some(i) => Some(users[i])
  }

  /** `GetUserGender`: the gender of the user with that name, or `None`. */
  function GetUserGender(users: seq<AppUser>, username: string): (r: Option<string>)
    ensures r.Some? <==> exists u :: u in users && u.userName == username
    ensures r.Some? ==> exists u :: u in users && u.userName == username && u.gender == r.value
  {
    match GetUserByUsername(users, username)
    case None => None
    case Some(u) => Some(u.gender)
  }

  /** `GetMemberAsync`. No query filter is declared on the user set, so
      ignoring query filters for the current user changes nothing. */
  function GetMember(users: seq<AppUser>, username: string, isCurrentUser: bool): (r: Option<AppUser>)
    ensures r.Some? ==> r.value in users && r.value.userName == username
    ensures r.None? <==> forall u :: u in users ==> u.userName != username
  {
    GetUserByUsername(users, username)
  }

  lemma CurrentUserFlagHasNoEffect(users: seq<AppUser>, username: string)
    ensures GetMember(users, username, true) == GetMember(users, username, false)
  {
  }

  /** The member-search parameters once the controller has bound them:
      the caller's name and a gender are always present. */
  datatype UserParams = UserParams(
    currentUsername: string,
    gender: string,
    minAge: int,
    maxAge: int,
    orderBy: Option<string>,
    pageNumber: int,
    pageSize: int)

  const DefaultMinAge: int := 18
  const DefaultMaxAge: int := 150
  const DefaultOrderBy: string := "lastActive"

  /** Both ends of the age window are dates a `DateTime` can hold. When
      either is not, `AddYears` throws and the search fails. With `today`
      inside the `DateTime` range and the ages `int`s, the unchecked
      negations cannot change this verdict: an age that wraps puts the
      target year far outside the range either way. */
  predicate AgeWindowInRange(p: UserParams, today: Date)
  {
    AddYears(today, -p.maxAge - 1).Some? && AddYears(today, -p.minAge).Some?
  }

  /** Earliest and latest date of birth admitted on `today`. */
  function MinDob(p: UserParams, today: Date): Date { ShiftYears(today, -p.maxAge - 1) }
  function MaxDob(p: UserParams, today: Date): Date { ShiftYears(today, -p.minAge) }

  predicate IsMatch(u: AppUser, p: UserParams, today: Date)
  {
    && u.userName != p.currentUsername
    && u.gender == p.gender
    && DateLe(MinDob(p, today), u.dateOfBirth)
    && DateLe(u.dateOfBirth, MaxDob(p, today))
  }

  /** The matching users of `s`, in the order of `s`. */
  function Matches(s: seq<AppUser>, p: UserParams, today: Date): (r: seq<AppUser>)
    ensures forall i :: 0 <= i < |r| ==> IsMatch(r[i], p, today)
  {
    if |s| == 0 then []
    else (if IsMatch(s[0], p, today) then [s[0]] else []) + Matches(s[1..], p, today)
  }

  lemma {:induction false} MatchesCount(s: seq<AppUser>, p: UserParams, today: Date)
    ensures forall u :: (multiset(Matches(s, p, today))[u]
      == if IsMatch(u, p, today) then multiset(s)[u] else 0)
  {
    if |s| > 0 {
      MatchesCount(s[1..], p, today);
      assert s == [s[0]] + s[1..];
    }
  }

  /** Sort keys: newest account first, most recently active first. */
  function NewestCreated(u: AppUser): int { -u.created }
  function RecentlyActive(u: AppUser): int { -u.lastActive }

  /** The ordering a query asks for: "created", or last activity for any
      other value, a missing one included. */
  function OrderKey(orderBy: Option<string>): (key: AppUser -> int)
    ensures orderBy == Some("created") ==> key == NewestCreated
    ensures orderBy != Some("created") ==> key == RecentlyActive
  {
    match orderBy
    case Some(o) => if o == "created" then NewestCreated else RecentlyActive
    case None => RecentlyActive
  }

  /** Filtering a sorted sequence leaves it sorted. */
  lemma {:induction false} MatchesKeepOrder(s: seq<AppUser>, p: UserParams, today: Date, key: AppUser -> int)
    requires SortedByKey(s, key)
    ensures SortedByKey(Matches(s, p, today), key)
  {
    if |s| > 0 {
      TailSorted(s, key);
      MatchesKeepOrder(s[1..], p, today, key);
      MatchesCount(s[1..], p, today);
      var rest := Matches(s[1..], p, today);
      forall k | 0 <= k < |rest|
        ensures key(s[0]) <= key(rest[k])
      {
        assert rest[k] in multiset(rest);
        assert rest[k] in s[1..];
      }
      if IsMatch(s[0], p, today) {
        ConsKeepsSorted(s[0], rest, key);
      } else {
        assert Matches(s, p, today) == rest;
      }
    }
  }

  /** The whole ordered result: a sorted permutation of the matches. */
  lemma OrderedMatches(users: seq<AppUser>, p: UserParams, today: Date)
    ensures SortedByKey(Matches(Sort(users, OrderKey(p.orderBy)), p, today), OrderKey(p.orderBy))
    ensures multiset(Matches(Sort(users, OrderKey(p.orderBy)), p, today)) == multiset(Matches(users, p, today))
    ensures |Matches(Sort(users, OrderKey(p.orderBy)), p, today)| == |Matches(users, p, today)|
    ensures forall k :: 0 <= k < |Matches(Sort(users, OrderKey(p.orderBy)), p, today)| ==>
      Matches(Sort(users, OrderKey(p.orderBy)), p, today)[k] in users
  {
    var sorted := Sort(users, OrderKey(p.orderBy));
    var all := Matches(sorted, p, today);
    MatchesKeepOrder(sorted, p, today, OrderKey(p.orderBy));
    MatchesCount(sorted, p, today);
    MatchesCount(users, p, today);
    assert multiset(all) == multiset(Matches(users, p, today));
    assert |multiset(all)| == |all|;
    forall k | 0 <= k < |all|
      ensures all[k] in users
    {
      assert all[k] in multiset(all);
    }
  }

  lemma PageItemsMatch(all: seq<AppUser>, users: seq<AppUser>, p: UserParams, today: Date)
    requires all == Matches(Sort(users, OrderKey(p.orderBy)), p, today)
    ensures |all| == |Matches(users, p, today)|
    ensures multiset(all) == multiset(Matches(users, p, today))
    ensures forall i :: 0 <= i < |CreatePage(all, p.pageNumber, p.pageSize).items| ==>
      var u := CreatePage(all, p.pageNumber, p.pageSize).items[i];
      u in users && IsMatch(u, p, today)
  {
    OrderedMatches(users, p, today);
  }

  lemma PageItemsOrdered(all: seq<AppUser>, users: seq<AppUser>, p: UserParams, today: Date)
    requires all == Matches(Sort(users, OrderKey(p.orderBy)), p, today)
    ensures p.orderBy == Some("created") ==> forall i, j :: 0 <= i < j < |CreatePage(all, p.pageNumber, p.pageSize).items| ==>
      CreatePage(all, p.pageNumber, p.pageSize).items[i].created >= CreatePage(all, p.pageNumber, p.pageSize).items[j].created
    ensures p.orderBy != Some("created") ==> forall i, j :: 0 <= i < j < |CreatePage(all, p.pageNumber, p.pageSize).items| ==>
      CreatePage(all, p.pageNumber, p.pageSize).items[i].lastActive >= CreatePage(all, p.pageNumber, p.pageSize).items[j].lastActive
  {
    var key := OrderKey(p.orderBy);
    MatchesKeepOrder(Sort(users, key), p, today, key);
    PageKeepsOrder(all, p.pageNumber, p.pageSize, key);
  }

  /** `GetMembersAsync`: everyone but the caller, of the requested gender,
      born inside the age window, ordered by the requested key (latest
      first), paged. `None` is the exception `AddYears` throws for an age
      window outside the calendar. The page is cut from the ordered
      matches, which `OrderedMatches` shows is a sorted permutation of
      the matches. */
  function GetMembers(users: seq<AppUser>, p: UserParams, today: Date): (r: Option<PagedList<AppUser>>)
    ensures r.None? <==> !AgeWindowInRange(p, today)
    ensures r.Some? ==> forall i :: 0 <= i < |r.value.items| ==> r.value.items[i] in users
    ensures r.Some? ==> forall i :: 0 <= i < |r.value.items| ==> r.value.items[i].userName != p.currentUsername
    ensures r.Some? ==> forall i :: 0 <= i < |r.value.items| ==> r.value.items[i].gender == p.gender
    ensures r.Some? ==> forall i :: 0 <= i < |r.value.items| ==>
      DateLe(MinDob(p, today), r.value.items[i].dateOfBirth) && DateLe(r.value.items[i].dateOfBirth, MaxDob(p, today))
    ensures r.Some? && p.orderBy == Some("created") ==>
      forall i, j :: 0 <= i < j < |r.value.items| ==> r.value.items[i].created >= r.value.items[j].created
    ensures r.Some? && p.orderBy != Some("created") ==>
      forall i, j :: 0 <= i < j < |r.value.items| ==> r.value.items[i].lastActive >= r.value.items[j].lastActive
    ensures r.Some? ==> r.value.totalCount == |Matches(users, p, today)|
    ensures r.Some? ==> r.value.currentPage == p.pageNumber && r.value.pageSize == p.pageSize
    ensures r.Some? ==> IsPageOf(r.value.items, Matches(Sort(users, OrderKey(p.orderBy)), p, today), p.pageNumber, p.pageSize)
    ensures r.Some? && p.pageNumber == 1 && p.pageSize >= r.value.totalCount ==>
      multiset(r.value.items) == multiset(Matches(users, p, today))
  {
    if !AgeWindowInRange(p, today) then None
    else
      var all := Matches(Sort(users, OrderKey(p.orderBy)), p, today);
      PageItemsMatch(all, users, p, today);
      PageItemsOrdered(all, users, p, today);
      var page := CreatePage(all, p.pageNumber, p.pageSize);
      if p.pageNumber == 1 && p.pageSize >= |all| then
        FirstPageHoldsAll(all, p.pageSize);
        Some(page)
      else Some(page)
  }

  /** An age bound at least as old as the current year puts the earliest
      birth date before year 1, so the search fails. */
  lemma AgeBeyondCalendarFails(users: seq<AppUser>, p: UserParams, today: Date)
    requires p.maxAge >= today.year
    ensures GetMembers(users, p, today).None?
  {
  }

  /** The default window, 18 to 150 years, always lies inside the calendar
      from year 152 on. */
  lemma DefaultAgesNeverFail(users: seq<AppUser>, p: UserParams, today: Date)
    requires p.minAge == DefaultMinAge && p.maxAge == DefaultMaxAge
    requires DefaultMaxAge + 2 <= today.year <= MaxYear
    ensures GetMembers(users, p, today).Some?
  {
  }
}

=== FILE: users_controller.dfy ===
/** The users HTTP endpoints: the member search with its caller binding
    and default gender, the single member lookup, and the caller's photo
    rules (choose the main photo, delete a photo). The photo host is
    represented by the error it reports, passed in. */
module UsersController {
  import opened Common
  import opened Entities
  import opened Paging
  import UserRepository

  /** The member-search query as bound from the query string. */
  datatype UserQuery = UserQuery(
    paging: PaginationParams,
    gender: Option<string>,
    minAge: int,
    maxAge: int,
    orderBy: Option<string>)

  /** A query with nothing in the query string. */
  function DefaultQuery(): (q: UserQuery)
    ensures q.paging.pageNumber == 1 && q.paging.pageSize == 10
    ensures q.minAge == UserRepository.DefaultMinAge && q.maxAge == UserRepository.DefaultMaxAge
    ensures q.orderBy == Some(UserRepository.DefaultOrderBy) && q.gender.None?
  {
    UserQuery(DefaultParams(), None, UserRepository.DefaultMinAge, UserRepository.DefaultMaxAge,
              Some(UserRepository.DefaultOrderBy))
  }

  /** The gender searched when none is given: the opposite of the caller's
      when the caller is "male", otherwise "male" (also when the caller's
      gender is unknown). */
  function DefaultGender(callerGender: Option<string>): (g: string)
    ensures callerGender == Some("male") ==> g == "female"
    ensures callerGender != Some("male") ==> g == "male"
  {
    if callerGender == Some("male") then "female" else "male"
  }

  /** `GetUsers` parameter binding: the caller's name always overrides the
      query; an absent or empty gender takes the default. */
  function BindUserParams(users: seq<AppUser>, caller: string, q: UserQuery): (p: UserRepository.UserParams)
    ensures p.currentUsername == caller
    ensures q.gender.Some? && q.gender.value != "" ==> p.gender == q.gender.value
    ensures (q.gender.None? || q.gender == Some("")) ==>
      p.gender == DefaultGender(UserRepository.GetUserGender(users, caller))
    ensures p.minAge == q.minAge && p.maxAge == q.maxAge && p.orderBy == q.orderBy
    ensures p.pageNumber == q.paging.pageNumber && p.pageSize == q.paging.pageSize
  {
    var gender := if q.gender.None? || q.gender.value == "" then DefaultGender(UserRepository.GetUserGender(users, caller))
                  else q.gender.value;
    UserRepository.UserParams(caller, gender, q.minAge, q.maxAge, q.orderBy, q.paging.pageNumber, q.paging.pageSize)
  }

  /** `GetUsers`: the search runs for the caller with the bound gender,
      so the caller never sees themself. An age window outside the
      calendar makes the repository throw, which the action does not
      catch: `None` is that status 500. */
  function GetUsers(users: seq<AppUser>, caller: string, q: UserQuery, today: Date): (r: Option<PagedList<AppUser>>)
    ensures r.None? <==> !UserRepository.AgeWindowInRange(BindUserParams(users, caller, q), today)
    ensures r.Some? ==>
      forall i :: 0 <= i < |r.value.items| ==> r.value.items[i].userName != caller && r.value.items[i] in users
    ensures r.Some? ==>
      forall i :: 0 <= i < |r.value.items| ==> r.value.items[i].gender == BindUserParams(users, caller, q).gender
  {
    UserRepository.GetMembers(users, BindUserParams(users, caller, q), today)
  }

  /** A male caller who names no gender sees only women; anyone else who
      names none sees only men. */
  lemma DefaultSearchIsOppositeGender(users: seq<AppUser>, caller: string, q: UserQuery, today: Date)
    requires q.gender.None? || q.gender == Some("")
    ensures var r := GetUsers(users, caller, q, today);
      r.Some? && UserRepository.GetUserGender(users, caller) == Some("male") ==>
        forall i :: 0 <= i < |r.value.items| ==> r.value.items[i].gender == "female"
    ensures var r := GetUsers(users, caller, q, today);
      r.Some? && UserRepository.GetUserGender(users, caller) != Some("male") ==>
        forall i :: 0 <= i < |r.value.items| ==> r.value.items[i].gender == "male"
  {
  }

  /** `GetUser`: the member of that name, whoever asks. */
  function GetUser(users: seq<AppUser>, caller: string, username: string): (r: Option<AppUser>)
    ensures r.Some? ==> r.value in users && r.value.userName == username
    ensures r.None? <==> forall u :: u in users ==> u.userName != username
  {
    UserRepository.GetMember(users, username, caller == username)
  }

  /** Looking at one's own profile gives the same answer as anyone else
      looking at it. */
  lemma OwnProfileIsTheSame(users: seq<AppUser>, caller: string, other: string)
    ensures GetUser(users, caller, caller) == GetUser(users, other, caller)
  {
    UserRepository.CurrentUserFlagHasNoEffect(users, caller);
  }

  /** Index of the first photo with that id, or `None`. */
  function PhotoIndex(photos: seq<Photo>, photoId: int): (r: Option<nat>)
    ensures r.Some? ==> r.value < |photos| && photos[r.value].id == photoId
    ensures r.Some? ==> forall j :: 0 <= j < r.value ==> photos[j].id != photoId
    ensures r.None? <==> forall j :: 0 <= j < |photos| ==> photos[j].id != photoId
  {
    if |photos| == 0 then None
    else if photos[0].id == photoId then Some(0)
    else match PhotoIndex(photos[1..], photoId)
      case None => None
      case Some(k) => Some(k + 1)
  }

  /** Index of the first main photo, or `None`. */
  function MainIndex(photos: seq<Photo>): (r: Option<nat>)
    ensures r.Some? ==> r.value < |photos| && photos[r.value].isMain
    ensures r.Some? ==> forall j :: 0 <= j < r.value ==> !photos[j].isMain
    ensures r.None? <==> forall j :: 0 <= j < |photos| ==> !photos[j].isMain
  {
    if |photos| == 0 then None
    else if photos[0].isMain then Some(0)
    else match MainIndex(photos[1..])
      case None => None
      case Some(k) => Some(k + 1)
  }

  lemma {:induction false} CountMainUpdate(photos: seq<Photo>, i: nat, p: Photo)
    requires i < |photos|
    ensures CountMain(photos[i := p]) == CountMain(photos) - (if photos[i].isMain then 1 else 0) + (if p.isMain then 1 else 0)
  {
    if i > 0 {
      CountMainUpdate(photos[1..], i - 1, p);
      assert photos[i := p][1..] == photos[1..][i - 1 := p];
    } else {
      assert photos[i := p][1..] == photos[1..];
    }
  }

  lemma {:induction false} NoMainCountsZero(photos: seq<Photo>)
    requires forall j :: 0 <= j < |photos| ==> !photos[j].isMain
    ensures CountMain(photos) == 0
  {
    if |photos| > 0 {
      NoMainCountsZero(photos[1..]);
    }
  }

  datatype UsersStep = UsersStep(users: seq<AppUser>, result: ActionResult)

  /** The caller's index in the store; the source dereferences the
      caller's record, so the authenticated caller exists. */
  function CallerIndex(users: seq<AppUser>, caller: string): nat
    requires UserRepository.FindUser(users, caller).Some?
  {
    UserRepository.FindUser(users, caller).value
  }

  /** The photo that `SetMainPhoto` dereferences is one of the caller's. */
  predicate HasPhoto(users: seq<AppUser>, caller: string, photoId: int)
  {
    && UserRepository.FindUser(users, caller).Some?
    && PhotoIndex(users[UserRepository.FindUser(users, caller).value].photos, photoId).Some?
  }

  /** The photos after choosing photo `t`: the first main photo, if any,
      is cleared and `t` is marked main. */
  function SwapMain(photos: seq<Photo>, t: nat): (r: seq<Photo>)
    requires t < |photos| && !photos[t].isMain
    ensures |r| == |photos|
    ensures r[t] == photos[t].(isMain := true)
    ensures forall j :: 0 <= j < |photos| && j != t && Some(j) != MainIndex(photos) ==> r[j] == photos[j]
    ensures MainIndex(photos).Some? ==> r[MainIndex(photos).value] == photos[MainIndex(photos).value].(isMain := false)
    ensures CountMain(photos) <= 1 ==> CountMain(r) == 1
    ensures forall j :: 0 <= j < |photos| && j != t ==> r[j] == photos[j].(isMain := r[j].isMain)
    ensures forall j :: 0 <= j < |photos| && j != t && r[j].isMain ==> photos[j].isMain
  {
    var cleared := match MainIndex(photos)
      case None => photos
      case Some(m) => photos[m := photos[m].(isMain := false)];
    var r := cleared[t := photos[t].(isMain := true)];
    SwapMainCount(photos, t, cleared, r);
    r
  }

  lemma SwapMainCount(photos: seq<Photo>, t: nat, cleared: seq<Photo>, r: seq<Photo>)
    requires t < |photos| && !photos[t].isMain
    requires cleared == match MainIndex(photos)
      case None => photos
      case Some(m) => photos[m := photos[m].(isMain := false)]
    requires r == cleared[t := photos[t].(isMain := true)]
    ensures CountMain(photos) <= 1 ==> CountMain(r) == 1
  {
    match MainIndex(photos)
    case None =>
      NoMainCountsZero(photos);
      CountMainUpdate(photos, t, photos[t].(isMain := true));
    case Some(m) =>
      CountMainUpdate(photos, m, photos[m].(isMain := false));
      assert !cleared[t].isMain;
      CountMainUpdate(cleared, t, photos[t].(isMain := true));
  }

  /** `SetMainPhoto`. Marking the chosen photo always changes something,
      so the outcome follows the save. */
  function SetMainPhoto(users: seq<AppUser>, caller: string, photoId: int, saveOk: bool): (r: UsersStep)
    requires HasPhoto(users, caller, photoId)
    ensures
      var u := CallerIndex(users, caller);
      var photos := users[u].photos;
      var t := PhotoIndex(photos, photoId).value;
      && (photos[t].isMain ==> r == UsersStep(users, BadRequest("This is already your main photo")))
      && (!photos[t].isMain && !saveOk ==> r == UsersStep(users, BadRequest("Failed to set main photo")))
      && (!photos[t].isMain && saveOk ==>
            && r.result == NoContent
            && |r.users| == |users|
            && |r.users[u].photos| == |photos|
            && (forall j :: 0 <= j < |users| && j != u ==> r.users[j] == users[j])
            && r.users[u] == users[u].(photos := r.users[u].photos)
            && r.users[u].photos[t].isMain
            && (CountMain(photos) <= 1 ==> CountMain(r.users[u].photos) == 1)
            && (forall j :: 0 <= j < |photos| && j != t ==> r.users[u].photos[j] == photos[j].(isMain := r.users[u].photos[j].isMain))
            && (forall j :: 0 <= j < |photos| && j != t && r.users[u].photos[j].isMain ==> photos[j].isMain))
  {
    var u := CallerIndex(users, caller);
    var photos := users[u].photos;
    var t := PhotoIndex(photos, photoId).value;
    if photos[t].isMain then UsersStep(users, BadRequest("This is already your main photo"))
    else if !saveOk then UsersStep(users, BadRequest("Failed to set main photo"))
    else
      var swapped := SwapMain(photos, t);
      var after := users[u := users[u].(photos := swapped)];
      assert after[u].photos == swapped;
      UsersStep(after, NoContent)
  }

  /** Main-photo uniqueness is an invariant of `SetMainPhoto`. */
  lemma SetMainKeepsOneMain(users: seq<AppUser>, caller: string, photoId: int, saveOk: bool)
    requires HasPhoto(users, caller, photoId)
    requires CountMain(users[CallerIndex(users, caller)].photos) <= 1
    ensures
      var r := SetMainPhoto(users, caller, photoId, saveOk);
      CountMain(r.users[CallerIndex(users, caller)].photos) <= 1
  {
  }

  datatype DeleteStep = DeleteStep(users: seq<AppUser>, result: ActionResult, hostDeletion: Option<string>)

  /** `DeletePhoto`. `hostError` is what the photo host reports when asked
      to delete the photo's public id; it is only asked when the photo has
      one, and `hostDeletion` records that request. */
  function DeletePhoto(users: seq<AppUser>, caller: string, photoId: int, hostError: Option<string>, saveOk: bool)
    : (r: DeleteStep)
    requires UserRepository.FindUser(users, caller).Some?
    ensures
      var u := CallerIndex(users, caller);
      var photos := users[u].photos;
      var t := PhotoIndex(photos, photoId);
      && (t.None? ==> r == DeleteStep(users, NotFound(None), None))
      && (t.Some? && photos[t.value].isMain ==> r == DeleteStep(users, BadRequest("You cannot delete your main photo"), None))
      && (t.Some? && !photos[t.value].isMain ==> r.hostDeletion == photos[t.value].publicId)
      && (t.Some? && !photos[t.value].isMain && photos[t.value].publicId.Some? && hostError.Some? ==>
            r.users == users && r.result == BadRequest(hostError.value))
      && (r.result == Ok <==>
            t.Some? && !photos[t.value].isMain && (photos[t.value].publicId.None? || hostError.None?) && saveOk)
      && (r.result == Ok ==>
            && |r.users| == |users|
            && (forall j :: 0 <= j < |users| && j != u ==> r.users[j] == users[j])
            && r.users[u] == users[u].(photos := RemoveAt(photos, t.value)))
      && (r.result != Ok ==> r.users == users)
      && (t.Some? && !photos[t.value].isMain && (photos[t.value].publicId.None? || hostError.None?) && !saveOk ==>
            r.result == BadRequest("Failed to delete the photo"))
  {
    var u := CallerIndex(users, caller);
    var photos := users[u].photos;
    match PhotoIndex(photos, photoId)
    case None => DeleteStep(users, NotFound(None), None)
    case Some(t) =>
      if photos[t].isMain then DeleteStep(users, BadRequest("You cannot delete your main photo"), None)
      else if photos[t].publicId.Some? && hostError.Some? then
        DeleteStep(users, BadRequest(hostError.value), photos[t].publicId)
      else if saveOk then
        DeleteStep(users[u := users[u].(photos := RemoveAt(photos, t))], Ok, photos[t].publicId)
      else DeleteStep(users, BadRequest("Failed to delete the photo"), photos[t].publicId)
  }

  /** Removing one photo keeps the others as a multiset and removes only
      that photo's main flag from the count. */
  lemma {:induction false} RemovePhotoFacts(photos: seq<Photo>, t: nat)
    requires t < |photos|
    ensures multiset(RemoveAt(photos, t)) + multiset{photos[t]} == multiset(photos)
    ensures CountMain(RemoveAt(photos, t)) == CountMain(photos) - (if photos[t].isMain then 1 else 0)
  {
    assert photos == photos[..t] + ([photos[t]] + photos[t + 1..]);
    CountMainSplit(photos[..t], [photos[t]] + photos[t + 1..]);
    CountMainSplit(photos[..t], photos[t + 1..]);
    assert ([photos[t]] + photos[t + 1..])[1..] == photos[t + 1..];
  }

  /** A successful delete removes exactly one photo, the one with that id,
      and keeps the main photo. */
  lemma DeleteRemovesOnlyThatPhoto(users: seq<AppUser>, caller: string, photoId: int, hostError: Option<string>)
    requires UserRepository.FindUser(users, caller).Some?
    requires DeletePhoto(users, caller, photoId, hostError, true).result == Ok
    requires UniquePhotoIds(users[CallerIndex(users, caller)].photos)
    ensures
      var u := CallerIndex(users, caller);
      var after := DeletePhoto(users, caller, photoId, hostError, true).users[u].photos;
      && multiset(after) + multiset{users[u].photos[PhotoIndex(users[u].photos, photoId).value]} == multiset(users[u].photos)
      && (forall j :: 0 <= j < |after| ==> after[j].id != photoId)
      && CountMain(after) == CountMain(users[u].photos)
  {
    var u := CallerIndex(users, caller);
    var photos := users[u].photos;
    var t := PhotoIndex(photos, photoId).value;
    RemovePhotoFacts(photos, t);
  }

  lemma {:induction false} CountMainSplit(a: seq<Photo>, b: seq<Photo>)
    ensures CountMain(a + b) == CountMain(a) + CountMain(b)
  {
    if |a| > 0 {
      CountMainSplit(a[1..], b);
      assert (a + b)[1..] == a[1..] + b;
    } else {
      assert a + b == b;
    }
  }
}
